=== FILE: README.md ===
# MoYu robot: a verified model of the control logic

MoYu is a small mobile robot with a six-joint arm, driven in three ways: from a web page, where
one visitor at a time holds control and the others queue; from a voice assistant, through MCP
(Model Context Protocol) tools; and from a separate training server that runs learning jobs and
serves their logs. This project models the rule logic behind these front ends and proves what
that logic promises.

The model covers:

- **MCP pipe** (`McpPipe`): the launcher that connects MCP servers to a WebSocket endpoint. It
  covers the memoised configuration load and the resolution of a target into an argv and an
  environment (or the matching configuration error). It also covers the never-reset doubling
  reconnect backoff and the enabled/skipped split of `run`.
- **Session manager** (`Session`): one active controller plus a duplicate-free waiting list,
  with VIP and ordinary timeouts. The clock is an explicit `now`.
- **Older web controller** (`WebController`): the same queue written inline in the route
  handlers, with its own rules. A returning owner keeps the original start time, `/vip` takes
  over unconditionally, and `/wait` queues only while another session is live. It also holds
  the `/control` dispatch, gated by the movement switch.
- **Robot command state** (`RobotService`): the `current_action` dictionary that predefined
  commands, custom velocities and arm positions update in place. It includes the clamp on the
  servo-speed ratio and the control-loop watchdog that zeroes velocities after a timeout.
- **MCP tool arguments** (`McpServer`): speed levels, direction and gripper checks, joint
  clamping to safe ranges, the multi-joint tool and the smooth-motion interpolation. It also
  covers the nod/shake/twist gestures, the fixed poses and the capture-file-name sanitiser.
- **Training server** (`RemoteTrain`): the `--output_dir` extraction with Python's leftmost,
  backtracking regex semantics, and the per-task process, log and config tables. It covers log
  trimming to the last 1000 entries, the status, stop and start handlers, upload path
  rewriting, and the newest-first listings.

Objects whose fields the source updates in place are classes (`Session.SessionManager`,
`WebController.Controller`, `RobotService.Service`, `McpPipe.Pipe`, `McpServer.SpeedSetting`,
`RemoteTrain.TrainServer`). Their methods state the whole new state. Every class except
`McpPipe.Pipe`, whose one field is a memo, also keeps a `Valid()` invariant. Pure rules are functions, with lemmas for the properties that relate several calls.

Everything outside the program's own logic becomes a parameter:

- time, fresh UUIDs and timestamps;
- whether a path exists, the parsed JSON document, `str.isalnum`;
- whether the robot accepted a command, whether a child process exits after SIGTERM;
- the lines a child process prints.

Two behaviours of the pipe are easy to misread, and the model follows the code in both:

- **Reconnect backoff.** The backoff starts at 1 second but is doubled as soon as a failure is
  caught, before the next sleep, so the first retry already waits 2 seconds and the waits run
  2, 4, 8, … up to 600 (`McpPipe.BackoffClosedForm`).
- **`run` with a target.** `run(target)` only checks `os.path.exists(target)` and exits
  otherwise, so a configured server name that is not also a path is refused (`McpPipe.Run`).

## Model

| member | source | states |
|---|---|---|
| McpPipe.Lookup | pi_client/moyurobot/mcp/pipe.py:77-80 | `target in servers` fails exactly for names that are not configured; a hit is that server's own entry |
| McpPipe.TransportOf | pi_client/moyurobot/mcp/pipe.py:84 | the lower-cased `type`, else the lower-cased `transportType`, else `stdio` |
| McpPipe.OddHit | pi_client/moyurobot/mcp/pipe.py:77-80 | when `mcpServers` is not an object, `target in servers` raises for null and numbers, is a substring test for text and an item test for a list; a hit then fails on indexing |
| McpPipe.OddTruthy | pi_client/moyurobot/mcp/pipe.py:237 | null, "", [], 0 and false are falsy, so `or {}` replaces them by an empty object |
| McpPipe.HeaderFlagsAt | pi_client/moyurobot/mcp/pipe.py:104-106 | header i contributes exactly `-H`, its name, its value, at positions 3i..3i+2, in document order |
| McpPipe.HeaderFlags | pi_client/moyurobot/mcp/pipe.py:104-106 | `-H name value` for each header in document order; its layout is stated by `McpPipe.HeaderFlagsAt` and `McpPipe.HeaderFlagsLength` |
| McpPipe.HeaderFlagsLength | pi_client/moyurobot/mcp/pipe.py:104-106 | the header flags are three words per header |
| McpPipe.ChildEnv | pi_client/moyurobot/mcp/pipe.py:86-88 | the child environment has the inherited keys plus the entry's; the entry's values win, the inherited ones are kept otherwise |
| McpPipe.ProxyArgv | pi_client/moyurobot/mcp/pipe.py:101-107 | the proxy argv starts `python -m mcp_proxy`, ends with the url, and carries `--transport streamablehttp` iff the type is http or streamablehttp |
| McpPipe.ProxyHeaderPosition | pi_client/moyurobot/mcp/pipe.py:101-107 | each header sits right after the prefix and the optional transport flag, in order |
| McpPipe.BuildServerCommand | pi_client/moyurobot/mcp/pipe.py:66-116 | a disabled entry always fails whatever its fields; an unknown type fails as unsupported; stdio needs a command and launches command ++ args; sse/http need a url and launch the proxy; a `mcpServers` that is not an object fails exactly when the target hits it; any other unconfigured name launches `[python, path]` iff the path exists |
| McpPipe.Pipe.constructor | pi_client/moyurobot/mcp/pipe.py:35-45 | the config path is the argument, else `MCP_CONFIG`; the memo starts empty |
| McpPipe.Pipe.ConfigFile | pi_client/moyurobot/mcp/pipe.py:52 | the configured path if any, else `mcp_config.json` inside the working directory |
| McpPipe.Pipe.LoadConfig | pi_client/moyurobot/mcp/pipe.py:47-64 | a set memo is returned unchanged; otherwise a missing file or a parse error gives `{}` and a parsed document is stored and returned |
| McpPipe.LoadConfigTwice | pi_client/moyurobot/mcp/pipe.py:49-50 | a second load returns the first result without reading the file again (unless the document itself was null) |
| McpPipe.BackoffAfter | pi_client/moyurobot/mcp/pipe.py:121-134 | the backoff after k failures, each failure doubling it up to 600; its closed form and bounds are `McpPipe.BackoffClosedForm` and `McpPipe.BackoffBounds` |
| McpPipe.BackoffClosedForm | pi_client/moyurobot/mcp/pipe.py:121-134 | after k failures the backoff is min(2^k, 600): the first retry waits 2 s |
| McpPipe.BackoffBounds | pi_client/moyurobot/mcp/pipe.py:121-134 | the backoff stays within [1, 600], is at least 2 after a failure, and never decreases as failures accumulate |
| McpPipe.ConnectWithRetry | pi_client/moyurobot/mcp/pipe.py:118-134 | attempt i sleeps 0 before any failure and otherwise the backoff for the failures so far; the attempt counter counts every failure and is never reset |
| McpPipe.Run | pi_client/moyurobot/mcp/pipe.py:228-255 | with a target, serve it iff the path exists, else exit; without one, a non-object config fails, a falsy `mcpServers` counts as no servers, a truthy non-object one fails on `.keys()`, and an empty enabled set raises |
| McpPipe.EnabledNames | pi_client/moyurobot/mcp/pipe.py:239 | the names of the entries that are not disabled, once each, in document order (`McpPipe.EnabledNamesAppend`, `McpPipe.EnabledNamesSingleton`); membership by `McpPipe.EnabledNamesSpec` |
| McpPipe.NotIn | pi_client/moyurobot/mcp/pipe.py:240 | the names not in the enabled list, in their order (`McpPipe.NotInAppend`, `McpPipe.NotInSingleton`); membership by `McpPipe.NotInSpec` |
| McpPipe.EnabledNamesAppend | pi_client/moyurobot/mcp/pipe.py:239 | the enabled names of a concatenation are those of each part, in order |
| McpPipe.EnabledNamesSingleton | pi_client/moyurobot/mcp/pipe.py:239 | one entry contributes its name exactly when it is not disabled |
| McpPipe.NotInAppend | pi_client/moyurobot/mcp/pipe.py:240 | the skipped names of a concatenation are those of each part, in order |
| McpPipe.NotInSingleton | pi_client/moyurobot/mcp/pipe.py:240 | one name is kept exactly when it is not in the excluded list |
| McpPipe.EnabledNamesSpec | pi_client/moyurobot/mcp/pipe.py:239 | a name is enabled iff its entry is configured and not disabled |
| McpPipe.NotInSpec | pi_client/moyurobot/mcp/pipe.py:240 | `skipped` holds exactly the names not enabled |
| McpPipe.RunPartition | pi_client/moyurobot/mcp/pipe.py:235-245 | with no target, every configured server is started or skipped, never both; skipped exactly when disabled; all disabled raises |
| Session.WaitingView | src/moyurobot/web/session.py:160-163 | the shown list is the waiting list without the active username; a list without that name is shown unchanged |
| Session.WaitingViewNoDup | src/moyurobot/web/session.py:160-163 | filtering keeps a duplicate-free list duplicate-free |
| Session.WaitingViewAppend | src/moyurobot/web/session.py:160-163 | the view of a concatenation is the concatenation of the views, so the shown names keep their queue order |
| Session.WaitingViewSingleton | src/moyurobot/web/session.py:160-163 | one queued name is shown exactly when it is not the active one |
| Session.SessionManager.constructor | src/moyurobot/web/session.py:41-44 | no active user, nobody waiting |
| Session.SessionManager.TimeoutSeconds | src/moyurobot/web/session.py:46-50 | 600 for a VIP holder, 100 otherwise (the environment defaults) |
| Session.SessionManager.RemainingSeconds | src/moyurobot/web/session.py:62-71 | whole seconds left, never negative; 0 without a holder or once expired |
| Session.SessionManager.IsSessionActive | src/moyurobot/web/session.py:52-60 | a holder exists and less than its timeout has elapsed since it started; used by `RemainingSeconds` and `SessionInfoAt` |
| Session.SessionManager.SessionInfoAt | src/moyurobot/web/session.py:143-175 | `is_active_user` iff the session is live and the id matches; remaining ≥ 0 and 0 unless current; owner and VIP cleared when expired; the waiting list is exactly the queue without the owner, in queue order |
| Session.SessionManager.WaitingInfoAt | src/moyurobot/web/session.py:177-206 | no owner and 0 remaining unless a session is live; otherwise the owner and the remaining seconds; the waiting list is exactly the queue without the owner, in queue order |
| Session.SessionManager.HeldByOther | src/moyurobot/web/session.py:96-100 | the session is live and held by a different id: the refusal condition of `TryAcquireControl` |
| Session.SessionManager.TryAcquireControl | src/moyurobot/web/session.py:81-116 | refused iff another id holds a live session; then the holder is kept and only a new non-empty name is appended; otherwise the caller becomes holder at `now` and leaves the queue; the list stays duplicate-free |
| Session.SessionManager.ReleaseControl | src/moyurobot/web/session.py:118-141 | succeeds iff the id equals the holder's (None equals None); success resets the holder and unqueues its name; failure changes nothing |
| Session.SessionManager.AddToWaitingList | src/moyurobot/web/session.py:208-212 | appends a non-empty name only if absent; the holder is unchanged and the list stays duplicate-free |
| Session.SessionManager.IsActiveUser | src/moyurobot/web/session.py:73-79 | the intended query: the id holds the active session and it has not expired (the corrected member of the finding below) |
| Session.SessionManager.IsActiveUserAsWritten | src/moyurobot/web/session.py:73-79 | the call hangs exactly when the ids match and never answers yes |
| Session.SessionManager.IsActiveUserAgreement | src/moyurobot/web/session.py:73-79 | the intended query agrees with `get_session_info`'s `is_active_user`, and the code as written hangs for every caller it should accept |
| Session.IsActiveUserCounterexample | src/moyurobot/web/session.py:73-79 | a concrete holder asking about itself: intended answer yes, actual call hangs |
| WebController.Positive | src/moyurobot/web/controller.py:459-460 | `duration > 0` is defined for numbers and booleans only, and is their truth |
| WebController.Get | src/moyurobot/web/controller.py:459 | `data.get(k, default)` |
| WebController.PosEntries | src/moyurobot/web/controller.py:468 | exactly the entries whose key ends in `.pos`, with their values |
| WebController.HasPosKey | src/moyurobot/web/controller.py:467 | some key of the body ends in `.pos` |
| WebController.HasPosKeyNonEmpty | src/moyurobot/web/controller.py:467-468 | the arm branch is taken exactly when it has at least one `.pos` entry to send |
| WebController.Controller.constructor | src/moyurobot/web/controller.py:40-54 | no active user, nobody waiting, movement disabled |
| WebController.Controller.Timeout | src/moyurobot/web/controller.py:199 | 600 for a VIP holder, 100 otherwise |
| WebController.Controller.IsActive | src/moyurobot/web/controller.py:196-201 | a holder with a positive start time whose timeout has not elapsed |
| WebController.Controller.Remaining | src/moyurobot/web/controller.py:208 | whole seconds left of a live session, never negative, 0 otherwise |
| WebController.Controller.WaitingPage | src/moyurobot/web/controller.py:299-308 | the owner is shown only while the session is live; the queue is shown without the owner and in queue order; the timeout and the remaining time, 0 when no session is live |
| WebController.Controller.Enqueue | src/moyurobot/web/controller.py:205-206 | appends a name only if absent |
| WebController.Controller.Dequeue | src/moyurobot/web/controller.py:228-229 | removes the name's one occurrence and nothing else |
| WebController.Controller.Index | src/moyurobot/web/controller.py:182-233 | no login redirects; a non-owner facing a live session gets 429 and is queued once; with no live session the requester takes over as non-VIP at `now` and leaves the queue; a returning owner keeps the start time and only the username is refreshed |
| WebController.Controller.Vip | src/moyurobot/web/controller.py:245-262 | a logged-in visitor takes over unconditionally as VIP at `now` and leaves the queue |
| WebController.Controller.Wait | src/moyurobot/web/controller.py:274-309 | queues only while another id holds a live session; always shows the waiting page |
| WebController.Controller.ExitControl | src/moyurobot/web/controller.py:332-359 | 200 iff the cookie id is the holder's; then the holder is cleared and the requester unqueued; 403 changes nothing |
| WebController.Controller.SessionInfoAt | src/moyurobot/web/controller.py:361-389 | `is_active_user` iff live and the id matches; remaining only for the holder; owner and VIP cleared when not live; the waiting list is exactly the queue without the owner, in queue order |
| WebController.Controller.StartMove | src/moyurobot/web/controller.py:405-414 | movement enabled |
| WebController.Controller.StopMove | src/moyurobot/web/controller.py:416-430 | movement disabled, and the robot stopped whenever a service exists |
| WebController.Controller.ControlDispatch | src/moyurobot/web/controller.py:432-494 | disabled movement, a missing service or an empty body stop first; then `command` (timed iff duration > 0, a comparison failure when it is not a number), then only the `.pos` entries, then the three velocities (timed likewise); each branch is taken exactly when its condition holds, and "invalid format" exactly when none does |
| RobotService.PredefinedVelocity | src/moyurobot/core/robot_service.py:295-314 | exactly the seven commands are known; forward/backward move +/- x, left/right +/- y, rotate_left/rotate_right +/- theta, each at the configured speed and on that axis only; `stop` is all zero |
| RobotService.WithVelocity | src/moyurobot/core/robot_service.py:289-293 | sets the three velocity fields and keeps every other field |
| RobotService.ApplyKnown | src/moyurobot/core/robot_service.py:430-432 | requested keys already in the action take the requested value; unknown keys are ignored; the key set is unchanged |
| RobotService.ServoSettingsFor | src/moyurobot/core/robot_service.py:451-461 | the ratio is clamped to [0.05, 1]; goal speed in [120, 2400] is its truncated share of 2400; acceleration in [5, 25] |
| RobotService.WatchdogAction | src/moyurobot/core/robot_service.py:520-526 | past the timeout the velocities are zeroed; arm fields are never touched |
| RobotService.TrippedByExtend | src/moyurobot/core/robot_service.py:516-526 | one more tick has tripped the watchdog iff an earlier tick had or this tick sees the timeout exceeded |
| RobotService.WatchdogIdempotent | src/moyurobot/core/robot_service.py:520-526 | a watchdog firing again on a later tick changes nothing more |
| RobotService.Service.constructor | src/moyurobot/core/robot_service.py:115-134 | all nine action fields at zero, not running, last command at 0 |
| RobotService.Service.ExecutePredefinedCommand | src/moyurobot/core/robot_service.py:279-322 | disconnected: failure, nothing changes; a known command zeroes the velocities then sets its axis and stamps the time; an unknown one fails with the velocities already zeroed and the time unchanged |
| RobotService.Service.ExecuteCustomVelocity | src/moyurobot/core/robot_service.py:331-352 | disconnected: failure, nothing changes; otherwise exactly the three velocities are set |
| RobotService.Service.MoveRobotForDuration | src/moyurobot/core/robot_service.py:361-384 | the command's failure comes back unchanged, with the new state of `execute_predefined_command`; a timed stop is scheduled iff it succeeded, is not `stop` and the duration is positive |
| RobotService.Service.MoveRobotWithCustomSpeedForDuration | src/moyurobot/core/robot_service.py:386-412 | failure only when disconnected, and then nothing changes; otherwise the three velocities are set and the time stamped; a timed stop iff the duration is positive |
| RobotService.Service.SetArmPosition | src/moyurobot/core/robot_service.py:414-442 | disconnected: nothing changes; otherwise only known keys are updated, and the servos are configured the first time or when the configured speed changed |
| RobotService.Service.StopRobot | src/moyurobot/core/robot_service.py:476-478 | the velocities are zeroed, arm fields kept and the time stamped; disconnected: nothing changes |
| RobotService.Service.ResetArm | src/moyurobot/core/robot_service.py:491-501 | the five joints go to 0 and the gripper to 50, velocities unchanged, the time stamped and the servos configured as in `set_arm_position`; disconnected: nothing changes |
| RobotService.Service.SetGripper | src/moyurobot/core/robot_service.py:503-510 | only the gripper field changes, the time is stamped and the servos configured as in `set_arm_position`; disconnected: nothing changes |
| RobotService.Service.WatchdogStep | src/moyurobot/core/robot_service.py:516-531 | one loop pass applies the watchdog and sends the resulting action |
| RobotService.Service.ControlLoop | src/moyurobot/core/robot_service.py:512-541 | runs only while running and connected; every tick sends the action, with velocities zeroed from the first timed-out tick on; the action left behind is the last one sent; arm fields never change |
| McpServer.LevelIndex | pi_client/moyurobot/mcp/server.py:296-301 | slow/medium/fast map to 0/1/2; any other level has no index |
| McpServer.SpeedSetting.constructor | pi_client/moyurobot/mcp/server.py:40 | the medium level is the default |
| McpServer.SpeedSetting.Current | pi_client/moyurobot/mcp/server.py:327 | the reported level is one of the three defined levels |
| McpServer.SpeedSetting.SetSpeedLevel | pi_client/moyurobot/mcp/server.py:286-315 | a known level sets the index and replies with its name; any other is an error and leaves the index unchanged |
| McpServer.MoveRobot | pi_client/moyurobot/mcp/server.py:189-213 | no service fails; only the five directions pass, unchanged with their duration |
| McpServer.RotateRobot | pi_client/moyurobot/mcp/server.py:217-258 | only rotate_left/right with a positive angle pass; the duration is angle / 20 |
| McpServer.ControlGripper | pi_client/moyurobot/mcp/server.py:354-390 | open → 80, close → 0, any other action is an error |
| McpServer.JointInfoFor | pi_client/moyurobot/mcp/server.py:677-684 | exactly six joints are known, with key `arm_<name>.pos` and safe range [-50, 50] ([0, 50] for the gripper) |
| McpServer.JointKeysDistinct | pi_client/moyurobot/mcp/server.py:677-684 | distinct joints have distinct action keys |
| McpServer.Clamp | pi_client/moyurobot/mcp/server.py:692 | the result lies in the safe range, and equals the position iff the position already did |
| McpServer.ClampIdempotent | pi_client/moyurobot/mcp/server.py:692 | clamping twice is clamping once |
| McpServer.ControlArmJointLimited | pi_client/moyurobot/mcp/server.py:659-714 | an unknown joint is an error; otherwise the clamped position of the joint's key, with `was_clamped` iff the position changed |
| McpServer.KeyOf | pi_client/moyurobot/mcp/server.py:935 | a known joint's action key |
| McpServer.ClampEntry | pi_client/moyurobot/mcp/server.py:933 | an entry's clamped position lies in its joint's safe range |
| McpServer.ClampAllAt | pi_client/moyurobot/mcp/server.py:926-946 | every requested joint appears under its key with its clamped position |
| McpServer.ClampAllKeys | pi_client/moyurobot/mcp/server.py:926-946 | no key appears that was not requested |
| McpServer.ClampAll | pi_client/moyurobot/mcp/server.py:926-946 | the clamped plan, one entry per joint key; stated by `McpServer.ClampAllAt` and `McpServer.ClampAllKeys` |
| McpServer.KeysDistinct | pi_client/moyurobot/mcp/server.py:926-946 | entries with distinct names write distinct keys |
| McpServer.CountClamped | pi_client/moyurobot/mcp/server.py:941-946 | the count never exceeds the number of joints and is 0 iff no position changed |
| McpServer.Requested | pi_client/moyurobot/mcp/server.py:913-920 | a non-empty object is used as given; an empty one becomes one drawn value per known joint |
| McpServer.ClampJoints | pi_client/moyurobot/mcp/server.py:926-946 | fails at the first unknown name, before anything moves; otherwise returns every joint clamped and the clamp count |
| McpServer.DrawnInRange | pi_client/moyurobot/mcp/server.py:914-919 | the values drawn for an empty object: one per joint, each within that joint's safe range |
| McpServer.ControlMultipleArmJointsLimited | pi_client/moyurobot/mcp/server.py:878-969 | unparsable JSON and non-objects are errors; an unknown joint aborts; otherwise the clamped plan, the joint names in order and the number clamped; an empty object moves all six joints and clamps none |
| McpServer.MultiPlanSafe | pi_client/moyurobot/mcp/server.py:926-960 | the count is at most the number of joints and every planned position lies in its safe range |
| McpServer.StartPositions | pi_client/moyurobot/mcp/server.py:81-89 | the observed value of each target key (0 if missing), or the targets when the observation fails |
| McpServer.NeedsMovement | pi_client/moyurobot/mcp/server.py:91-95 | some target differs from its start by more than 0.5 |
| McpServer.Interpolate | pi_client/moyurobot/mcp/server.py:133-140 | one value per target key |
| McpServer.BetweenEnds | pi_client/moyurobot/mcp/server.py:138 | a point of the segment at a fraction in [0, 1] lies between its ends |
| McpServer.InterpolateEndpoints | pi_client/moyurobot/mcp/server.py:133-140 | step 0 sends the start, the last step the targets, every step lies in between |
| McpServer.SmoothArmMotion | pi_client/moyurobot/mcp/server.py:77-177 | skipped with nothing sent when every joint is within 0.5; zero steps fail; otherwise step i sends the interpolation at i, and the first refused step stops the motion with `completed_steps` = i, `total_steps` = steps |
| McpServer.MoveToPose | pi_client/moyurobot/mcp/server.py:461-514 | the reset and attention tools: skipped iff no joint of the observed start is more than 0.5 from the pose; completed iff it must move and all eleven steps are accepted, ending exactly at the pose; every step sent is the interpolation from the start; a failure reports the steps completed before the first refused one |
| McpServer.GesturePlan | pi_client/moyurobot/mcp/server.py:419-449 | 2·times poses, alternating first and second |
| McpServer.GestureReply | pi_client/moyurobot/mcp/server.py:416-458 | the reply of a gesture: success iff every command is accepted and no sleep raised, echoing times and pause, with the whole plan and centre sent; a negative pause after an accepted first command is the exception reply; otherwise a prefix of the plan ending at the first refused command, `completed_cycles` counting the full cycles before it |
| McpServer.Gesture | pi_client/moyurobot/mcp/server.py:416-458 | the shared gesture loop produces exactly the reply `GestureReply` describes |
| McpServer.NodHead | pi_client/moyurobot/mcp/server.py:394-458 | no service is an error; otherwise the `GestureReply` of 60/0 without centre: success iff all 2·times commands are accepted and the pause is not negative, failures at the first refused command; the wrist flex only goes to 60 and 0 |
| McpServer.ShakeHead | pi_client/moyurobot/mcp/server.py:517-584 | no service is an error; otherwise the `GestureReply` of -40/40 with centre 0; the wrist roll only goes to -40, 40 and 0 |
| McpServer.TwistWaist | pi_client/moyurobot/mcp/server.py:587-656 | no service is an error; otherwise the `GestureReply` of -10/10 with centre 0, one smooth motion per command; the shoulder pan only goes to -10, 10 and 0 |
| McpServer.KeepAllowed | pi_client/moyurobot/mcp/server.py:749 | keeps exactly the alphanumerics and `-_.`; an already safe name is unchanged |
| McpServer.KeepAllowedAppend | pi_client/moyurobot/mcp/server.py:749 | filtering works character by character and keeps their order: the kept part of a concatenation is the concatenation of the kept parts |
| McpServer.KeepAllowedSingleton | pi_client/moyurobot/mcp/server.py:749 | one character is kept exactly when it is allowed |
| McpServer.SafeFilename | pi_client/moyurobot/mcp/server.py:749-751 | the input with every other character dropped, or the fallback when nothing survives |
| McpServer.SafeFilenameIdempotent | pi_client/moyurobot/mcp/server.py:749-751 | sanitising twice is sanitising once |
| RemoteTrain.Span | train_server/remote_train.py:66 | a greedy repetition consumes the longest run of its class |
| RemoteTrain.LastStart | train_server/remote_train.py:66 | backtracking gives back separators until the group can start, keeping at least one |
| RemoteTrain.GroupAfter | train_server/remote_train.py:66 | past the literal, a capture starts after at least one separator and is a non-empty run of group characters |
| RemoteTrain.MatchAt | train_server/remote_train.py:66 | a match anchored at p captures a non-empty run of non-space, non-backslash characters |
| RemoteTrain.MatchAtSound | train_server/remote_train.py:66 | a match is the literal, separators only, then the maximal group |
| RemoteTrain.MatchAtComplete | train_server/remote_train.py:66 | the anchored matcher succeeds exactly where the pattern can match |
| RemoteTrain.Search | train_server/remote_train.py:66 | `re.search` returns the leftmost match and none when no position matches |
| RemoteTrain.ExtractOutputDir | train_server/remote_train.py:65-67 | a found directory is non-empty and has no whitespace or backslash |
| RemoteTrain.ExtractOutputDirSpec | train_server/remote_train.py:65-67 | a result exists iff the pattern matches somewhere, and it is group 1 of the leftmost match |
| RemoteTrain.GroupAfterLayout | train_server/remote_train.py:66 | after a maximal separator run, group 1 is exactly the maximal run of group characters that follows |
| RemoteTrain.ExtractAfterFlag | train_server/remote_train.py:65-67 | flag, separators, then a directory ended by a space or backslash (or the end) yield exactly that directory |
| RemoteTrain.ExtractBacktracksIntoSeparators | train_server/remote_train.py:66 | `--output_dir==` yields `=`: the regex backtracks into the separators |
| RemoteTrain.Trim | train_server/remote_train.py:113-114 | keeps the last min(n, 1000) entries |
| RemoteTrain.TrimAppend | train_server/remote_train.py:110-114 | trimming after each line keeps what one trim of everything keeps: the most recent 1000 |
| RemoteTrain.CollectStep | train_server/remote_train.py:110-114 | one more line keeps the collector's invariant |
| RemoteTrain.RStrip | train_server/remote_train.py:112 | removes exactly the trailing whitespace |
| RemoteTrain.Entries | train_server/remote_train.py:110-112 | one log entry per line, stamped and stripped of trailing whitespace |
| RemoteTrain.CollectLines | train_server/remote_train.py:110-114 | after the lines the log is the trim of the old log plus every new entry, at most 1000 long, and the dropped count accounts for the rest |
| RemoteTrain.SliceFrom | train_server/remote_train.py:149 | Python's `s[k:]`, negative k counting from the end |
| RemoteTrain.LogsSince | train_server/remote_train.py:149 | `logs[last_index:]`: always a suffix of the log, the last n - k entries for 0 <= k <= n, none past the end, the last -k for a negative k |
| RemoteTrain.LogsSinceCorrected | train_server/remote_train.py:146-149 | a suffix of the log; the whole log when the index lies before the kept entries |
| RemoteTrain.StatusStallsOnceFull | train_server/remote_train.py:112-114 | once the log is full, a client that has caught up receives nothing more, however much is printed |
| RemoteTrain.CorrectedStatusDeliversNewLines | train_server/remote_train.py:146-149 | with a lifetime index, a caught-up client receives exactly the new lines (up to 1000 between polls) |
| RemoteTrain.StripSlashes | train_server/remote_train.py:75 | `rstrip('/')` |
| RemoteTrain.Basename | train_server/remote_train.py:75 | the text after the last `/` |
| RemoteTrain.PackModel | train_server/remote_train.py:70-81 | succeeds iff the directory is given, exists and archiving works; the archive is exactly `<basename>_<stamp>.zip`; a missing directory gives "目录不存在: " followed by the value (`None` when absent); an archiver error is passed through |
| RemoteTrain.TrainServer.constructor | train_server/remote_train.py:20-22 | empty tables |
| RemoteTrain.TaskIdOf | train_server/remote_train.py:94 | the request's `task_id` when present, else the timestamped default |
| RemoteTrain.TrainServer.StartTraining | train_server/remote_train.py:84-132 | no command is 400 and changes nothing; otherwise a running process of that id is terminated first, the config is recorded and the log reset (even if spawning then fails), and a spawned process is registered as running |
| RemoteTrain.TrainServer.CollectOutput | train_server/remote_train.py:108-114 | that task's log becomes the trim of its old log plus the new lines; other tasks are untouched |
| RemoteTrain.TrainServer.FinishTask | train_server/remote_train.py:115-125 | the exit code is recorded; after a clean exit with an output directory the packing messages (and the shutdown notice) are appended; shutdown only when requested |
| RemoteTrain.TrainServer.TrainingStatus | train_server/remote_train.py:135-150 | a missing task id is 400; an unknown task is not running with no exit code; logs from `last_index` on and `last_index` = the log's length |
| RemoteTrain.TrainServer.TrainingStatusCorrected | train_server/remote_train.py:135-150 | the same replies, with `last_index` counting every entry ever logged |
| RemoteTrain.TrainServer.StopTraining | train_server/remote_train.py:153-170 | a missing or unknown task is 404 and changes nothing; a running one is terminated (or killed) and gets the stop message; a finished one is left alone |
| RemoteTrain.FirstSegment | train_server/remote_train.py:220 | `split('/')[0]` |
| RemoteTrain.OriginalRoot | train_server/remote_train.py:220 | the first path's first segment, only when that path has a `/` |
| RemoteTrain.RootFolder | train_server/remote_train.py:221 | `<root>_<stamp>`, or `upload_<stamp>` when there is no root |
| RemoteTrain.RewritePath | train_server/remote_train.py:231-232 | a path under `root/` moves under `root_<stamp>/` with the same remainder; any other path is kept |
| RemoteTrain.SavedUpTo | train_server/remote_train.py:226-240 | at most one saved file per part |
| RemoteTrain.SavedUnderRootFolder | train_server/remote_train.py:226-240 | when every named part lies under the root, every saved file lies under the stamped root |
| RemoteTrain.FolderUploadStaysTogether | train_server/remote_train.py:220-240 | a browser folder upload lands entirely under `root_<stamp>/` |
| RemoteTrain.UploadFolder | train_server/remote_train.py:208-250 | no `files` field and no files are the two 400s; otherwise the stamped root, every saved part under its rewritten path, and the total of their sizes |
| RemoteTrain.InsertNewestFirst | train_server/remote_train.py:59 | insertion keeps newest-first order and the same elements plus one |
| RemoteTrain.SortNewestFirst | train_server/remote_train.py:59 | newest-first, and a permutation of the input |
| RemoteTrain.Datasets | train_server/remote_train.py:50-58 | exactly one entry per subdirectory, in directory order (`RemoteTrain.DatasetsAppend`, `RemoteTrain.DatasetsSingleton`), and nothing else |
| RemoteTrain.DatasetsAppend | train_server/remote_train.py:50-58 | the listing of a concatenation is the listings of the parts, in order |
| RemoteTrain.DatasetsSingleton | train_server/remote_train.py:50-58 | one entry is listed once if it is a directory, and not at all otherwise |
| RemoteTrain.IsValidDataset | train_server/remote_train.py:53 | a dataset is valid iff it has `meta`, `data` and `videos` subdirectories |
| RemoteTrain.ListDatasets | train_server/remote_train.py:42-62 | every subdirectory once, newest first, valid iff it has meta, data and videos |
| RemoteTrain.Models | train_server/remote_train.py:181-189 | exactly one entry per `.zip` file, in directory order (`RemoteTrain.ModelsAppend`, `RemoteTrain.ModelsSingleton`), and nothing else |
| RemoteTrain.ModelsAppend | train_server/remote_train.py:181-189 | the listing of a concatenation is the listings of the parts, in order |
| RemoteTrain.ModelsSingleton | train_server/remote_train.py:181-189 | one entry is listed once if it is a `.zip` file, and not at all otherwise |
| RemoteTrain.ListModels | train_server/remote_train.py:173-193 | every `.zip` file once, newest first, and nothing else |

## Left out

- Concurrency: locks, threads and the asyncio pumps. Every handler, command and collector step is one atomic step. The interleaving of the log collector with status polls is not modelled, and neither is the collector of a restarted task, which goes on appending to the new log list.
- WebSocket, subprocess, signal and `sys.exit` handling in the pipe: the three pumps and the shutdown handler.
- Flask routing, cookies, templates and HTTP bodies: replies are result tags and status codes. A `/control`, `/stop_training` or `/start_training` body that is JSON but not an object is not modelled beyond the 500 of stop; `/start_training` answers such a body with 400 when it is empty or lacks `command`, and with 500 through the `TypeError` otherwise (train_server/remote_train.py:90-93, 131-132).
- Hardware: robot connection, motor-bus writes, observations and cameras. Their outcomes are parameters (`connected`, `accept`, `observed`).
- Camera capture and file writing, the Qwen image analysis, the `calculator` tool (which uses `eval`) and `get_robot_status`, apart from its speed level.
- `move_robot_with_custom_speed` (the MCP tool): it only checks for a service and delegates to `RobotService.Service.MoveRobotWithCustomSpeedForDuration`.
- The timed stop thread of the duration moves: the model records only whether one is scheduled.
- The `random.uniform` draws of the multi-joint tool are the parameter `randomValues`. `str.isalnum` is the parameter `isAlnum`.
- Floating point: speeds, positions and ratios are mathematical reals. `int()` is truncation toward zero.
- `str.lower()` is modelled on ASCII letters only (`Common.Lower`); a transport type with other upper-case letters keeps them.
- McpServer.ControlMultipleArmJointsLimited: requires the keys of a `joint_positions` object to be distinct, as keys of a JSON object; a text that repeats a key (where `json.loads` keeps the last value) is not represented. Positions are numbers: a string, null, list or object value, which makes `min` raise `TypeError` before anything moves (pi_client/moyurobot/mcp/server.py:933), is not represented, and `true`/`false` stand for 1 and 0.
- McpPipe.BuildServerCommand: requires the configured names to be distinct, as keys of a JSON object; a document that repeats a key (where `json.load` keeps the last value) is not represented.
- The training server's shell execution, `shutdown -h now`, archiving, file saving, `download_model` with `secure_filename`, size and speed formatting, and the embedded HTML page.
- RemoteTrain.TrainServer.FinishTask: the packing messages are appended without trimming, as in the source, so a finished task's log can hold up to 1003 entries until the task is restarted. One stamp stands for the three `strftime` calls.
- The `[错误]` message appended when the collector raises is not modelled. Neither is a non-string `command` or `task_id` in a start request.
- RemoteTrain.CollectLines: requires every line to be non-empty, because `readline` returns "" only at the end of output.
- McpServer.SmoothArmMotion: the temporary servo speed-up and its restoration are motor writes and are left out. `duration / steps` with zero steps is the `Crashed` outcome.
- The other parts of the repository (streaming, configuration plumbing, command line, the second web controller that delegates to the session manager) are not part of this model.

## Findings

| source | as written | input that shows it | evidently intended | confidence | as-written member | corrected member |
|---|---|---|---|---|---|---|
| src/moyurobot/web/session.py:73-79 | `is_active_user` holds the non-reentrant lock and calls `is_session_active`, which takes the same lock | the current holder asks about its own id | answer whether this id holds a live session, as `get_session_info` does | high (not executed) | Session.SessionManager.IsActiveUserAsWritten, Session.IsActiveUserCounterexample | Session.SessionManager.IsActiveUser, Session.SessionManager.IsActiveUserAgreement |
| train_server/remote_train.py:112-114 | once a task's log holds 1000 entries, trimming keeps its length at 1000, so `last_index` (the length) stops growing | a task prints 1001 lines; a client polling with `last_index` = 1000 then gets `logs[1000:]` = [] on every poll while the task keeps printing; only the untrimmed messages appended when it finishes or is stopped get through | `last_index` counts every entry ever logged, so new lines keep arriving after trimming | high (not executed) | RemoteTrain.TrainServer.TrainingStatus, RemoteTrain.StatusStallsOnceFull | RemoteTrain.TrainServer.TrainingStatusCorrected, RemoteTrain.CorrectedStatusDeliversNewLines |

=== FILE: common.dfy ===
/** Small helpers shared by the models: an Option type, Python list and
    string operations that several source files use (`list.remove`,
    `str.startswith`, `str.isspace`, `str.lower`, truthiness of an optional
    string). */
module Common {

  datatype Option<+T> = None | Some(value: T)

  datatype Result<+T, +E> = Ok(value: T) | Err(error: E)

  /** Python truthiness of an optional string: neither None nor "". */
  predicate Truthy(s: Option<string>) {
    s.Some? && s.value != ""
  }

  /** `a or b` on two optional strings. */
  function OrElse(a: Option<string>, b: string): (r: string)
    ensures Truthy(a) ==> r == a.value
    ensures !Truthy(a) ==> r == b
  {
    if Truthy(a) then a.value else b
  }

  predicate NoDup<T(==)>(s: seq<T>) {
    forall i, j :: 0 <= i < j < |s| ==> s[i] != s[j]
  }

  /** Python's `list.remove(x)` when `x in list`: drops the first occurrence. */
  function RemoveFirst<T(==)>(s: seq<T>, x: T): (r: seq<T>)
    decreases |s|
  {
    if s == [] then []
    else if s[0] == x then s[1..]
    else [s[0]] + RemoveFirst(s[1..], x)
  }

  /** Removing from a duplicate-free list removes that element and nothing
      else, and keeps the list duplicate-free. */
  lemma {:induction false} RemoveFirstNoDup<T>(s: seq<T>, x: T)
    requires NoDup(s)
    ensures NoDup(RemoveFirst(s, x))
    ensures x !in RemoveFirst(s, x)
    ensures forall y :: y in RemoveFirst(s, x) <==> y in s && y != x
    ensures x in s ==> |RemoveFirst(s, x)| == |s| - 1
    ensures x !in s ==> RemoveFirst(s, x) == s
    decreases |s|
  {
    if s != [] {
      var t := s[1..];
      assert NoDup(t) by {
        forall i, j | 0 <= i < j < |t| ensures t[i] != t[j] {
          assert t[i] == s[i + 1] && t[j] == s[j + 1];
        }
      }
      assert s[0] !in t by {
        forall k | 0 <= k < |t| ensures t[k] != s[0] { assert t[k] == s[k + 1]; }
      }
      RemoveFirstNoDup(t, x);
      assert s == [s[0]] + t;
      if s[0] != x {
        var r := [s[0]] + RemoveFirst(t, x);
        assert NoDup(r) by {
          forall i, j | 0 <= i < j < |r| ensures r[i] != r[j] {
            if i == 0 {
              assert r[j] in RemoveFirst(t, x);
            } else {
              assert r[i] == RemoveFirst(t, x)[i - 1] && r[j] == RemoveFirst(t, x)[j - 1];
            }
          }
        }
      }
    }
  }

  /** Python's `s.startswith(p)`. */
  predicate StartsWith(s: string, p: string) {
    |p| <= |s| && s[..|p|] == p
  }

  /** Python's `s.endswith(p)`. */
  predicate EndsWith(s: string, p: string) {
    |p| <= |s| && s[|s| - |p|..] == p
  }

  /** The characters for which Python's `str.isspace()` holds (so also the
      class `\s` of a `str` regular expression). */
  predicate IsSpace(c: char) {
    || ('\t' <= c <= '\r') || c == ' '
    || ('\U{1c}' <= c <= '\U{1f}')
    || c == '\U{85}' || c == '\U{a0}' || c == '\U{1680}'
    || ('\U{2000}' <= c <= '\U{200a}')
    || c == '\U{2028}' || c == '\U{2029}' || c == '\U{202f}' || c == '\U{205f}' || c == '\U{3000}'
  }

  /** `str.lower()` restricted to ASCII letters. */
  function LowerChar(c: char): (d: char)
    ensures 'A' <= c <= 'Z' ==> 'a' <= d <= 'z'
    ensures !('A' <= c <= 'Z') ==> d == c
  {
    if 'A' <= c <= 'Z' then (c as int + 32) as char else c
  }

  function Lower(s: string): (r: string)
    ensures |r| == |s|
    ensures forall i :: 0 <= i < |s| ==> r[i] == LowerChar(s[i])
  {
    if s == [] then [] else [LowerChar(s[0])] + Lower(s[1..])
  }

  function Min(a: int, b: int): int { if a <= b then a else b }
  function Max(a: int, b: int): int { if a >= b then a else b }
  function MinReal(a: real, b: real): real { if a <= b then a else b }
  function MaxReal(a: real, b: real): real { if a >= b then a else b }
  function Abs(r: real): real { if r < 0.0 then -r else r }

  /** Python's `int(x)` on a float: truncation toward zero. */
  function Trunc(r: real): (n: int)
    ensures r >= 0.0 ==> n == r.Floor
    ensures r >= 0.0 ==> n as real <= r < n as real + 1.0
    ensures r < 0.0 ==> n <= 0
  {
    if r >= 0.0 then r.Floor else -((-r).Floor)
  }
}

=== FILE: mcp_server.dfy ===
/** The argument rules of the MCP robot tools: speed levels, the direction
    and gripper checks that guard the motion tools, per-joint safe ranges
    with clamping, the multi-joint tool, the interpolation of
    `_smooth_arm_motion`, and the file-name sanitiser of the camera capture.
    Whether `get_service()` produced a service is the parameter
    `hasService`; the robot's replies are parameters too. */
module McpServer {
  import opened Common

  datatype ToolError =
    | ServiceUnavailable
    | InvalidDirection(direction: string)
    | NonPositiveAngle
    | InvalidGripperAction(action: string)
    | InvalidSpeedLevel(level: string)
    | InvalidJoint(name: string)
    | JsonParseFailed
    | NotADict

  // ---- speed levels --------------------------------------------------------

  datatype SpeedLevel = SpeedLevel(xy: real, theta: int, name: string)

  const SpeedLevels: seq<SpeedLevel> :=
    [SpeedLevel(0.1, 30, "慢速"), SpeedLevel(0.2, 60, "中速"), SpeedLevel(0.3, 90, "快速")]

  /** `level_map` */
  function LevelIndex(level: string): (i: Option<nat>)
    ensures i.Some? ==> i.value < |SpeedLevels|
    ensures i.None? <==> level !in {"slow", "medium", "fast"}
    ensures level == "slow" ==> i == Some(0)
    ensures level == "medium" ==> i == Some(1)
    ensures level == "fast" ==> i == Some(2)
  {
    match level
    case "slow" => Some(0)
    case "medium" => Some(1)
    case "fast" => Some(2)
    case _ => None
  }

  /** The module global `current_speed_index`. */
  class SpeedSetting {
    var currentSpeedIndex: nat

    ghost predicate Valid()
      reads this
    {
      currentSpeedIndex < |SpeedLevels|
    }

    constructor ()
      ensures currentSpeedIndex == 1 && Valid()
    {
      currentSpeedIndex := 1;
    }

    /** The level `get_robot_status` reports. */
    function Current(): (s: SpeedLevel)
      requires Valid()
      reads this
      ensures s in SpeedLevels
    {
      SpeedLevels[currentSpeedIndex]
    }

    /** `set_speed_level(level)`: on success the reply carries the level and
        its display name. */
    method SetSpeedLevel(level: string) returns (r: Result<(string, string), ToolError>)
      requires Valid()
      modifies this
      ensures Valid()
      ensures r.Err? <==> LevelIndex(level).None?
      ensures r.Err? ==> r.error == InvalidSpeedLevel(level) && currentSpeedIndex == old(currentSpeedIndex)
      ensures r.Ok? ==> currentSpeedIndex == LevelIndex(level).value
                        && r.value == (level, SpeedLevels[currentSpeedIndex].name)
    {
      match LevelIndex(level) {
        case None =>
          r := Err(InvalidSpeedLevel(level));
        case Some(i) =>
          currentSpeedIndex := i;
          r := Ok((level, SpeedLevels[i].name));
      }
    }
  }

  // ---- motion tools ---------------------------------------------------------

  /** The call a motion tool makes: `move_robot_for_duration(command, duration)`. */
  datatype TimedMove = TimedMove(command: string, duration: real)

  const MoveDirections: set<string> := {"forward", "backward", "left", "right", "stop"}

  /** `move_robot(direction, duration)`. */
  function MoveRobot(hasService: bool, direction: string, duration: real): (r: Result<TimedMove, ToolError>)
    ensures !hasService ==> r == Err(ServiceUnavailable)
    ensures hasService && direction !in MoveDirections ==> r == Err(InvalidDirection(direction))
    ensures r.Ok? <==> hasService && direction in MoveDirections
    ensures r.Ok? ==> r.value == TimedMove(direction, duration)
  {
    if !hasService then Err(ServiceUnavailable)
    else if direction !in MoveDirections then Err(InvalidDirection(direction))
    else Ok(TimedMove(direction, duration))
  }

  /** The turning rate `rotate_robot` works with, in degrees per second. */
  const RotationRate: real := 20.0

  /** `rotate_robot(direction, angle)`: the angle becomes a duration at 20
      degrees per second. */
  function RotateRobot(hasService: bool, direction: string, angle: real): (r: Result<TimedMove, ToolError>)
    ensures !hasService ==> r == Err(ServiceUnavailable)
    ensures r.Ok? <==> hasService && direction in {"rotate_left", "rotate_right"} && angle > 0.0
    ensures hasService && direction in {"rotate_left", "rotate_right"} && angle <= 0.0 ==> r == Err(NonPositiveAngle)
    ensures hasService && direction !in {"rotate_left", "rotate_right"} ==> r == Err(InvalidDirection(direction))
    ensures r.Ok? ==> r.value.command == direction && r.value.duration > 0.0
                      && r.value.duration * RotationRate == angle
  {
    if !hasService then Err(ServiceUnavailable)
    else if direction !in {"rotate_left", "rotate_right"} then Err(InvalidDirection(direction))
    else if angle <= 0.0 then Err(NonPositiveAngle)
    else Ok(TimedMove(direction, angle / RotationRate))
  }

  /** `control_gripper(action)`: the gripper position it requests. */
  function ControlGripper(hasService: bool, action: string): (r: Result<real, ToolError>)
    ensures !hasService ==> r == Err(ServiceUnavailable)
    ensures r.Ok? <==> hasService && action in {"open", "close"}
    ensures hasService && action == "open" ==> r == Ok(80.0)
    ensures hasService && action == "close" ==> r == Ok(0.0)
    ensures hasService && action !in {"open", "close"} ==> r == Err(InvalidGripperAction(action))
  {
    if !hasService then Err(ServiceUnavailable)
    else if action == "open" then Ok(80.0)
    else if action == "close" then Ok(0.0)
    else Err(InvalidGripperAction(action))
  }

  // ---- joints -------------------------------------------------------------

  /** An entry of `joint_mapping`. */
  datatype JointInfo = JointInfo(key: string, minSafe: real, maxSafe: real)

  const JointNames: seq<string> := ["shoulder_pan", "shoulder_lift", "elbow_flex", "wrist_flex", "wrist_roll", "gripper"]

  function JointInfoFor(name: string): (j: Option<JointInfo>)
    ensures j.Some? <==> name in JointNames
    ensures j.Some? ==> j.value.key == "arm_" + name + ".pos"
    ensures j.Some? ==> j.value.maxSafe == 50.0
    ensures j.Some? ==> j.value.minSafe == (if name == "gripper" then 0.0 else -50.0)
  {
    if name in JointNames then
      Some(JointInfo("arm_" + name + ".pos", if name == "gripper" then 0.0 else -50.0, 50.0))
    else None
  }

  /** Distinct joint names map to distinct action keys. */
  lemma JointKeysDistinct(a: string, b: string)
    requires JointInfoFor(a).Some? && JointInfoFor(b).Some? && a != b
    ensures JointInfoFor(a).value.key != JointInfoFor(b).value.key
  {
    var ka, kb := JointInfoFor(a).value.key, JointInfoFor(b).value.key;
    if ka == kb {
      assert |a| == |b|;
      forall i | 0 <= i < |a| ensures a[i] == b[i] {
        assert a[i] == ka[4 + i] && b[i] == kb[4 + i];
      }
      assert false;
    }
  }

  /** `max(min_safe, min(max_safe, position))` */
  function Clamp(j: JointInfo, position: real): (c: real)
    requires j.minSafe <= j.maxSafe
    ensures j.minSafe <= c <= j.maxSafe
    ensures c == position <==> j.minSafe <= position <= j.maxSafe
    ensures position < j.minSafe ==> c == j.minSafe
    ensures position > j.maxSafe ==> c == j.maxSafe
  {
    MaxReal(j.minSafe, MinReal(j.maxSafe, position))
  }

  /** Clamping twice is clamping once. */
  lemma ClampIdempotent(j: JointInfo, position: real)
    requires j.minSafe <= j.maxSafe
    ensures Clamp(j, Clamp(j, position)) == Clamp(j, position)
  {
  }

  /** The single-joint plan: the action key, the clamped position, and
      whether clamping changed it. */
  datatype JointMove = JointMove(key: string, position: real, wasClamped: bool)

  /** `control_arm_joint_limited(joint_name, position)`, up to the smooth
      motion it then starts. */
  function ControlArmJointLimited(hasService: bool, name: string, position: real): (r: Result<JointMove, ToolError>)
    ensures !hasService ==> r == Err(ServiceUnavailable)
    ensures hasService && name !in JointNames ==> r == Err(InvalidJoint(name))
    ensures r.Ok? <==> hasService && name in JointNames
    ensures r.Ok? ==> var j := JointInfoFor(name).value;
                      r.value.key == j.key && j.minSafe <= r.value.position <= j.maxSafe
                      && (r.value.wasClamped <==> r.value.position != position)
                      && (r.value.wasClamped <==> !(j.minSafe <= position <= j.maxSafe))
  {
    if !hasService then Err(ServiceUnavailable)
    else match JointInfoFor(name)
      case None => Err(InvalidJoint(name))
      case Some(j) =>
        var c := Clamp(j, position);
        Ok(JointMove(j.key, c, c != position))
  }

  /** A parsed `joint_positions` argument. `Dict` keeps the object's
      entries in order; a JSON object has distinct keys. */
  datatype JointsArg = Unparsable | NotAnObject | Dict(items: seq<(string, real)>)

  predicate DistinctKeys(items: seq<(string, real)>) {
    forall i, j :: 0 <= i < j < |items| ==> items[i].0 != items[j].0
  }

  predicate AllKnown(items: seq<(string, real)>) {
    forall i :: 0 <= i < |items| ==> items[i].0 in JointNames
  }

  /** The action key of a known joint. */
  function KeyOf(name: string): (k: string)
    requires name in JointNames
    ensures JointInfoFor(name).Some? && k == JointInfoFor(name).value.key
  {
    JointInfoFor(name).value.key
  }

  /** The clamped position of one entry. */
  function ClampEntry(item: (string, real)): (c: real)
    requires item.0 in JointNames
    ensures var j := JointInfoFor(item.0).value; j.minSafe <= c <= j.maxSafe
  {
    Clamp(JointInfoFor(item.0).value, item.1)
  }

  /** `arm_positions` after the loop: each entry's clamped position under
      its joint's action key. */
  function ClampAll(items: seq<(string, real)>): (m: map<string, real>)
    requires AllKnown(items)
  {
    if items == [] then map[]
    else ClampAll(items[..|items| - 1])[KeyOf(items[|items| - 1].0) := ClampEntry(items[|items| - 1])]
  }

  /** Entries with distinct names have distinct action keys. */
  lemma KeysDistinct(items: seq<(string, real)>, n: nat)
    requires AllKnown(items) && DistinctKeys(items) && n < |items|
    ensures forall i :: 0 <= i < n ==> KeyOf(items[i].0) != KeyOf(items[n].0)
  {
    forall i | 0 <= i < n ensures KeyOf(items[i].0) != KeyOf(items[n].0) {
      JointKeysDistinct(items[i].0, items[n].0);
    }
  }

  /** Every requested joint appears under its key with its clamped
      position. */
  lemma {:induction false} ClampAllAt(items: seq<(string, real)>, i: nat)
    requires AllKnown(items) && DistinctKeys(items) && i < |items|
    ensures KeyOf(items[i].0) in ClampAll(items) && ClampAll(items)[KeyOf(items[i].0)] == ClampEntry(items[i])
  {
    var n := |items| - 1;
    if i < n {
      var init := items[..n];
      assert items[i] == init[i];
      ClampAllAt(init, i);
      KeysDistinct(items, n);
    }
  }

  /** Nothing but the requested joints' keys appears. */
  lemma {:induction false} ClampAllKeys(items: seq<(string, real)>, k: string)
    requires AllKnown(items)
    requires k in ClampAll(items)
    ensures exists i :: 0 <= i < |items| && KeyOf(items[i].0) == k
  {
    var n := |items| - 1;
    if k != KeyOf(items[n].0) {
      var init := items[..n];
      ClampAllKeys(init, k);
      var i :| 0 <= i < n && KeyOf(init[i].0) == k;
      assert items[i] == init[i];
    }
  }

  /** Number of entries whose position lies outside their joint's range,
      that is, whose position clamping changes. */
  function CountClamped(items: seq<(string, real)>): (n: nat)
    requires AllKnown(items)
    ensures n <= |items|
    ensures n == 0 <==> forall i :: 0 <= i < |items| ==> ClampEntry(items[i]) == items[i].1
  {
    if items == [] then 0
    else
      var init := items[..|items| - 1];
      assert forall i :: 0 <= i < |init| ==> init[i] == items[i];
      CountClamped(init) + (if ClampEntry(items[|items| - 1]) == items[|items| - 1].1 then 0 else 1)
  }

  /** The plan of the multi-joint tool: the positions it asks the smooth
      motion for, the joints it reports, and how many were clamped. */
  datatype MultiPlan = MultiPlan(armPositions: map<string, real>, joints: seq<string>, clampedCount: nat)

  /** The entries the tool works on: the object's, or for an empty object
      one drawn value per joint in `joint_mapping` order. */
  function Requested(items: seq<(string, real)>, randomValues: seq<real>): (r: seq<(string, real)>)
    requires |randomValues| == |JointNames|
    ensures items != [] ==> r == items
    ensures items == [] ==> |r| == |JointNames| && AllKnown(r) && DistinctKeys(r)
  {
    if items != [] then items
    else seq(|JointNames|, i requires 0 <= i < |JointNames| => (JointNames[i], randomValues[i]))
  }

  /** One more known entry extends the clamped map by its key and the count
      by whether it was clamped. */
  lemma ClampStep(items: seq<(string, real)>, i: nat)
    requires i < |items| && AllKnown(items[..i]) && items[i].0 in JointNames
    ensures AllKnown(items[..i + 1])
    ensures ClampAll(items[..i + 1]) == ClampAll(items[..i])[KeyOf(items[i].0) := ClampEntry(items[i])]
    ensures CountClamped(items[..i + 1]) ==
              CountClamped(items[..i]) + (if ClampEntry(items[i]) == items[i].1 then 0 else 1)
  {
    var next := items[..i + 1];
    assert |next| == i + 1 && next[..|next| - 1] == items[..i] && next[|next| - 1] == items[i];
    assert AllKnown(next) by {
      forall k | 0 <= k < |next| ensures next[k].0 in JointNames {
        if k < i { assert next[k] == items[..i][k]; }
      }
    }
  }

  /** The loop of the multi-joint tool: clamps the entries in order and
      stops at the first unknown joint name. */
  method ClampJoints(items: seq<(string, real)>) returns (r: Result<(map<string, real>, nat), string>)
    ensures r.Err? <==> !AllKnown(items)
    ensures r.Err? ==> exists i :: 0 <= i < |items| && r.error == items[i].0
                                   && items[i].0 !in JointNames && AllKnown(items[..i])
    ensures r.Ok? ==> r.value.0 == ClampAll(items) && r.value.1 == CountClamped(items)
  {
    var armPositions: map<string, real> := map[];
    var clamped: nat := 0;
    var i := 0;
    while i < |items|
      invariant 0 <= i <= |items|
      invariant AllKnown(items[..i])
      invariant armPositions == ClampAll(items[..i])
      invariant clamped == CountClamped(items[..i])
    {
      var name := items[i].0;
      var info := JointInfoFor(name);
      if info.None? {
        assert !AllKnown(items) by { assert items[i].0 !in JointNames; }
        return Err(name);
      }
      var c := Clamp(info.value, items[i].1);
      ClampStep(items, i);
      armPositions := armPositions[info.value.key := c];
      if c != items[i].1 {
        clamped := clamped + 1;
      }
      i := i + 1;
    }
    assert items[..|items|] == items;
    r := Ok((armPositions, clamped));
  }

  /** Draws of `random.uniform(min_safe, max_safe)` rounded to one decimal,
      one per joint in `joint_mapping` order: each lies in its joint's safe
      range (the bounds are whole numbers, so rounding keeps it there). */
  predicate DrawnInRange(randomValues: seq<real>) {
    |randomValues| == |JointNames|
    && forall i :: 0 <= i < |JointNames| ==>
         JointInfoFor(JointNames[i]).value.minSafe <= randomValues[i] <= JointInfoFor(JointNames[i]).value.maxSafe
  }

  /** `control_multiple_arm_joints_limited(joint_positions)` up to the
      smooth motion. `randomValues` stands for the positions
      `random.uniform` draws when the object is empty, so an empty object
      moves every joint and clamps none. */
  method ControlMultipleArmJointsLimited(arg: JointsArg, hasService: bool, randomValues: seq<real>)
    returns (r: Result<MultiPlan, ToolError>)
    requires DrawnInRange(randomValues)
    requires arg.Dict? ==> DistinctKeys(arg.items)
    ensures arg == Dict([]) && hasService ==>
              r.Ok? && r.value.joints == JointNames && r.value.clampedCount == 0
    ensures arg.Unparsable? ==> r == Err(JsonParseFailed)
    ensures arg.NotAnObject? ==> r == Err(NotADict)
    ensures arg.Dict? && !hasService ==> r == Err(ServiceUnavailable)
    ensures arg.Dict? && hasService ==>
              var items := Requested(arg.items, randomValues);
              // the first unknown name aborts before anything moves
              (r.Err? <==> !AllKnown(items))
              && (r.Err? ==> exists i :: 0 <= i < |items| && r.error == InvalidJoint(items[i].0)
                                         && items[i].0 !in JointNames && AllKnown(items[..i]))
              && (r.Ok? ==> r.value.armPositions == ClampAll(items)
                            && r.value.joints == seq(|items|, i requires 0 <= i < |items| => items[i].0)
                            && r.value.clampedCount == CountClamped(items))
  {
    if arg.Unparsable? {
      return Err(JsonParseFailed);
    }
    if arg.NotAnObject? {
      return Err(NotADict);
    }
    if !hasService {
      return Err(ServiceUnavailable);
    }
    var items := Requested(arg.items, randomValues);
    if arg.items == [] {
      assert forall i :: 0 <= i < |items| ==> ClampEntry(items[i]) == items[i].1;
      assert seq(|items|, k requires 0 <= k < |items| => items[k].0) == JointNames;
    }
    var plan := ClampJoints(items);
    match plan {
      case Err(name) =>
        r := Err(InvalidJoint(name));
      case Ok((positions, clamped)) =>
        r := Ok(MultiPlan(positions, seq(|items|, k requires 0 <= k < |items| => items[k].0), clamped));
    }
  }

  /** The reported clamp count never exceeds the number of joints, and the
      planned positions are all within their joints' safe ranges. */
  lemma MultiPlanSafe(items: seq<(string, real)>)
    requires AllKnown(items) && DistinctKeys(items)
    ensures CountClamped(items) <= |items|
    ensures forall i :: 0 <= i < |items| ==>
              var j := JointInfoFor(items[i].0).value;
              KeyOf(items[i].0) in ClampAll(items) && j.minSafe <= ClampAll(items)[KeyOf(items[i].0)] <= j.maxSafe
  {
    forall i | 0 <= i < |items|
      ensures KeyOf(items[i].0) in ClampAll(items) && ClampAll(items)[KeyOf(items[i].0)] == ClampEntry(items[i])
    {
      ClampAllAt(items, i);
    }
  }

  // ---- smooth arm motion ----------------------------------------------------

  /** `current_positions`: the observed value of each target key (0 when the
      observation lacks it), or the targets themselves when the observation
      could not be read (`observed == None`). */
  function StartPositions(observed: Option<map<string, real>>, targets: map<string, real>): (s: map<string, real>)
    ensures s.Keys == targets.Keys
    ensures observed.None? ==> s == targets
    ensures observed.Some? ==> forall k :: k in s ==> s[k] == if k in observed.value then observed.value[k] else 0.0
  {
    if observed.None? then targets
    else map k | k in targets :: if k in observed.value then observed.value[k] else 0.0
  }

  /** Some joint is more than half a degree away from its target. */
  predicate NeedsMovement(start: map<string, real>, targets: map<string, real>)
    requires targets.Keys <= start.Keys
  {
    exists k :: k in targets && Abs(start[k] - targets[k]) > 0.5
  }

  /** The positions sent at step `i` of `steps`. */
  function Interpolate(start: map<string, real>, targets: map<string, real>, i: int, steps: int): (m: map<string, real>)
    requires targets.Keys <= start.Keys && steps != 0
    ensures m.Keys == targets.Keys
  {
    map k | k in targets :: start[k] + (targets[k] - start[k]) * (i as real / steps as real)
  }

  /** A point of the segment from a to b at a fraction t in [0, 1] lies
      between a and b. */
  lemma {:induction false} BetweenEnds(a: real, b: real, t: real)
    requires 0.0 <= t <= 1.0
    ensures MinReal(a, b) <= a + (b - a) * t <= MaxReal(a, b)
  {
    var d := b - a;
    var u := 1.0 - t;
    assert d * t + d * u == d;
    if d >= 0.0 {
      assert 0.0 <= d * t && 0.0 <= d * u;
      assert a <= a + d * t <= b;
    } else {
      assert (-d) * t >= 0.0 && (-d) * u >= 0.0;
      assert b <= a + d * t <= a;
    }
  }

  /** The position one key takes at step `i`. */
  lemma InterpolateAt(start: map<string, real>, targets: map<string, real>, i: int, steps: int, k: string)
    requires targets.Keys <= start.Keys && steps != 0 && k in targets
    ensures Interpolate(start, targets, i, steps)[k] == start[k] + (targets[k] - start[k]) * (i as real / steps as real)
  {
  }

  /** Step `i` of `steps` is a fraction in [0, 1], 0 at the first step and 1
      at the last. */
  lemma StepFraction(i: int, steps: int)
    requires steps > 0 && 0 <= i <= steps
    ensures 0.0 <= i as real / steps as real <= 1.0
    ensures i == 0 ==> i as real / steps as real == 0.0
    ensures i == steps ==> i as real / steps as real == 1.0
  {
  }

  /** The first step sends the start, the last the targets, and every step
      in between lies between the two. */
  lemma InterpolateEndpoints(start: map<string, real>, targets: map<string, real>, i: int, steps: int)
    requires targets.Keys <= start.Keys && steps > 0 && 0 <= i <= steps
    ensures forall k :: k in targets ==> Interpolate(start, targets, 0, steps)[k] == start[k]
    ensures Interpolate(start, targets, steps, steps) == targets
    ensures forall k :: k in targets ==>
              MinReal(start[k], targets[k]) <= Interpolate(start, targets, i, steps)[k] <= MaxReal(start[k], targets[k])
  {
    StepFraction(0, steps);
    StepFraction(steps, steps);
    StepFraction(i, steps);
    var zero := 0 as real / steps as real;
    var one := steps as real / steps as real;
    var t := i as real / steps as real;
    forall k | k in targets
      ensures Interpolate(start, targets, 0, steps)[k] == start[k]
    {
      InterpolateAt(start, targets, 0, steps, k);
      var d := targets[k] - start[k];
      assert d * zero == 0.0;
    }
    var last := Interpolate(start, targets, steps, steps);
    forall k | k in targets
      ensures last[k] == targets[k]
    {
      InterpolateAt(start, targets, steps, steps, k);
      var d := targets[k] - start[k];
      assert d * one == d;
    }
    assert last.Keys == targets.Keys;
    forall k | k in targets
      ensures MinReal(start[k], targets[k]) <= Interpolate(start, targets, i, steps)[k] <= MaxReal(start[k], targets[k])
    {
      var a, b := start[k], targets[k];
      var v := Interpolate(start, targets, i, steps)[k];
      InterpolateAt(start, targets, i, steps, k);
      assert v == a + (b - a) * t;
      BetweenEnds(a, b, t);
      assert MinReal(a, b) <= v <= MaxReal(a, b);
    }
  }

  datatype SmoothOutcome =
    | Skipped(start: map<string, real>)          // already within 0.5 everywhere
    | Completed(steps: int)
    | StepFailed(completedSteps: int, totalSteps: int)
    | Crashed                                    // `duration / steps` with steps == 0

  /** `_smooth_arm_motion(service, targets, duration, steps)`: the positions
      it sends, step by step, and its reply. `accept(i)` is whether
      `set_arm_position` succeeded at step i. */
  method SmoothArmMotion(observed: Option<map<string, real>>, targets: map<string, real>, steps: int,
                         accept: int -> bool)
    returns (out: SmoothOutcome, sent: seq<map<string, real>>)
    ensures var start := StartPositions(observed, targets);
            !NeedsMovement(start, targets) ==> out == Skipped(start) && sent == []
    ensures var start := StartPositions(observed, targets);
            NeedsMovement(start, targets) && steps == 0 ==> out == Crashed && sent == []
    ensures var start := StartPositions(observed, targets);
            NeedsMovement(start, targets) && steps != 0 ==>
              (forall i :: 0 <= i < |sent| ==> sent[i] == Interpolate(start, targets, i, steps))
              && (forall i :: 0 <= i < |sent| - 1 ==> accept(i))
              && (out.Completed? ==> out == Completed(steps) && |sent| == Max(steps + 1, 0)
                                     && forall i :: 0 <= i < |sent| ==> accept(i))
              && (out.StepFailed? ==> out == StepFailed(|sent| - 1, steps) && 1 <= |sent| <= steps + 1 && !accept(|sent| - 1))
              && (out.Completed? || out.StepFailed?)
  {
    var start := StartPositions(observed, targets);
    sent := [];
    if !NeedsMovement(start, targets) {
      return Skipped(start), [];
    }
    if steps == 0 {
      return Crashed, [];
    }
    var i := 0;
    while i < steps + 1
      invariant 0 <= i && (steps >= 0 ==> i <= steps + 1)
      invariant steps < 0 ==> i == 0
      invariant |sent| == i
      invariant forall k :: 0 <= k < i ==> sent[k] == Interpolate(start, targets, k, steps) && accept(k)
    {
      sent := sent + [Interpolate(start, targets, i, steps)];
      if !accept(i) {
        return StepFailed(i, steps), sent;
      }
      i := i + 1;
    }
    out := Completed(steps);
  }

  /** The targets of the `reset_arm` tool: the five joints at 0, the
      gripper left where it is. */
  const HomeTargets: map<string, real> :=
    map["arm_shoulder_pan.pos" := 0.0, "arm_shoulder_lift.pos" := 0.0, "arm_elbow_flex.pos" := 0.0,
        "arm_wrist_flex.pos" := 0.0, "arm_wrist_roll.pos" := 0.0]

  /** The target of `stand_at_attention`. */
  const AttentionTargets: map<string, real> := map["arm_elbow_flex.pos" := -90.0]

  /** The step count both fixed-pose tools pass to the smooth motion. */
  const PoseSteps: int := 10

  /** `reset_arm()` and `stand_at_attention()` of the tool set: a ten-step
      smooth motion to a fixed pose from the observed start `S`. It is
      skipped exactly when every joint of `S` is within half a degree of the
      pose, completes exactly when it must move and all eleven steps are
      accepted, and otherwise stops at the first refused step; every step
      sent is the linear interpolation from `S` to the pose. */
  method MoveToPose(hasService: bool, pose: map<string, real>, observed: Option<map<string, real>>,
                    accept: int -> bool)
    returns (r: Result<SmoothOutcome, ToolError>, sent: seq<map<string, real>>)
    ensures !hasService ==> r == Err(ServiceUnavailable) && sent == []
    ensures hasService ==> r.Ok? && !r.value.Crashed?
    ensures var S := StartPositions(observed, pose);
            hasService ==>
              (r.value.Skipped? <==> !NeedsMovement(S, pose))
              && (r.value.Completed? <==> NeedsMovement(S, pose) && forall i :: 0 <= i <= PoseSteps ==> accept(i))
              && (forall i :: 0 <= i < |sent| ==> sent[i] == Interpolate(S, pose, i, PoseSteps))
    ensures hasService && r.value.Completed? ==> |sent| == PoseSteps + 1 && sent[PoseSteps] == pose
    ensures hasService && r.value.Skipped? ==>
              sent == [] && r.value.start.Keys == pose.Keys
              && forall k :: k in pose ==> Abs(r.value.start[k] - pose[k]) <= 0.5
    ensures hasService && r.value.StepFailed? ==>
              r.value.totalSteps == PoseSteps && r.value.completedSteps == |sent| - 1
              && 1 <= |sent| <= PoseSteps + 1
              && (forall i :: 0 <= i < |sent| - 1 ==> accept(i)) && !accept(|sent| - 1)
  {
    if !hasService {
      return Err(ServiceUnavailable), [];
    }
    var out;
    out, sent := SmoothArmMotion(observed, pose, PoseSteps, accept);
    if out.Completed? {
      InterpolateEndpoints(StartPositions(observed, pose), pose, PoseSteps, PoseSteps);
    }
    r := Ok(out);
  }

  // ---- gestures -------------------------------------------------------------

  /** The poses a gesture of `times` cycles asks for, in order: the first
      and the second pose alternately. */
  function GesturePlan(times: int, first: real, second: real): (p: seq<real>)
    ensures |p| == 2 * Max(times, 0)
    ensures forall k :: 0 <= k < |p| ==> p[k] == if k % 2 == 0 then first else second
  {
    if times <= 0 then [] else GesturePlan(times - 1, first, second) + [first, second]
  }

  /** The reply of a gesture tool: success with the cycle count and pause
      echoed, a refused command after `completedCycles` full cycles, or the
      "动作异常" reply of an exception raised inside the loop. */
  datatype GestureOutcome = GestureDone(cycles: int, pause: real) | GestureFailed(completedCycles: int) | GestureRaised

  /** What a gesture tool of `times` cycles sent and replied, with
      `accept(k)` whether the k-th command succeeded and `pause` the
      `pause_duration` slept after each first pose. Every cycle asks for the
      first pose, sleeps, asks for the second; the first refused command
      ends the tool with the cycles completed before it. A negative pause
      makes the first sleep raise, which the tool reports as an exception
      once the first command has succeeded. */
  predicate GestureReply(times: int, first: real, second: real, center: Option<real>, pause: real,
                         accept: int -> bool, out: GestureOutcome, sent: seq<real>)
  {
    var plan := GesturePlan(times, first, second);
    // success: every command accepted and no sleep raised
    && (out.GestureDone? <==>
          (forall k :: 0 <= k < 2 * Max(times, 0) ==> accept(k)) && (times <= 0 || pause >= 0.0))
    && (out.GestureRaised? <==> times >= 1 && accept(0) && pause < 0.0)
    && (out.GestureDone? ==>
          out.cycles == times && out.pause == pause
          && sent == plan + (if center.Some? then [center.value] else []))
    && (out.GestureRaised? ==> sent == [first])
    && (out.GestureFailed? ==>
          1 <= |sent| <= |plan|
          && sent == plan[..|sent|]
          && (forall k :: 0 <= k < |sent| - 1 ==> accept(k)) && !accept(|sent| - 1)
          && out.completedCycles == (|sent| - 1) / 2)
  }

  /** The loop shared by `nod_head`, `shake_head` and `twist_waist`; after
      all cycles the optional centre pose is sent and its result ignored. */
  method Gesture(times: int, first: real, second: real, center: Option<real>, pause: real, accept: int -> bool)
    returns (out: GestureOutcome, sent: seq<real>)
    ensures GestureReply(times, first, second, center, pause, accept, out, sent)
  {
    ghost var plan := GesturePlan(times, first, second);
    sent := [];
    var i := 0;
    while i < times
      invariant 0 <= i && (times >= 0 ==> i <= times) && (times < 0 ==> i == 0)
      invariant i > 0 ==> pause >= 0.0
      invariant sent == plan[..2 * i]
      invariant forall k :: 0 <= k < |sent| ==> accept(k)
    {
      assert plan[..2 * i + 1] == sent + [first];
      sent := sent + [first];
      if !accept(2 * i) {
        return GestureFailed(i), sent;
      }
      if pause < 0.0 {
        // time.sleep raises on a negative duration
        return GestureRaised, sent;
      }
      assert plan[..2 * i + 2] == sent + [second];
      sent := sent + [second];
      if !accept(2 * i + 1) {
        return GestureFailed(i), sent;
      }
      i := i + 1;
    }
    assert sent == plan;
    if center.Some? {
      sent := sent + [center.value];
    }
    out := GestureDone(times, pause);
  }

  /** `nod_head(times, pause_duration)`: the wrist flexes to 60 and back to 0. */
  method NodHead(hasService: bool, times: int, pause: real, accept: int -> bool)
    returns (r: Result<GestureOutcome, ToolError>, wristFlex: seq<real>)
    ensures !hasService ==> r == Err(ServiceUnavailable) && wristFlex == []
    ensures hasService ==> r.Ok? && GestureReply(times, 60.0, 0.0, None, pause, accept, r.value, wristFlex)
    ensures forall k :: 0 <= k < |wristFlex| ==> wristFlex[k] in {60.0, 0.0}
  {
    if !hasService {
      return Err(ServiceUnavailable), [];
    }
    var out;
    out, wristFlex := Gesture(times, 60.0, 0.0, None, pause, accept);
    r := Ok(out);
  }

  /** `shake_head(times, pause_duration)`: the wrist rolls to -40 and 40,
      then back to 0. */
  method ShakeHead(hasService: bool, times: int, pause: real, accept: int -> bool)
    returns (r: Result<GestureOutcome, ToolError>, wristRoll: seq<real>)
    ensures !hasService ==> r == Err(ServiceUnavailable) && wristRoll == []
    ensures hasService ==> r.Ok? && GestureReply(times, -40.0, 40.0, Some(0.0), pause, accept, r.value, wristRoll)
    ensures forall k :: 0 <= k < |wristRoll| ==> wristRoll[k] in {-40.0, 40.0, 0.0}
  {
    if !hasService {
      return Err(ServiceUnavailable), [];
    }
    var out;
    out, wristRoll := Gesture(times, -40.0, 40.0, Some(0.0), pause, accept);
    r := Ok(out);
  }

  /** `twist_waist(times, pause_duration)`: smooth motions of the shoulder
      pan to -10 and 10, then back to 0; `accept(k)` is whether the k-th
      smooth motion succeeded. */
  method TwistWaist(hasService: bool, times: int, pause: real, accept: int -> bool)
    returns (r: Result<GestureOutcome, ToolError>, shoulderPan: seq<real>)
    ensures !hasService ==> r == Err(ServiceUnavailable) && shoulderPan == []
    ensures hasService ==> r.Ok? && GestureReply(times, -10.0, 10.0, Some(0.0), pause, accept, r.value, shoulderPan)
    ensures forall k :: 0 <= k < |shoulderPan| ==> shoulderPan[k] in {-10.0, 10.0, 0.0}
  {
    if !hasService {
      return Err(ServiceUnavailable), [];
    }
    var out;
    out, shoulderPan := Gesture(times, -10.0, 10.0, Some(0.0), pause, accept);
    r := Ok(out);
  }

  // ---- capture file names -----------------------------------------------------

  /** Kept by the sanitiser: alphanumerics (by `isAlnum`, Python's
      `str.isalnum`) and `-`, `_`, `.`. */
  predicate Allowed(c: char, isAlnum: char -> bool) {
    isAlnum(c) || c == '-' || c == '_' || c == '.'
  }

  /** The characters of `name` that are alphanumeric or one of `-_.`. */
  function KeepAllowed(name: string, isAlnum: char -> bool): (r: string)
    ensures |r| <= |name|
    ensures forall i :: 0 <= i < |r| ==> Allowed(r[i], isAlnum)
    ensures forall c :: c in r <==> c in name && Allowed(c, isAlnum)
    ensures (forall i :: 0 <= i < |name| ==> Allowed(name[i], isAlnum)) ==> r == name
  {
    if name == [] then []
    else (if Allowed(name[0], isAlnum) then [name[0]] else []) + KeepAllowed(name[1..], isAlnum)
  }

  /** The `safe_filename` of the camera capture; `fallback` is the
      timestamped default name. */
  function SafeFilename(name: string, fallback: string, isAlnum: char -> bool): (r: string)
    ensures KeepAllowed(name, isAlnum) == [] ==> r == fallback
    ensures KeepAllowed(name, isAlnum) != [] ==> r != [] && forall i :: 0 <= i < |r| ==> Allowed(r[i], isAlnum)
    // otherwise the name is the input with the other characters dropped
    ensures KeepAllowed(name, isAlnum) != [] ==> r == KeepAllowed(name, isAlnum)
  {
    var kept := KeepAllowed(name, isAlnum);
    if kept == [] then fallback else kept
  }

  /** Filtering works character by character and keeps their order: the
      kept part of a concatenation is the concatenation of the kept parts. */
  lemma {:induction false} KeepAllowedAppend(a: string, b: string, isAlnum: char -> bool)
    ensures KeepAllowed(a + b, isAlnum) == KeepAllowed(a, isAlnum) + KeepAllowed(b, isAlnum)
    decreases |a|
  {
    if a == [] {
      assert a + b == b;
    } else {
      assert (a + b)[0] == a[0];
      assert (a + b)[1..] == a[1..] + b;
      KeepAllowedAppend(a[1..], b, isAlnum);
    }
  }

  /** A single character is kept exactly when it is allowed. */
  lemma KeepAllowedSingleton(c: char, isAlnum: char -> bool)
    ensures KeepAllowed([c], isAlnum) == if Allowed(c, isAlnum) then [c] else []
  {
    assert [c][1..] == [];
  }

  /** A name that is already safe passes unchanged, so sanitising twice is
      sanitising once. */
  lemma SafeFilenameIdempotent(name: string, fallback: string, isAlnum: char -> bool)
    requires KeepAllowed(name, isAlnum) != []
    ensures SafeFilename(SafeFilename(name, fallback, isAlnum), fallback, isAlnum) == SafeFilename(name, fallback, isAlnum)
  {
  }
}

=== FILE: pipe.dfy ===
/** The MCP stdio <-> WebSocket pipe: configuration memo, resolution of a
    target into a launch command, the reconnect backoff, and the choice of
    targets in `run`.

    A configuration document is what `json.load` produced. String fields of a
    server entry use "" for a key that is absent, null or empty: the source
    treats those three alike (`entry.get(k) or ...`, `if not command`). A
    server entry that is JSON null is `EmptyEntry` (`servers[target] or {}`). */
module McpPipe {
  import opened Common

  const InitialBackoff: nat := 1
  const MaxBackoff: nat := 600

  datatype ServerEntry = ServerEntry(
    disabled: bool,              // truthiness of "disabled"
    typ: string,                 // "type"
    transportType: string,       // "transportType"
    command: string,
    args: seq<string>,
    url: string,
    headers: seq<(string, string)>,   // "headers", in document order, values stringified
    env: map<string, string>)         // "env", keys and values stringified

  const EmptyEntry := ServerEntry(false, "", "", "", [], "", [], map[])

  /** The value `json.load` returned. `JsonNull` is also the initial value of
      the memo field (`self._config = None`). `Object` carries the
      "mcpServers" object as name/entry pairs in document order ([] when the
      key is absent or the object is empty). `OddServers` is an object whose
      "mcpServers" is present but is not an object. */
  datatype ConfigDoc =
    | JsonNull
    | NotAnObject
    | Object(servers: seq<(string, ServerEntry)>)
    | OddServers(field: ServersValue)

  /** A "mcpServers" value that is not an object. A list keeps only what
      `target in list` compares: its string items, `None` for any other. */
  datatype ServersValue =
    | NullServers
    | TextServers(text: string)
    | ListServers(items: seq<Option<string>>)
    | ScalarServers(truthy: bool)        // a number or a boolean

  /** `t` occurs in `s` as a contiguous piece (Python's `t in s` on str). */
  predicate Contains(s: string, t: string) {
    exists i :: 0 <= i <= |s| && StartsWith(s[i..], t)
  }

  /** Whether `target in servers` raises or holds for such a value; either
      way `build_server_command` ends in a TypeError (`in` on None or a
      number, or indexing a str or a list with a str). */
  predicate OddHit(v: ServersValue, target: string) {
    match v
    case NullServers => true
    case TextServers(text) => Contains(text, target)
    case ListServers(items) => Some(target) in items
    case ScalarServers(_) => true
  }

  /** Truthiness of such a value, for `cfg.get("mcpServers") or {}`. */
  predicate OddTruthy(v: ServersValue) {
    match v
    case NullServers => false
    case TextServers(text) => text != ""
    case ListServers(items) => items != []
    case ScalarServers(truthy) => truthy
  }

  datatype ParseOutcome = ParseError | Parsed(doc: ConfigDoc)

  datatype ConfigError =
    | Disabled(name: string)
    | MissingCommand(name: string)
    | MissingUrl(name: string, transport: string)
    | UnsupportedType(transport: string)
    | NotFound(target: string)
    | ServersTypeError(target: string)   // "mcpServers" is not an object

  datatype Launch = Launch(argv: seq<string>, env: map<string, string>)

  /** A JSON object cannot repeat a key. */
  predicate DistinctNames(servers: seq<(string, ServerEntry)>) {
    forall i, j :: 0 <= i < j < |servers| ==> servers[i].0 != servers[j].0
  }

  function Names(servers: seq<(string, ServerEntry)>): (r: seq<string>)
    ensures |r| == |servers|
    ensures forall i :: 0 <= i < |servers| ==> r[i] == servers[i].0
  {
    if servers == [] then [] else [servers[0].0] + Names(servers[1..])
  }

  /** `target in servers` / `servers[target]`. */
  function Lookup(servers: seq<(string, ServerEntry)>, name: string): (r: Option<ServerEntry>)
    ensures r.None? <==> name !in Names(servers)
    ensures r.Some? ==> exists i :: 0 <= i < |servers| && servers[i] == (name, r.value)
  {
    if servers == [] then None
    else if servers[0].0 == name then Some(servers[0].1)
    else Lookup(servers[1..], name)
  }

  /** The servers object `build_server_command` sees: none unless the
      document is an object. */
  function ServersOf(cfg: ConfigDoc): seq<(string, ServerEntry)> {
    if cfg.Object? then cfg.servers else []
  }

  /** `(entry.get("type") or entry.get("transportType") or "stdio").lower()` */
  function TransportOf(e: ServerEntry): (t: string)
    ensures e.typ != "" ==> t == Lower(e.typ)
    ensures e.typ == "" && e.transportType != "" ==> t == Lower(e.transportType)
    // with neither field the transport is stdio
    ensures e.typ == "" && e.transportType == "" ==> t == "stdio"
  {
    var t := Lower(if e.typ != "" then e.typ else if e.transportType != "" then e.transportType else "stdio");
    assert e.typ == "" && e.transportType == "" ==> t == "stdio" by {
      if e.typ == "" && e.transportType == "" {
        assert forall i :: 0 <= i < 5 ==> t[i] == "stdio"[i];
      }
    }
    t
  }

  function HeaderFlags(headers: seq<(string, string)>): seq<string> {
    if headers == [] then [] else ["-H", headers[0].0, headers[0].1] + HeaderFlags(headers[1..])
  }

  /** Each header contributes the triple `-H name value`, in order. */
  lemma {:induction false} HeaderFlagsAt(headers: seq<(string, string)>, i: nat)
    requires i < |headers|
    ensures |HeaderFlags(headers)| == 3 * |headers|
    ensures HeaderFlags(headers)[3 * i] == "-H"
    ensures HeaderFlags(headers)[3 * i + 1] == headers[i].0
    ensures HeaderFlags(headers)[3 * i + 2] == headers[i].1
  {
    if i == 0 {
      HeaderFlagsLength(headers[1..]);
    } else {
      HeaderFlagsAt(headers[1..], i - 1);
    }
  }

  lemma {:induction false} HeaderFlagsLength(headers: seq<(string, string)>)
    ensures |HeaderFlags(headers)| == 3 * |headers|
  {
    if headers != [] { HeaderFlagsLength(headers[1..]); }
  }

  predicate IsProxied(t: string) { t == "sse" || t == "http" || t == "streamablehttp" }
  predicate IsStreamable(t: string) { t == "http" || t == "streamablehttp" }

  /** The child environment: the inherited one overridden by the entry's. */
  function ChildEnv(environ: map<string, string>, e: ServerEntry): (env: map<string, string>)
    ensures env.Keys == environ.Keys + e.env.Keys
    ensures forall k :: k in e.env ==> env[k] == e.env[k]
    ensures forall k :: k in environ && k !in e.env ==> env[k] == environ[k]
  {
    environ + e.env
  }

  /** The argv that launches the protocol proxy for a url entry. */
  function ProxyArgv(python: string, t: string, headers: seq<(string, string)>, url: string): (argv: seq<string>)
    ensures |argv| == 4 + (if IsStreamable(t) then 2 else 0) + 3 * |headers|
    ensures argv[..3] == [python, "-m", "mcp_proxy"]
    ensures argv[|argv| - 1] == url
    ensures IsStreamable(t) <==> |argv| >= 5 && argv[3] == "--transport" && argv[4] == "streamablehttp"
  {
    HeaderFlagsLength(headers);
    [python, "-m", "mcp_proxy"] + (if IsStreamable(t) then ["--transport", "streamablehttp"] else [])
      + HeaderFlags(headers) + [url]
  }

  /** Header i appears as `-H name value` right after the prefix and the
      optional streaming flag, in the order of the document. */
  lemma ProxyHeaderPosition(python: string, t: string, headers: seq<(string, string)>, url: string, i: nat)
    requires i < |headers|
    ensures var argv := ProxyArgv(python, t, headers, url);
            var base := 3 + (if IsStreamable(t) then 2 else 0) + 3 * i;
            argv[base] == "-H" && argv[base + 1] == headers[i].0 && argv[base + 2] == headers[i].1
  {
    HeaderFlagsAt(headers, i);
    var prefix := [python, "-m", "mcp_proxy"] + (if IsStreamable(t) then ["--transport", "streamablehttp"] else []);
    assert ProxyArgv(python, t, headers, url) == prefix + HeaderFlags(headers) + [url];
  }

  /** `build_server_command(target)`. `python` is `sys.executable`, `environ`
      is `os.environ`, `pathExists` is `os.path.exists(target)`. */
  function BuildServerCommand(cfg: ConfigDoc, target: string, environ: map<string, string>,
                              python: string, pathExists: bool): (r: Result<Launch, ConfigError>)
    requires DistinctNames(ServersOf(cfg))
    // a "mcpServers" that is not an object raises exactly when the target hits it
    ensures cfg.OddServers? ==> (r == Err(ServersTypeError(target)) <==> OddHit(cfg.field, target))
    // a disabled entry always fails, whatever its other fields
    ensures var entry := Lookup(ServersOf(cfg), target);
            entry.Some? && entry.value.disabled ==> r == Err(Disabled(target))
    // an enabled entry of any other transport than stdio/sse/http/streamablehttp fails
    ensures var entry := Lookup(ServersOf(cfg), target);
            (entry.Some? && !entry.value.disabled
             && TransportOf(entry.value) != "stdio" && !IsProxied(TransportOf(entry.value)))
            ==> r == Err(UnsupportedType(TransportOf(entry.value)))
    // stdio: the command then its arguments, in order; no command is an error
    ensures var entry := Lookup(ServersOf(cfg), target);
            (entry.Some? && !entry.value.disabled && TransportOf(entry.value) == "stdio")
            ==> r == (if entry.value.command == "" then Err(MissingCommand(target))
                      else Ok(Launch([entry.value.command] + entry.value.args, ChildEnv(environ, entry.value))))
    // sse/http/streamablehttp: a missing url is an error, otherwise the proxy command line
    ensures var entry := Lookup(ServersOf(cfg), target);
            (entry.Some? && !entry.value.disabled && IsProxied(TransportOf(entry.value)))
            ==> r == (if entry.value.url == "" then Err(MissingUrl(target, TransportOf(entry.value)))
                      else Ok(Launch(ProxyArgv(python, TransportOf(entry.value), entry.value.headers, entry.value.url),
                                     ChildEnv(environ, entry.value))))
    // a name that is not a configured server falls back to a script path
    ensures Lookup(ServersOf(cfg), target).None? && !(cfg.OddServers? && OddHit(cfg.field, target))
            ==> r == if pathExists then Ok(Launch([python, target], environ)) else Err(NotFound(target))
  {
    if cfg.OddServers? && OddHit(cfg.field, target) then Err(ServersTypeError(target))
    else
    match Lookup(ServersOf(cfg), target)
    case Some(e) =>
      if e.disabled then Err(Disabled(target))
      else
        var t := TransportOf(e);
        var env := ChildEnv(environ, e);
        if t == "stdio" then
          if e.command == "" then Err(MissingCommand(target))
          else Ok(Launch([e.command] + e.args, env))
        else if IsProxied(t) then
          if e.url == "" then Err(MissingUrl(target, t))
          else Ok(Launch(ProxyArgv(python, t, e.headers, e.url), env))
        else Err(UnsupportedType(t))
    case None =>
      if pathExists then Ok(Launch([python, target], environ)) else Err(NotFound(target))
  }

  /** The memo field of `MCPPipe` and its `load_config`. */
  class Pipe {
    const endpointUrl: string
    /** `config_path or os.environ.get("MCP_CONFIG")`, "" when neither is set. */
    const configPath: string
    var config: ConfigDoc

    constructor (endpoint: string, pathArg: Option<string>, envConfig: Option<string>)
      ensures endpointUrl == endpoint
      ensures configPath == OrElse(pathArg, OrElse(envConfig, ""))
      ensures config == JsonNull
    {
      endpointUrl := endpoint;
      configPath := OrElse(pathArg, OrElse(envConfig, ""));
      config := JsonNull;
    }

    /** `self.config_path or os.path.join(os.getcwd(), "mcp_config.json")` */
    function ConfigFile(cwd: string): (p: string)
      ensures configPath != "" ==> p == configPath
      ensures configPath == "" ==> EndsWith(p, "/mcp_config.json") && StartsWith(p, cwd)
    {
      if configPath != "" then configPath
      else if cwd != [] && cwd[|cwd| - 1] == '/' then
        var p := cwd + "mcp_config.json";
        assert p[|p| - 16..] == [cwd[|cwd| - 1]] + "mcp_config.json";
        p
      else cwd + "/mcp_config.json"
    }

    /** `load_config`: `fileExists` stands for `os.path.exists`, `parse` for
        reading the file and `json.load`. */
    method LoadConfig(cwd: string, fileExists: string -> bool, parse: string -> ParseOutcome)
      returns (c: ConfigDoc)
      modifies this
      ensures old(config) != JsonNull ==> c == old(config) && config == old(config)
      ensures old(config) == JsonNull ==>
                c == (if !fileExists(ConfigFile(cwd)) then Object([])
                      else match parse(ConfigFile(cwd))
                           case ParseError => Object([])
                           case Parsed(doc) => doc)
      ensures config == c
    {
      if config != JsonNull {
        c := config;
        return;
      }
      var path := ConfigFile(cwd);
      if !fileExists(path) {
        config := Object([]);
        c := config;
        return;
      }
      match parse(path) {
        case ParseError => config := Object([]);
        case Parsed(doc) => config := doc;
      }
      c := config;
    }
  }

  /** A second `load_config` returns the first result without reading the
      file again, unless the document itself was JSON null. */
  method LoadConfigTwice(p: Pipe, cwd: string, exists1: string -> bool, parse1: string -> ParseOutcome,
                         exists2: string -> bool, parse2: string -> ParseOutcome)
    returns (first: ConfigDoc, second: ConfigDoc)
    modifies p
    ensures first != JsonNull ==> second == first
    ensures first == JsonNull ==> old(p.config) == JsonNull
  {
    first := p.LoadConfig(cwd, exists1, parse1);
    second := p.LoadConfig(cwd, exists2, parse2);
  }

  // ---- reconnect backoff -------------------------------------------------

  function Pow2(k: nat): (r: nat)
    ensures r >= 1
  {
    if k == 0 then 1 else 2 * Pow2(k - 1)
  }

  /** The value of `backoff` after `failures` failed connections: it starts
      at InitialBackoff and each failure runs `min(backoff * 2, MAX_BACKOFF)`. */
  function BackoffAfter(failures: nat): nat {
    if failures == 0 then InitialBackoff else Min(2 * BackoffAfter(failures - 1), MaxBackoff)
  }

  /** Closed form: after k failures the wait is min(2^k, 600), so the first
      retry already waits 2 seconds. */
  lemma {:induction false} BackoffClosedForm(k: nat)
    ensures BackoffAfter(k) == Min(Pow2(k), MaxBackoff)
  {
    if k > 0 {
      BackoffClosedForm(k - 1);
    }
  }

  /** The wait never exceeds 600, is at least 2 once something failed, and
      never decreases as failures accumulate. */
  lemma {:induction false} BackoffBounds(j: nat, k: nat)
    requires j <= k
    ensures 1 <= BackoffAfter(k) <= MaxBackoff
    ensures k >= 1 ==> BackoffAfter(k) >= 2
    ensures BackoffAfter(j) <= BackoffAfter(k)
    decreases k
  {
    if k > 0 {
      if j < k {
        BackoffBounds(j, k - 1);
      } else {
        BackoffBounds(j - 1, k - 1);
      }
    }
  }

  /** Number of attempts in `outcomes` that raised. */
  function Failures(outcomes: seq<bool>): (n: nat)
    ensures n <= |outcomes|
  {
    if outcomes == [] then 0
    else Failures(outcomes[..|outcomes| - 1]) + (if outcomes[|outcomes| - 1] then 1 else 0)
  }

  /** The sleep before each attempt of `connect_with_retry`, when attempt i
      raises iff `raised[i]` (0 = no sleep). The loop is endless; this runs
      it for |raised| attempts. A failure count that is never reset decides
      every wait. */
  method ConnectWithRetry(raised: seq<bool>) returns (waits: seq<nat>, reconnectAttempt: nat)
    ensures |waits| == |raised|
    ensures forall i :: 0 <= i < |raised| ==>
              waits[i] == (if Failures(raised[..i]) == 0 then 0 else BackoffAfter(Failures(raised[..i])))
    ensures reconnectAttempt == Failures(raised)
  {
    reconnectAttempt := 0;
    var backoff: nat := InitialBackoff;
    waits := [];
    var i := 0;
    while i < |raised|
      invariant 0 <= i <= |raised|
      invariant |waits| == i
      invariant reconnectAttempt == Failures(raised[..i])
      invariant backoff == BackoffAfter(reconnectAttempt)
      invariant forall j :: 0 <= j < i ==>
                  waits[j] == (if Failures(raised[..j]) == 0 then 0 else BackoffAfter(Failures(raised[..j])))
    {
      if reconnectAttempt > 0 {
        waits := waits + [backoff];
      } else {
        waits := waits + [0];
      }
      assert raised[..i + 1][..i] == raised[..i];
      if raised[i] {
        reconnectAttempt := reconnectAttempt + 1;
        backoff := Min(backoff * 2, MaxBackoff);
      }
      i := i + 1;
    }
    assert raised[..|raised|] == raised;
  }

  // ---- run ----------------------------------------------------------------

  datatype RunOutcome =
    | Serve(targets: seq<string>, skipped: seq<string>)   // one retry loop per target
    | NoEnabledServers(skipped: seq<string>)              // RuntimeError
    | ConfigNotAnObject                                   // `cfg.get` on a non-dict
    | ServersNotAnObject                                  // `.keys()` on a truthy non-dict
    | UsageExit                                           // `sys.exit(1)`

  /** The names of the enabled entries, in document order. */
  function EnabledNames(servers: seq<(string, ServerEntry)>): (r: seq<string>)
    ensures |r| <= |servers|
  {
    if servers == [] then []
    else (if servers[0].1.disabled then [] else [servers[0].0]) + EnabledNames(servers[1..])
  }

  /** The names not in `excluded`, in their order. */
  function NotIn(names: seq<string>, excluded: seq<string>): (r: seq<string>)
    ensures |r| <= |names|
  {
    if names == [] then []
    else (if names[0] in excluded then [] else [names[0]]) + NotIn(names[1..], excluded)
  }

  /** The enabled names of a concatenation are those of each part, in
      order: the list follows the document. */
  lemma {:induction false} EnabledNamesAppend(a: seq<(string, ServerEntry)>, b: seq<(string, ServerEntry)>)
    ensures EnabledNames(a + b) == EnabledNames(a) + EnabledNames(b)
    decreases |a|
  {
    if a == [] {
      assert a + b == b;
    } else {
      assert (a + b)[0] == a[0];
      assert (a + b)[1..] == a[1..] + b;
      EnabledNamesAppend(a[1..], b);
    }
  }

  /** One entry contributes its name exactly when it is not disabled. */
  lemma EnabledNamesSingleton(name: string, e: ServerEntry)
    ensures EnabledNames([(name, e)]) == if e.disabled then [] else [name]
  {
    assert [(name, e)][1..] == [];
  }

  /** The skipped names of a concatenation are those of each part, in order. */
  lemma {:induction false} NotInAppend(a: seq<string>, b: seq<string>, excluded: seq<string>)
    ensures NotIn(a + b, excluded) == NotIn(a, excluded) + NotIn(b, excluded)
    decreases |a|
  {
    if a == [] {
      assert a + b == b;
    } else {
      assert (a + b)[0] == a[0];
      assert (a + b)[1..] == a[1..] + b;
      NotInAppend(a[1..], b, excluded);
    }
  }

  /** One name is kept exactly when it is not excluded. */
  lemma NotInSingleton(name: string, excluded: seq<string>)
    ensures NotIn([name], excluded) == if name in excluded then [] else [name]
  {
    assert [name][1..] == [];
  }

  /** `run(target)`. `target == ""` is the source's `not target`;
      `pathExists` is `os.path.exists(target)`. */
  function Run(cfg: ConfigDoc, target: string, pathExists: bool): (r: RunOutcome)
    ensures target != "" ==> r == (if pathExists then Serve([target], []) else UsageExit)
    ensures target == "" && (cfg.JsonNull? || cfg.NotAnObject?) ==> r == ConfigNotAnObject
    // a falsy "mcpServers" counts as no servers, a truthy non-object one raises
    ensures target == "" && cfg.OddServers? ==>
              r == if OddTruthy(cfg.field) then ServersNotAnObject else NoEnabledServers([])
    ensures r.NoEnabledServers? ==> target == "" && EnabledNames(ServersOf(cfg)) == []
    ensures target == "" && cfg.Object? && EnabledNames(cfg.servers) == [] ==> r.NoEnabledServers?
  {
    if target != "" then
      if pathExists then Serve([target], []) else UsageExit
    else if cfg.JsonNull? || cfg.NotAnObject? then ConfigNotAnObject
    else if cfg.OddServers? then
      if OddTruthy(cfg.field) then ServersNotAnObject else NoEnabledServers([])
    else
      var enabled := EnabledNames(cfg.servers);
      var skipped := NotIn(Names(cfg.servers), enabled);
      if enabled == [] then NoEnabledServers(skipped) else Serve(enabled, skipped)
  }

  lemma {:induction false} EnabledNamesSpec(servers: seq<(string, ServerEntry)>)
    requires DistinctNames(servers)
    ensures forall n :: n in EnabledNames(servers) <==>
              exists i :: 0 <= i < |servers| && servers[i].0 == n && !servers[i].1.disabled
    ensures forall i :: 0 <= i < |servers| ==> (servers[i].0 in EnabledNames(servers) <==> !servers[i].1.disabled)
  {
    if servers != [] {
      var t := servers[1..];
      assert DistinctNames(t) by {
        forall i, j | 0 <= i < j < |t| ensures t[i].0 != t[j].0 { assert t[i] == servers[i + 1] && t[j] == servers[j + 1]; }
      }
      EnabledNamesSpec(t);
      forall n ensures n in EnabledNames(servers) <==>
              exists i :: 0 <= i < |servers| && servers[i].0 == n && !servers[i].1.disabled
      {
        if n in EnabledNames(t) {
          var i :| 0 <= i < |t| && t[i].0 == n && !t[i].1.disabled;
          assert servers[i + 1] == t[i];
        }
        if exists i :: 0 <= i < |servers| && servers[i].0 == n && !servers[i].1.disabled {
          var i :| 0 <= i < |servers| && servers[i].0 == n && !servers[i].1.disabled;
          if i > 0 { assert t[i - 1] == servers[i]; }
        }
      }
    }
  }

  lemma {:induction false} NotInSpec(names: seq<string>, excluded: seq<string>)
    ensures forall n :: n in NotIn(names, excluded) <==> n in names && n !in excluded
    ensures |NotIn(names, excluded)| <= |names|
  {
    if names != [] {
      NotInSpec(names[1..], excluded);
      assert names == [names[0]] + names[1..];
    }
  }

  /** With no target, every configured server is either started or skipped,
      never both, and it is skipped exactly when its entry is disabled. An
      empty enabled set is an error and starts nothing. */
  lemma RunPartition(cfg: ConfigDoc)
    requires cfg.Object? && DistinctNames(cfg.servers)
    ensures var r := Run(cfg, "", false);
            var enabled := if r.Serve? then r.targets else [];
            (r.Serve? || r.NoEnabledServers?)
            && (r.NoEnabledServers? ==> forall i :: 0 <= i < |cfg.servers| ==> cfg.servers[i].1.disabled)
            && forall i :: 0 <= i < |cfg.servers| ==>
                 var n := cfg.servers[i].0;
                 (n in enabled <==> !cfg.servers[i].1.disabled)
                 && (n in r.skipped <==> cfg.servers[i].1.disabled)
  {
    EnabledNamesSpec(cfg.servers);
    NotInSpec(Names(cfg.servers), EnabledNames(cfg.servers));
    forall i | 0 <= i < |cfg.servers| ensures cfg.servers[i].0 in Names(cfg.servers) {
      assert Names(cfg.servers)[i] == cfg.servers[i].0;
    }
  }
}

=== FILE: remote_train.dfy ===
/** The bookkeeping of the remote training server (`remote_train.py`): the
    `--output_dir` extraction, the per-task process, log and config tables,
    the log trimming of the output collector, the status and stop handlers,
    the folder-upload path rewriting and the two newest-first listings.
    Shell execution, archiving, file saving and the clock are outside the
    model: their outcomes arrive as parameters. */
module RemoteTrain {
  import opened Common

  // ---------------------------------------------------------------------
  // extract_output_dir: re.search(r'--output_dir[=\s]+([^\s\\]+)', command)
  // ---------------------------------------------------------------------

  const OutputDirFlag: string := "--output_dir"

  /** The character class `[=\s]`. */
  predicate IsSepChar(c: char) { c == '=' || IsSpace(c) }

  /** The character class `[^\s\\]` of the captured group. */
  predicate IsDirChar(c: char) { !IsSpace(c) && c != '\\' }

  /** How many characters of `inClass` a greedy repetition consumes from
      `q`: the longest such run. */
  function Span(s: string, q: nat, inClass: char -> bool): (m: nat)
    requires q <= |s|
    ensures q + m <= |s|
    ensures forall k :: q <= k < q + m ==> inClass(s[k])
    ensures q + m == |s| || !inClass(s[q + m])
    decreases |s| - q
  {
    if q < |s| && inClass(s[q]) then 1 + Span(s, q + 1, inClass) else 0
  }

  /** A run of exactly `n` class characters that cannot be extended is what
      `Span` measures. */
  lemma SpanExact(s: string, q: nat, n: nat, inClass: char -> bool)
    requires q + n <= |s|
    requires forall k :: q <= k < q + n ==> inClass(s[k])
    requires q + n == |s| || !inClass(s[q + n])
    ensures Span(s, q, inClass) == n
  {
  }

  /** Backtracking of `[=\s]+`: after a separator run of length `k` from `q`
      the engine gives back characters one at a time until the group can
      start; the result is the longest usable prefix length (at least 1). */
  function LastStart(s: string, q: nat, k: nat): (r: Option<nat>)
    requires q + k <= |s|
    ensures r.Some? ==> 1 <= r.value <= k && q + r.value < |s| && IsDirChar(s[q + r.value])
    ensures r.Some? ==> forall j :: q + r.value < j <= q + k && j < |s| ==> !IsDirChar(s[j])
    ensures r.None? ==> forall j :: q < j <= q + k && j < |s| ==> !IsDirChar(s[j])
    decreases k
  {
    if k == 0 then None
    else if q + k < |s| && IsDirChar(s[q + k]) then Some(k)
    else LastStart(s, q, k - 1)
  }

  /** A successful match: where the literal `--output_dir` starts, where
      group 1 starts, and the text of group 1. */
  datatype Capture = Capture(flagAt: nat, start: nat, text: string)

  /** The separators and group 1 of the pattern, from `q` just after the
      literal that starts at `p`. */
  function GroupAfter(s: string, p: nat, q: nat): (r: Option<Capture>)
    requires q <= |s|
    ensures r.Some? ==> r.value.flagAt == p && q < r.value.start
    ensures r.Some? ==> r.value.text != [] && forall i :: 0 <= i < |r.value.text| ==> IsDirChar(r.value.text[i])
  {
    var m := Span(s, q, IsSepChar);
    match LastStart(s, q, m)
    case None => None
    case Some(k) =>
      var n := Span(s, q + k, IsDirChar);
      Some(Capture(p, q + k, s[q + k..q + k + n]))
  }

  /** The pattern anchored at position `p`. */
  function MatchAt(s: string, p: nat): (r: Option<Capture>)
    requires p <= |s|
    ensures r.Some? ==> r.value.flagAt == p
    ensures r.Some? ==> r.value.text != [] && forall i :: 0 <= i < |r.value.text| ==> IsDirChar(r.value.text[i])
  {
    if !StartsWith(s[p..], OutputDirFlag) then None
    else
      assert s[p..][..|OutputDirFlag|] == s[p..p + |OutputDirFlag|];
      GroupAfter(s, p, p + |OutputDirFlag|)
  }

  /** Where a match at `p` lies: the literal, then only separators up to
      the group, then the group up to the first character outside its
      class. */
  lemma MatchAtSound(s: string, p: nat)
    requires p <= |s| && MatchAt(s, p).Some?
    ensures var c := MatchAt(s, p).value;
              p + |OutputDirFlag| < c.start && c.start + |c.text| <= |s| &&
              s[p..p + |OutputDirFlag|] == OutputDirFlag &&
              (forall j :: p + |OutputDirFlag| <= j < c.start ==> IsSepChar(s[j])) &&
              c.text == s[c.start..c.start + |c.text|] &&
              (c.start + |c.text| == |s| || !IsDirChar(s[c.start + |c.text|]))
  {
    var q := p + |OutputDirFlag|;
    assert s[p..][..|OutputDirFlag|] == s[p..q];
  }

  /** The pattern matches at `p` in the regular-expression sense: the
      literal, then one or more separators, then a group character. */
  ghost predicate HasMatchAt(s: string, p: nat) {
    p + |OutputDirFlag| <= |s| && s[p..p + |OutputDirFlag|] == OutputDirFlag &&
    exists i :: p + |OutputDirFlag| < i < |s| && IsDirChar(s[i]) &&
      forall j :: p + |OutputDirFlag| <= j < i ==> IsSepChar(s[j])
  }

  /** `MatchAt` succeeds exactly where the pattern can match. */
  lemma MatchAtComplete(s: string, p: nat)
    requires p <= |s|
    ensures MatchAt(s, p).Some? <==> HasMatchAt(s, p)
  {
    if HasMatchAt(s, p) {
      var q := p + |OutputDirFlag|;
      assert StartsWith(s[p..], OutputDirFlag) by {
        assert s[p..][..|OutputDirFlag|] == s[p..q];
      }
      var i :| q < i < |s| && IsDirChar(s[i]) && forall j :: q <= j < i ==> IsSepChar(s[j]);
      var m := Span(s, q, IsSepChar);
      assert i - q <= m;
      assert LastStart(s, q, m).Some?;
    }
  }

  /** `re.search`: the leftmost position where the anchored pattern matches. */
  function Search(s: string, p: nat): (r: Option<Capture>)
    requires p <= |s|
    ensures r.None? ==> forall p' :: p <= p' <= |s| ==> MatchAt(s, p').None?
    ensures r.Some? ==> p <= r.value.flagAt <= |s| && MatchAt(s, r.value.flagAt) == r
    ensures r.Some? ==> forall p' :: p <= p' < r.value.flagAt ==> MatchAt(s, p').None?
    decreases |s| - p
  {
    var here := MatchAt(s, p);
    if here.Some? then here
    else if p == |s| then None
    else
      var r := Search(s, p + 1);
      assert r.Some? ==> forall p' :: p <= p' < r.value.flagAt ==> MatchAt(s, p').None? by {
        if r.Some? {
          forall p' | p <= p' < r.value.flagAt ensures MatchAt(s, p').None? {
            if p' > p {
              assert p + 1 <= p' < r.value.flagAt;
            }
          }
        }
      }
      r
  }

  /** `extract_output_dir(command)`. */
  function ExtractOutputDir(command: string): (r: Option<string>)
    ensures r.Some? ==> r.value != [] && forall i :: 0 <= i < |r.value| ==> IsDirChar(r.value[i])
  {
    match Search(command, 0)
    case None => None
    case Some(c) => Some(c.text)
  }

  /** The result is group 1 of the leftmost match, and there is one exactly
      when the pattern matches somewhere in the command. */
  lemma ExtractOutputDirSpec(command: string)
    ensures ExtractOutputDir(command).Some? <==> exists p :: 0 <= p <= |command| && HasMatchAt(command, p)
    ensures ExtractOutputDir(command).Some? ==>
              exists p :: 0 <= p <= |command| && MatchAt(command, p).Some? &&
                ExtractOutputDir(command).value == MatchAt(command, p).value.text &&
                forall p' :: 0 <= p' < p ==> !HasMatchAt(command, p')
  {
    forall p | 0 <= p <= |command| {
      MatchAtComplete(command, p);
    }
  }

  /** The separators and group on a text laid out as a maximal run of
      separators from `q` and a maximal run of group characters after it:
      group 1 is that run. */
  lemma GroupAfterLayout(s: string, p: nat, q: nat, sepLen: nat, dirLen: nat)
    requires q + sepLen + dirLen <= |s| && sepLen >= 1 && dirLen >= 1
    requires forall k :: q <= k < q + sepLen ==> IsSepChar(s[k])
    requires !IsSepChar(s[q + sepLen])
    requires forall k :: q + sepLen <= k < q + sepLen + dirLen ==> IsDirChar(s[k])
    requires q + sepLen + dirLen == |s| || !IsDirChar(s[q + sepLen + dirLen])
    ensures GroupAfter(s, p, q) == Some(Capture(p, q + sepLen, s[q + sepLen..q + sepLen + dirLen]))
  {
    SpanExact(s, q, sepLen, IsSepChar);
    assert IsDirChar(s[q + sepLen]);
    assert LastStart(s, q, sepLen) == Some(sepLen);
    SpanExact(s, q + sepLen, dirLen, IsDirChar);
  }

  /** A command that starts with the flag, separators and a directory yields
      that directory, whatever follows a character outside the group class. */
  lemma ExtractAfterFlag(sep: string, dir: string, rest: string)
    requires sep != [] && forall c :: c in sep ==> IsSepChar(c)
    requires dir != [] && forall c :: c in dir ==> IsDirChar(c)
    requires dir[0] != '='
    requires rest == [] || !IsDirChar(rest[0])
    ensures ExtractOutputDir(OutputDirFlag + sep + dir + rest) == Some(dir)
  {
    var s := OutputDirFlag + sep + dir + rest;
    var q := |OutputDirFlag|;
    var d := q + |sep|;
    assert s[..q] == OutputDirFlag;
    forall k | q <= k < d ensures IsSepChar(s[k]) {
      assert s[k] == sep[k - q];
    }
    assert s[d] == dir[0] && dir[0] in dir;
    forall k | d <= k < d + |dir| ensures IsDirChar(s[k]) {
      assert s[k] == dir[k - d];
    }
    if rest != [] {
      assert s[d + |dir|] == rest[0];
    }
    GroupAfterLayout(s, 0, q, |sep|, |dir|);
    assert StartsWith(s[0..], OutputDirFlag) by { assert s[0..] == s; }
    assert MatchAt(s, 0) == GroupAfter(s, 0, q);
    assert s[d..d + |dir|] == dir;
    assert Search(s, 0) == MatchAt(s, 0);
  }

  /** Backtracking at work: with nothing after `==` the second `=` becomes
      the captured directory. */
  lemma ExtractBacktracksIntoSeparators()
    ensures ExtractOutputDir("--output_dir==") == Some("=")
  {
    var s := "--output_dir==";
    assert StartsWith(s[0..], OutputDirFlag) by { assert s[0..][..12] == OutputDirFlag; }
    assert s[12] == '=' && s[13] == '=' && |s| == 14;
    SpanExact(s, 12, 2, IsSepChar);
    assert LastStart(s, 12, 2) == LastStart(s, 12, 1) == Some(1);
    SpanExact(s, 13, 1, IsDirChar);
    assert s[13..14] == "=";
    assert MatchAt(s, 0) == Some(Capture(0, 13, "="));
  }

  // ---------------------------------------------------------------------
  // Task tables and the log collector
  // ---------------------------------------------------------------------

  /** Entries kept per task by the collector's trimming. */
  const MaxLogEntries: nat := 1000

  /** The return codes `Popen` reports after SIGTERM and after SIGKILL. */
  const TerminatedCode: int := -15
  const KilledCode: int := -9

  const PackStartMessage: string := "[系统] 开始打包模型..."
  const PackDonePrefix: string := "[系统] 打包完成: "
  const PackFailedPrefix: string := "[系统] 打包失败: "
  const ShutdownMessage: string := "[系统] 即将关机..."
  const StoppedMessage: string := "[系统] 训练已停止"
  const MissingDirPrefix: string := "目录不存在: "

  datatype LogEntry = LogEntry(time: string, message: string)

  /** The slice `log[-1000:]` taken once the list is longer than 1000. */
  function Trim(log: seq<LogEntry>): (r: seq<LogEntry>)
    ensures |r| == Min(|log|, MaxLogEntries) && |r| <= |log|
    ensures r == log[|log| - |r|..]
  {
    if |log| > MaxLogEntries then log[|log| - MaxLogEntries..] else log
  }

  /** Trimming after every appended line keeps what one trim of the whole
      sequence keeps: the most recent 1000 entries. */
  lemma TrimAppend(a: seq<LogEntry>, b: seq<LogEntry>)
    ensures Trim(Trim(a) + b) == Trim(a + b)
  {
    if |a| > MaxLogEntries {
      var t := Trim(a) + b;
      var u := a + b;
      assert |Trim(t)| == |Trim(u)|;
      forall k | 0 <= k < |Trim(u)| ensures Trim(t)[k] == Trim(u)[k] {
        assert Trim(t)[k] == t[|t| - |Trim(t)| + k];
        assert Trim(u)[k] == u[|u| - |Trim(u)| + k];
      }
    }
  }

  /** One more line in the loop keeps the invariant of the collector. */
  lemma CollectStep(log0: seq<LogEntry>, es: seq<LogEntry>, i: nat)
    requires i < |es|
    ensures Trim((if i == 0 then log0 else Trim(log0 + es[..i])) + [es[i]]) == Trim(log0 + es[..i + 1])
  {
    assert log0 + es[..i + 1] == (log0 + es[..i]) + [es[i]] by {
      assert es[..i + 1] == es[..i] + [es[i]];
    }
    if i > 0 {
      TrimAppend(log0 + es[..i], [es[i]]);
    } else {
      assert log0 == log0 + es[..i];
    }
  }

  /** `str.rstrip()`: trailing whitespace removed. */
  function RStrip(s: string): (r: string)
    ensures |r| <= |s| && r == s[..|r|]
    ensures r == [] || !IsSpace(r[|r| - 1])
    ensures forall i :: |r| <= i < |s| ==> IsSpace(s[i])
  {
    if s != [] && IsSpace(s[|s| - 1]) then RStrip(s[..|s| - 1]) else s
  }

  /** The entries the collector makes of output lines and their stamps. */
  function Entries(lines: seq<string>, stamps: seq<string>): (es: seq<LogEntry>)
    requires |stamps| == |lines|
    ensures |es| == |lines|
  {
    seq(|lines|, k requires 0 <= k < |lines| => LogEntry(stamps[k], RStrip(lines[k])))
  }

  /** The read loop of `collect_logs` on one task's list: each output line
      (never empty before the end of output) is appended with its stamp,
      after which the list is cut back to its last 1000 entries; `gone`
      counts the entries cut away. */
  method CollectLines(log0: seq<LogEntry>, gone0: nat, lines: seq<string>, stamps: seq<string>)
    returns (log: seq<LogEntry>, gone: nat)
    requires |stamps| == |lines|
    requires forall k :: 0 <= k < |lines| ==> lines[k] != ""
    ensures log == if lines == [] then log0 else Trim(log0 + Entries(lines, stamps))
    ensures lines != [] ==> |log| <= MaxLogEntries
    ensures gone + |log| == gone0 + |log0| + |lines|
  {
    var es := Entries(lines, stamps);
    log, gone := log0, gone0;
    for i := 0 to |lines|
      invariant log == if i == 0 then log0 else Trim(log0 + es[..i])
      invariant gone + |log| == gone0 + |log0| + i
    {
      var entry := LogEntry(stamps[i], RStrip(lines[i]));
      assert entry == es[i];
      CollectStep(log0, es, i);
      log := log + [entry];
      if |log| > MaxLogEntries {
        gone := gone + (|log| - MaxLogEntries);
        log := log[|log| - MaxLogEntries..];
      }
    }
    assert es[..|lines|] == es;
  }

  /** A child process as the handlers see it through `poll()`. */
  datatype Proc = Proc(pid: int, running: bool, returnCode: Option<int>)

  function Terminate(p: Proc): Proc {
    Proc(p.pid, false, Some(TerminatedCode))
  }

  datatype TaskConfig = TaskConfig(outputDir: Option<string>, shutdownAfter: bool)

  /** The JSON body of `/start_training`; `None` fields are absent keys. */
  datatype StartRequest = StartRequest(command: Option<string>, taskId: Option<string>, shutdownAfter: bool)

  datatype StartResult = MissingCommand | SpawnFailed | Started(taskId: string, pid: int)
  {
    function Status(): int {
      match this
      case MissingCommand => 400
      case SpawnFailed => 500
      case Started(_, _) => 200
    }
  }

  /** `data.get('task_id', f"train_{int(time.time())}")`. */
  function TaskIdOf(req: StartRequest, defaultTaskId: string): (t: string)
    ensures req.taskId.Some? ==> t == req.taskId.value
    ensures req.taskId.None? ==> t == defaultTaskId
  {
    if req.taskId.Some? then req.taskId.value else defaultTaskId
  }

  /** The JSON body of `/stop_training`. */
  datatype StopBody = NoJson | NotAnObject | Object(taskId: Option<string>)

  datatype StopResult = StopError | UnknownTask | Stopped
  {
    function Status(): int {
      match this
      case StopError => 500
      case UnknownTask => 404
      case Stopped => 200
    }
  }

  /** The reply of `/training_status`; `BadLastIndex` is the uncaught
      `int()` failure on a non-numeric `last_index`. */
  datatype StatusResult =
    | BadLastIndex
    | MissingTaskId
    | Status(taskId: string, isRunning: bool, exitCode: Option<int>, logs: seq<LogEntry>, lastIndex: int)

  /** Python's `s[k:]`, negative `k` counting from the end. */
  function SliceFrom<T>(s: seq<T>, k: int): (r: seq<T>)
    ensures 0 <= k <= |s| ==> r == s[k..]
    ensures k > |s| ==> r == []
    ensures k < 0 ==> r == s[Max(0, |s| + k)..]
  {
    if k > |s| then [] else if k >= 0 then s[k..] else s[Max(0, |s| + k)..]
  }

  /** What a poll returns as written: everything from `last_index` on. */
  function LogsSince(log: seq<LogEntry>, lastIndex: int): (r: seq<LogEntry>)
    // always a suffix of the log
    ensures |r| <= |log| && r == log[|log| - |r|..]
    ensures 0 <= lastIndex <= |log| ==> |r| == |log| - lastIndex
    ensures lastIndex >= |log| ==> r == []
    // a negative index counts from the end: the last -lastIndex entries
    ensures lastIndex < 0 ==> |r| == Min(|log|, -lastIndex)
  {
    SliceFrom(log, lastIndex)
  }

  /** The corrected poll: `last_index` counts every entry ever logged, of
      which `dropped` have been trimmed away. */
  function LogsSinceCorrected(log: seq<LogEntry>, dropped: nat, lastIndex: int): (r: seq<LogEntry>)
    ensures |r| <= |log| && r == log[|log| - |r|..]
    ensures lastIndex <= dropped ==> r == log
  {
    var k := lastIndex - dropped;
    if k <= 0 then log else if k > |log| then [] else log[k..]
  }

  /** As written, once a task's log is full a client that has caught up
      receives nothing more, however many lines that task goes on to print. */
  lemma StatusStallsOnceFull(log: seq<LogEntry>, es: seq<LogEntry>)
    requires |log| >= MaxLogEntries && es != []
    ensures LogsSince(Trim(log + es), |log|) == []
  {
  }

  /** Corrected, a client that has caught up receives exactly the lines
      collected since, as long as at most 1000 arrived between two polls. */
  lemma CorrectedStatusDeliversNewLines(log: seq<LogEntry>, dropped: nat, es: seq<LogEntry>, log': seq<LogEntry>, dropped': nat)
    requires 0 < |es| <= MaxLogEntries
    requires log' == Trim(log + es)
    requires dropped' + |log'| == dropped + |log| + |es|
    ensures LogsSinceCorrected(log', dropped', dropped + |log|) == es
  {
    var u := log + es;
    assert |log'| >= |es|;
    var k := dropped + |log| - dropped';
    assert k == |log'| - |es|;
    forall i | 0 <= i < |es| ensures log'[k + i] == es[i] {
      assert log'[k + i] == u[|u| - |log'| + k + i];
    }
  }

  /** The archive name `pack_model` returns: the directory's last segment,
      an underscore, the stamp and `.zip`. */
  function StripSlashes(p: string): (r: string)
    ensures |r| <= |p| && r == p[..|r|]
    ensures r == [] || r[|r| - 1] != '/'
  {
    if p != [] && p[|p| - 1] == '/' then StripSlashes(p[..|p| - 1]) else p
  }

  /** `os.path.basename`: the text after the last '/'. */
  function Basename(p: string): (r: string)
    ensures '/' !in r
    ensures EndsWith(p, r)
    ensures |r| < |p| ==> p[|p| - |r| - 1] == '/'
  {
    if p == [] then []
    else if p[|p| - 1] == '/' then []
    else Basename(p[..|p| - 1]) + [p[|p| - 1]]
  }

  /** `pack_model(output_dir, task_id)`, with the existence test and the
      archiver's failure given as parameters. */
  function PackModel(outputDir: Option<string>, exists_: bool, stamp: string, archiveError: Option<string>): (r: Result<string, string>)
    ensures r.Ok? <==> Truthy(outputDir) && exists_ && archiveError.None?
    ensures r.Ok? ==> EndsWith(r.value, ".zip") && StartsWith(r.value, Basename(StripSlashes(outputDir.value)) + "_")
    ensures !Truthy(outputDir) || !exists_ ==> StartsWith(r.error, MissingDirPrefix)
    // the archive is named after the directory and the stamp
    ensures r.Ok? ==> r.value == Basename(StripSlashes(outputDir.value)) + "_" + stamp + ".zip"
    // the message names the directory as given, `None` when there is none
    ensures !Truthy(outputDir) || !exists_ ==>
              r.error[|MissingDirPrefix|..] == if outputDir.Some? then outputDir.value else "None"
    // the archiver's own error is passed through
    ensures Truthy(outputDir) && exists_ && archiveError.Some? ==> r.error == archiveError.value
  {
    if !Truthy(outputDir) || !exists_ then
      Err(MissingDirPrefix + (if outputDir.Some? then outputDir.value else "None"))
    else if archiveError.Some? then Err(archiveError.value)
    else
      var name := Basename(StripSlashes(outputDir.value)) + "_" + stamp;
      assert (name + ".zip")[..|name|] == name;
      Ok(name + ".zip")
  }

  function PackMessage(pack: Result<string, string>): string {
    match pack
    case Ok(zip) => PackDonePrefix + zip
    case Err(e) => PackFailedPrefix + e
  }

  /** The module-level tables `training_processes`, `training_logs` and
      `training_configs`. Each handler and each collector step is one
      atomic step. */
  /** A running process has no return code yet. */
  predicate RunningUnfinished(processes: map<string, Proc>) {
    forall t :: t in processes && processes[t].running ==> processes[t].returnCode.None?
  }

  lemma RunningUnfinishedUpdate(processes: map<string, Proc>, t: string, p: Proc)
    requires RunningUnfinished(processes) && (p.running ==> p.returnCode.None?)
    ensures RunningUnfinished(processes[t := p])
  {
  }

  class TrainServer {
    var processes: map<string, Proc>
    var logs: map<string, seq<LogEntry>>
    var configs: map<string, TaskConfig>
    /** Not kept by the source: how many entries trimming has dropped from
        each task's log since that task was started. Only the corrected
        status handler reads it. */
    var dropped: map<string, nat>

    ghost predicate Valid()
      reads this
    {
      processes.Keys <= logs.Keys && configs.Keys == logs.Keys && dropped.Keys == logs.Keys &&
      RunningUnfinished(processes)
    }

    constructor ()
      ensures Valid()
      ensures processes == map[] && logs == map[] && configs == map[] && dropped == map[]
    {
      processes := map[];
      logs := map[];
      configs := map[];
      dropped := map[];
    }

    /** `start_training`: `spawned` is the pid `Popen` gives, or `None` when
        spawning raises. */
    method StartTraining(body: Option<StartRequest>, defaultTaskId: string, spawned: Option<int>)
      returns (r: StartResult, terminatedOld: bool)
      requires Valid()
      modifies this
      ensures Valid()
      ensures r.MissingCommand? <==> body.None? || body.value.command.None?
      ensures r.MissingCommand? ==>
                !terminatedOld && processes == old(processes) && logs == old(logs) &&
                configs == old(configs) && dropped == old(dropped)
      ensures !r.MissingCommand? ==>
                var t := TaskIdOf(body.value, defaultTaskId);
                (terminatedOld <==> t in old(processes) && old(processes)[t].running) &&
                configs == old(configs)[t := TaskConfig(ExtractOutputDir(body.value.command.value), body.value.shutdownAfter)] &&
                logs == old(logs)[t := []] && dropped == old(dropped)[t := 0]
      ensures r.Started? ==>
                spawned.Some? && r == Started(TaskIdOf(body.value, defaultTaskId), spawned.value) &&
                processes == old(processes)[r.taskId := Proc(spawned.value, true, None)]
      ensures r.SpawnFailed? ==>
                spawned.None? &&
                var t := TaskIdOf(body.value, defaultTaskId);
                processes == if terminatedOld then old(processes)[t := Terminate(old(processes)[t])] else old(processes)
    {
      if body.None? || body.value.command.None? {
        return MissingCommand, false;
      }
      var req := body.value;
      var t := TaskIdOf(req, defaultTaskId);
      terminatedOld := t in processes && processes[t].running;
      if terminatedOld {
        RunningUnfinishedUpdate(processes, t, Terminate(processes[t]));
        processes := processes[t := Terminate(processes[t])];
      }
      var config := TaskConfig(ExtractOutputDir(req.command.value), req.shutdownAfter);
      configs := configs[t := config];
      logs := logs[t := []];
      dropped := dropped[t := 0];
      match spawned {
        case None =>
          r := SpawnFailed;
        case Some(pid) =>
          RunningUnfinishedUpdate(processes, t, Proc(pid, true, None));
          processes := processes[t := Proc(pid, true, None)];
          r := Started(t, pid);
      }
      assert processes.Keys <= logs.Keys && configs.Keys == logs.Keys && dropped.Keys == logs.Keys;
    }

    /** `collect_logs` reading the child's output: that task's list gets
        every line, trimmed as it goes. */
    method CollectOutput(taskId: string, lines: seq<string>, stamps: seq<string>)
      requires Valid() && taskId in logs
      requires |stamps| == |lines|
      requires forall k :: 0 <= k < |lines| ==> lines[k] != ""
      modifies this`logs, this`dropped
      ensures Valid()
      ensures taskId in logs && taskId in dropped
      ensures logs == old(logs)[taskId := if lines == [] then old(logs[taskId])
                                          else Trim(old(logs[taskId]) + Entries(lines, stamps))]
      ensures lines != [] ==> |logs[taskId]| <= MaxLogEntries
      ensures dropped == old(dropped)[taskId := dropped[taskId]]
      ensures dropped[taskId] + |logs[taskId]| == old(dropped[taskId]) + |old(logs[taskId])| + |lines|
    {
      var log, gone := CollectLines(logs[taskId], dropped[taskId], lines, stamps);
      logs := logs[taskId := log];
      dropped := dropped[taskId := gone];
    }

    /** The tail of `collect_logs` once the output ends: the exit code is
        recorded and, after a clean exit with an output directory, the
        packing messages (and the shutdown notice) are appended untrimmed.
        Returns whether the machine is to be shut down. */
    method FinishTask(taskId: string, returnCode: int, dirExists: bool, stamp: string,
                      archiveStamp: string, archiveError: Option<string>)
      returns (shutdown: bool)
      requires Valid() && taskId in processes
      modifies this`processes, this`logs
      ensures Valid()
      ensures processes == old(processes)[taskId := Proc(old(processes[taskId]).pid, false, Some(returnCode))]
      ensures shutdown ==> returnCode == 0 && Truthy(old(configs[taskId]).outputDir) && old(configs[taskId]).shutdownAfter
      ensures !(returnCode == 0 && Truthy(old(configs[taskId]).outputDir)) ==> logs == old(logs) && !shutdown
      ensures returnCode == 0 && Truthy(old(configs[taskId]).outputDir) ==>
                var pack := PackModel(old(configs[taskId]).outputDir, dirExists, archiveStamp, archiveError);
                shutdown == old(configs[taskId]).shutdownAfter &&
                logs == old(logs)[taskId := old(logs[taskId]) +
                                            ([LogEntry(stamp, PackStartMessage), LogEntry(stamp, PackMessage(pack))] +
                                             (if shutdown then [LogEntry(stamp, ShutdownMessage)] else []))]
    {
      var p := processes[taskId];
      processes := processes[taskId := Proc(p.pid, false, Some(returnCode))];
      var config := configs[taskId];
      shutdown := false;
      if returnCode == 0 && Truthy(config.outputDir) {
        var pack := PackModel(config.outputDir, dirExists, archiveStamp, archiveError);
        shutdown := config.shutdownAfter;
        var added := [LogEntry(stamp, PackStartMessage), LogEntry(stamp, PackMessage(pack))] +
                     (if shutdown then [LogEntry(stamp, ShutdownMessage)] else []);
        logs := logs[taskId := logs[taskId] + added];
      }
    }

    /** `training_status` as written; `lastIndex` is `None` when the query
        parameter is not an integer. */
    function TrainingStatus(taskId: Option<string>, lastIndex: Option<int>): (r: StatusResult)
      reads this
      ensures r.BadLastIndex? <==> lastIndex.None?
      ensures r.MissingTaskId? <==> lastIndex.Some? && !Truthy(taskId)
      ensures r.Status? ==> r.taskId == taskId.value
      ensures r.Status? ==> (r.isRunning <==> taskId.value in processes && processes[taskId.value].running)
      ensures r.Status? && taskId.value !in processes ==> !r.isRunning && r.exitCode.None?
      ensures r.Status? && taskId.value !in logs ==> r.logs == [] && r.lastIndex == 0
      ensures r.Status? && !r.isRunning && taskId.value in processes ==> r.exitCode == processes[taskId.value].returnCode
      ensures r.Status? && taskId.value in logs ==>
                r.logs == LogsSince(logs[taskId.value], lastIndex.value) && r.lastIndex == |logs[taskId.value]|
    {
      if lastIndex.None? then BadLastIndex
      else if !Truthy(taskId) then MissingTaskId
      else
        var t := taskId.value;
        var running := t in processes && processes[t].running;
        var exitCode := if running then None else if t in processes then processes[t].returnCode else None;
        var log := if t in logs then logs[t] else [];
        Status(t, running, exitCode, LogsSince(log, lastIndex.value), |log|)
    }

    /** `training_status` as evidently intended: the index handed back
        counts every entry ever logged, so trimming cannot hide new lines. */
    function TrainingStatusCorrected(taskId: Option<string>, lastIndex: Option<int>): (r: StatusResult)
      reads this
      ensures r.BadLastIndex? <==> lastIndex.None?
      ensures r.MissingTaskId? <==> lastIndex.Some? && !Truthy(taskId)
      ensures r.Status? ==> r.taskId == taskId.value
      ensures r.Status? ==> (r.isRunning <==> taskId.value in processes && processes[taskId.value].running)
      ensures r.Status? && taskId.value in logs && taskId.value in dropped ==>
                r.logs == LogsSinceCorrected(logs[taskId.value], dropped[taskId.value], lastIndex.value) &&
                r.lastIndex == dropped[taskId.value] + |logs[taskId.value]|
    {
      if lastIndex.None? then BadLastIndex
      else if !Truthy(taskId) then MissingTaskId
      else
        var t := taskId.value;
        var running := t in processes && processes[t].running;
        var exitCode := if running then None else if t in processes then processes[t].returnCode else None;
        var log := if t in logs then logs[t] else [];
        var gone := if t in dropped then dropped[t] else 0;
        Status(t, running, exitCode, LogsSinceCorrected(log, gone, lastIndex.value), gone + |log|)
    }

    /** `stop_training`: `exitsOnTerm` says whether the child ends within the
        five seconds after SIGTERM (otherwise it is killed). */
    method StopTraining(body: StopBody, exitsOnTerm: bool, stamp: string) returns (r: StopResult)
      requires Valid()
      modifies this`processes, this`logs
      ensures Valid()
      ensures r.StopError? <==> !body.Object?
      ensures r.UnknownTask? <==> body.Object? && (!Truthy(body.taskId) || body.taskId.value !in old(processes))
      ensures !r.Stopped? ==> processes == old(processes) && logs == old(logs)
      ensures r.Stopped? ==> body.taskId.value in processes && !processes[body.taskId.value].running
      ensures r.Stopped? && !old(processes)[body.taskId.value].running ==> processes == old(processes) && logs == old(logs)
      ensures r.Stopped? && old(processes)[body.taskId.value].running ==>
                var t := body.taskId.value;
                processes == old(processes)[t := Proc(old(processes)[t].pid, false,
                                                      Some(if exitsOnTerm then TerminatedCode else KilledCode))] &&
                logs == old(logs)[t := old(logs[t]) + [LogEntry(stamp, StoppedMessage)]]
    {
      if !body.Object? {
        return StopError;
      }
      if !Truthy(body.taskId) || body.taskId.value !in processes {
        return UnknownTask;
      }
      var t := body.taskId.value;
      var p := processes[t];
      if p.running {
        processes := processes[t := Proc(p.pid, false, Some(if exitsOnTerm then TerminatedCode else KilledCode))];
        logs := logs[t := logs[t] + [LogEntry(stamp, StoppedMessage)]];
      }
      return Stopped;
    }
  }

  // ---------------------------------------------------------------------
  // upload_folder
  // ---------------------------------------------------------------------

  /** One uploaded part: its filename and the size `os.path.getsize` reports
      once saved, or `None` when saving it raises (the part is skipped). */
  datatype UploadPart = UploadPart(filename: string, savedSize: Option<nat>)

  datatype SavedFile = SavedFile(path: string, size: nat)

  datatype UploadResult =
    | NoFilesField
    | NoFilesSelected
    | Uploaded(rootFolder: string, saved: seq<SavedFile>, totalSize: nat)

  /** `p.split('/')[0]`. */
  function FirstSegment(p: string): (r: string)
    ensures |r| <= |p| && r == p[..|r|] && '/' !in r
    ensures |r| < |p| ==> p[|r|] == '/'
  {
    if p == [] || p[0] == '/' then [] else [p[0]] + FirstSegment(p[1..])
  }

  /** `original_root`: the first segment of the first path, when that path
      has a '/'. */
  function OriginalRoot(paths: seq<string>): (r: string)
    ensures '/' !in r
    ensures |paths| > 0 && '/' in paths[0] ==> StartsWith(paths[0], r + "/")
    ensures |paths| == 0 || '/' !in paths[0] ==> r == ""
  {
    if |paths| > 0 && '/' in paths[0] then
      var r := FirstSegment(paths[0]);
      var p0 := paths[0];
      assert |r| == |p0| ==> r == p0;
      assert paths[0][..|r| + 1] == r + "/";
      r
    else ""
  }

  /** `root_folder`: the root with the stamp appended, or `upload_` and the
      stamp when there is no root. */
  function RootFolder(root: string, stamp: string): (f: string)
    ensures root != "" ==> StartsWith(f, root + "_")
    ensures root == "" ==> StartsWith(f, "upload_")
    ensures EndsWith(f, "_" + stamp)
  {
    if root != "" then root + "_" + stamp else "upload_" + stamp
  }

  /** A path under the original root is moved under the stamped root; any
      other path is kept. */
  function RewritePath(rel: string, root: string, rootFolder: string): (r: string)
    ensures root != "" && StartsWith(rel, root + "/") ==>
              StartsWith(r, rootFolder + "/") && r[|rootFolder|..] == rel[|root|..]
    ensures !(root != "" && StartsWith(rel, root + "/")) ==> r == rel
  {
    if root != "" && StartsWith(rel, root + "/") then
      var r := rootFolder + rel[|root|..];
      assert rel[|root|] == '/' by { assert rel[..|root| + 1][|root|] == '/'; }
      assert r[..|rootFolder| + 1] == rootFolder + "/";
      r
    else rel
  }

  /** `rel_path`: the i-th path, or the part's own filename past the end of
      `paths`. */
  function RelPathOf(parts: seq<UploadPart>, paths: seq<string>, i: nat): string
    requires i < |parts|
  {
    if i < |paths| then paths[i] else parts[i].filename
  }

  /** The files recorded for the first `n` parts. */
  function SavedUpTo(parts: seq<UploadPart>, paths: seq<string>, root: string, rootFolder: string, n: nat): (r: seq<SavedFile>)
    requires n <= |parts|
    ensures |r| <= n
  {
    if n == 0 then []
    else
      var p := parts[n - 1];
      SavedUpTo(parts, paths, root, rootFolder, n - 1) +
      (if p.filename != "" && p.savedSize.Some?
       then [SavedFile(RewritePath(RelPathOf(parts, paths, n - 1), root, rootFolder), p.savedSize.value)]
       else [])
  }

  function TotalSize(saved: seq<SavedFile>): nat {
    if saved == [] then 0 else TotalSize(saved[..|saved| - 1]) + saved[|saved| - 1].size
  }

  /** A part without a filename or without a saved size records nothing. */
  lemma SavedUpToSkip(parts: seq<UploadPart>, paths: seq<string>, root: string, rootFolder: string, i: nat)
    requires i < |parts| && (parts[i].filename == "" || parts[i].savedSize.None?)
    ensures SavedUpTo(parts, paths, root, rootFolder, i + 1) == SavedUpTo(parts, paths, root, rootFolder, i)
  {
    var prev := SavedUpTo(parts, paths, root, rootFolder, i);
    assert prev + [] == prev;
  }

  /** One more saved file adds its size to the total. */
  lemma TotalSizeAppend(saved: seq<SavedFile>, f: SavedFile)
    ensures TotalSize(saved + [f]) == TotalSize(saved) + f.size
  {
    assert (saved + [f])[..|saved|] == saved;
  }

  /** When every named part's path lies under the root, every saved file
      lies under the stamped root. */
  lemma {:induction false} SavedUnderRootFolder(parts: seq<UploadPart>, paths: seq<string>, root: string, rootFolder: string, n: nat)
    requires root != "" && n <= |parts|
    requires forall i :: 0 <= i < n && parts[i].filename != "" ==> i < |paths| && StartsWith(paths[i], root + "/")
    ensures forall f :: f in SavedUpTo(parts, paths, root, rootFolder, n) ==> StartsWith(f.path, rootFolder + "/")
  {
    if n > 0 {
      SavedUnderRootFolder(parts, paths, root, rootFolder, n - 1);
      var prev := SavedUpTo(parts, paths, root, rootFolder, n - 1);
      var p := parts[n - 1];
      if p.filename != "" && p.savedSize.Some? {
        var path := RewritePath(RelPathOf(parts, paths, n - 1), root, rootFolder);
        assert StartsWith(path, rootFolder + "/");
        var added := [SavedFile(path, p.savedSize.value)];
        assert SavedUpTo(parts, paths, root, rootFolder, n) == prev + added;
        forall f: SavedFile | f in prev + added ensures StartsWith(f.path, rootFolder + "/") {
          if f !in prev { assert f == added[0]; }
        }
      } else {
        assert SavedUpTo(parts, paths, root, rootFolder, n) == prev + [];
        assert prev + [] == prev;
      }
    }
  }

  /** A folder upload from a browser (every path `root/...`, one per part)
      lands entirely under `root_<stamp>`. */
  lemma FolderUploadStaysTogether(parts: seq<UploadPart>, paths: seq<string>, stamp: string)
    requires |paths| == |parts| > 0
    requires OriginalRoot(paths) != ""
    requires forall i :: 0 <= i < |paths| ==> StartsWith(paths[i], OriginalRoot(paths) + "/")
    ensures forall f :: f in SavedUpTo(parts, paths, OriginalRoot(paths), RootFolder(OriginalRoot(paths), stamp), |parts|) ==>
              StartsWith(f.path, OriginalRoot(paths) + "_" + stamp + "/")
  {
    SavedUnderRootFolder(parts, paths, OriginalRoot(paths), RootFolder(OriginalRoot(paths), stamp), |parts|);
  }

  /** `upload_folder`: `hasFilesField` says whether the form has a `files`
      field at all. */
  method UploadFolder(hasFilesField: bool, parts: seq<UploadPart>, paths: seq<string>, stamp: string)
    returns (r: UploadResult)
    ensures r.NoFilesField? <==> !hasFilesField
    ensures r.NoFilesSelected? <==> hasFilesField && parts == []
    ensures r.Uploaded? ==>
              var root := OriginalRoot(paths);
              r.rootFolder == RootFolder(root, stamp) &&
              r.saved == SavedUpTo(parts, paths, root, r.rootFolder, |parts|) &&
              r.totalSize == TotalSize(r.saved)
  {
    if !hasFilesField {
      return NoFilesField;
    }
    if parts == [] {
      return NoFilesSelected;
    }
    var root := OriginalRoot(paths);
    var rootFolder := RootFolder(root, stamp);
    var total := 0;
    var saved := [];
    for i := 0 to |parts|
      invariant saved == SavedUpTo(parts, paths, root, rootFolder, i)
      invariant total == TotalSize(saved)
    {
      var p := parts[i];
      if p.filename == "" {
        SavedUpToSkip(parts, paths, root, rootFolder, i);
        continue;
      }
      var rel := RewritePath(RelPathOf(parts, paths, i), root, rootFolder);
      if p.savedSize.Some? {
        var entry := SavedFile(rel, p.savedSize.value);
        assert SavedUpTo(parts, paths, root, rootFolder, i + 1) == saved + [entry];
        TotalSizeAppend(saved, entry);
        saved := saved + [entry];
        total := total + p.savedSize.value;
      } else {
        SavedUpToSkip(parts, paths, root, rootFolder, i);
      }
    }
    return Uploaded(rootFolder, saved, total);
  }

  // ---------------------------------------------------------------------
  // list_datasets and list_models
  // ---------------------------------------------------------------------

  /** A directory entry as `os.listdir` and the `os.path` tests see it. */
  datatype FsEntry = FsEntry(name: string, isDir: bool, isFile: bool, subdirs: set<string>, mtime: real, size: nat)

  datatype DatasetInfo = DatasetInfo(name: string, isValid: bool, timestamp: real)

  datatype ModelInfo = ModelInfo(name: string, size: nat, timestamp: real)

  ghost predicate NewestFirst<T>(s: seq<T>, ts: T -> real) {
    forall i, j :: 0 <= i < j < |s| ==> ts(s[i]) >= ts(s[j])
  }

  /** Inserts `x` ahead of the first entry that is not newer, so equal
      stamps keep their order. */
  function InsertNewestFirst<T>(x: T, s: seq<T>, ts: T -> real): (r: seq<T>)
    requires NewestFirst(s, ts)
    ensures NewestFirst(r, ts)
    ensures multiset(r) == multiset(s) + multiset{x}
    ensures |r| == |s| + 1 && (r[0] == x || (s != [] && r[0] == s[0]))
  {
    if s == [] || ts(s[0]) <= ts(x) then
      NewestFirstCons(x, s, ts);
      [x] + s
    else
      var tail := s[1..];
      assert NewestFirst(tail, ts) by {
        forall i, j | 0 <= i < j < |tail| ensures ts(tail[i]) >= ts(tail[j]) {
          assert tail[i] == s[i + 1] && tail[j] == s[j + 1];
        }
      }
      var rest := InsertNewestFirst(x, tail, ts);
      assert s == [s[0]] + tail;
      assert ts(s[0]) >= ts(rest[0]) by {
        if rest[0] != x { assert rest[0] == tail[0] == s[1]; }
      }
      NewestFirstCons(s[0], rest, ts);
      MultisetCons(s[0], tail, rest, x);
      [s[0]] + rest
  }

  /** Putting the same head on both sides keeps one extra element extra. */
  lemma MultisetCons<T>(h: T, tail: seq<T>, rest: seq<T>, x: T)
    requires multiset(rest) == multiset(tail) + multiset{x}
    ensures multiset([h] + rest) == multiset([h] + tail) + multiset{x}
  {
    assert multiset([h] + rest) == multiset([h]) + multiset(rest);
    assert multiset([h] + tail) == multiset([h]) + multiset(tail);
  }

  /** A head no older than the first entry of a newest-first list keeps it
      newest first. */
  lemma NewestFirstCons<T>(h: T, r: seq<T>, ts: T -> real)
    requires NewestFirst(r, ts) && (r == [] || ts(h) >= ts(r[0]))
    ensures NewestFirst([h] + r, ts)
  {
    var t := [h] + r;
    forall i, j | 0 <= i < j < |t| ensures ts(t[i]) >= ts(t[j]) {
      if i == 0 {
        assert t[j] == r[j - 1];
        if j > 1 { assert ts(r[0]) >= ts(r[j - 1]); }
      } else {
        assert t[i] == r[i - 1] && t[j] == r[j - 1];
      }
    }
  }

  /** `list.sort(key=..., reverse=True)`: a stable sort, newest first. */
  function SortNewestFirst<T>(s: seq<T>, ts: T -> real): (r: seq<T>)
    ensures NewestFirst(r, ts)
    ensures multiset(r) == multiset(s)
  {
    if s == [] then []
    else
      assert s == [s[0]] + s[1..];
      InsertNewestFirst(s[0], SortNewestFirst(s[1..], ts), ts)
  }

  /** A dataset directory is valid when it has `meta`, `data` and `videos`. */
  predicate IsValidDataset(e: FsEntry) {
    "meta" in e.subdirs && "data" in e.subdirs && "videos" in e.subdirs
  }

  function DatasetOf(e: FsEntry): DatasetInfo {
    DatasetInfo(e.name, IsValidDataset(e), e.mtime)
  }

  /** The listed datasets in directory order: one per subdirectory. */
  function Datasets(entries: seq<FsEntry>): (r: seq<DatasetInfo>)
    ensures forall d :: d in r ==> exists e :: e in entries && e.isDir && d == DatasetOf(e)
    ensures forall e :: e in entries && e.isDir ==> DatasetOf(e) in r
  {
    if entries == [] then []
    else (if entries[0].isDir then [DatasetOf(entries[0])] else []) + Datasets(entries[1..])
  }

  /** The listing of a concatenation is the listings of the parts, in
      order: every subdirectory gives exactly one entry. */
  lemma {:induction false} DatasetsAppend(a: seq<FsEntry>, b: seq<FsEntry>)
    ensures Datasets(a + b) == Datasets(a) + Datasets(b)
    decreases |a|
  {
    if a == [] {
      assert a + b == b;
    } else {
      assert (a + b)[0] == a[0];
      assert (a + b)[1..] == a[1..] + b;
      DatasetsAppend(a[1..], b);
    }
  }

  /** One entry is listed once if it is a directory, and not at all otherwise. */
  lemma DatasetsSingleton(e: FsEntry)
    ensures Datasets([e]) == if e.isDir then [DatasetOf(e)] else []
  {
    assert [e][1..] == [];
  }

  /** `list_datasets`. */
  function ListDatasets(entries: seq<FsEntry>): (r: seq<DatasetInfo>)
    ensures NewestFirst(r, (d: DatasetInfo) => d.timestamp)
    ensures multiset(r) == multiset(Datasets(entries))
    ensures forall d :: d in r ==> exists e :: e in entries && e.isDir && d == DatasetOf(e)
    ensures forall e :: e in entries && e.isDir ==> DatasetOf(e) in r
    ensures forall d :: d in r ==> (d.isValid <==> exists e :: e in entries && e.isDir && d == DatasetOf(e) && IsValidDataset(e))
  {
    var r := SortNewestFirst(Datasets(entries), (d: DatasetInfo) => d.timestamp);
    assert forall d :: d in r <==> d in Datasets(entries) by {
      forall d ensures d in r <==> d in Datasets(entries) {
        assert d in r <==> d in multiset(r);
      }
    }
    r
  }

  predicate IsModelArchive(e: FsEntry) {
    e.isFile && EndsWith(e.name, ".zip")
  }

  function ModelOf(e: FsEntry): ModelInfo {
    ModelInfo(e.name, e.size, e.mtime)
  }

  /** The listed archives in directory order. */
  function Models(entries: seq<FsEntry>): (r: seq<ModelInfo>)
    ensures forall m :: m in r ==> exists e :: e in entries && IsModelArchive(e) && m == ModelOf(e)
    ensures forall e :: e in entries && IsModelArchive(e) ==> ModelOf(e) in r
  {
    if entries == [] then []
    else (if IsModelArchive(entries[0]) then [ModelOf(entries[0])] else []) + Models(entries[1..])
  }

  /** The listing of a concatenation is the listings of the parts, in
      order: every archive gives exactly one entry. */
  lemma {:induction false} ModelsAppend(a: seq<FsEntry>, b: seq<FsEntry>)
    ensures Models(a + b) == Models(a) + Models(b)
    decreases |a|
  {
    if a == [] {
      assert a + b == b;
    } else {
      assert (a + b)[0] == a[0];
      assert (a + b)[1..] == a[1..] + b;
      ModelsAppend(a[1..], b);
    }
  }

  /** One entry is listed once if it is a `.zip` file, and not at all otherwise. */
  lemma ModelsSingleton(e: FsEntry)
    ensures Models([e]) == if IsModelArchive(e) then [ModelOf(e)] else []
  {
    assert [e][1..] == [];
  }

  /** `list_models`. */
  function ListModels(entries: seq<FsEntry>): (r: seq<ModelInfo>)
    ensures NewestFirst(r, (m: ModelInfo) => m.timestamp)
    ensures multiset(r) == multiset(Models(entries))
    ensures forall m :: m in r ==> EndsWith(m.name, ".zip")
    ensures forall e :: e in entries && IsModelArchive(e) ==> ModelOf(e) in r
  {
    var r := SortNewestFirst(Models(entries), (m: ModelInfo) => m.timestamp);
    assert forall m :: m in r <==> m in Models(entries) by {
      forall m ensures m in r <==> m in Models(entries) {
        assert m in r <==> m in multiset(r);
      }
    }
    r
  }
}

=== FILE: robot_service.dfy ===
/** The command state of `RobotService`: the `current_action` dictionary that
    the control loop sends to the robot every tick, the time of the last
    command, and the rules by which each command updates them. Whether the
    robot is connected is a field that the commands read and never change;
    the clock is the parameter `now`. */
module RobotService {
  import opened Common

  /** `RobotServiceConfig`, without the robot id and camera names. */
  datatype Config = Config(
    linearSpeed: real,        // m/s
    angularSpeed: real,       // deg/s
    armServoSpeed: real,      // fraction of the servo's top speed
    armTorqueLimit: int,
    commandTimeoutS: real,
    maxLoopFreqHz: int)

  const DefaultConfig := Config(0.2, 30.0, 0.2, 600, 6.0, 30)

  const VelocityKeys: set<string> := {"x.vel", "y.vel", "theta.vel"}
  const ArmKeys: set<string> := {"arm_shoulder_pan.pos", "arm_shoulder_lift.pos", "arm_elbow_flex.pos",
                                 "arm_wrist_flex.pos", "arm_wrist_roll.pos", "arm_gripper.pos"}

  /** The keys of `current_action`: three base velocities and six arm
      joint positions. */
  const ActionKeys: set<string> := VelocityKeys + ArmKeys

  /** The initial `current_action`: everything at zero. */
  const InitialAction: map<string, real> := map k | k in ActionKeys :: 0.0

  /** The target of `reset_arm`: joints at 0, gripper half open. */
  const ResetPositions: map<string, real> :=
    map["arm_shoulder_pan.pos" := 0.0, "arm_shoulder_lift.pos" := 0.0, "arm_elbow_flex.pos" := 0.0,
        "arm_wrist_flex.pos" := 0.0, "arm_wrist_roll.pos" := 0.0, "arm_gripper.pos" := 50.0]

  /** Why a command was refused. */
  datatype Failure = NotConnected | UnknownCommand(command: string)

  /** A command's reply: the action after the command, or the failure. */
  datatype Outcome = Done(action: map<string, real>) | Failed(failure: Failure)

  /** The base velocities a predefined command sets, `None` for a name the
      service does not know. */
  function PredefinedVelocity(cfg: Config, command: string): (v: Option<(real, real, real)>)
    ensures v.None? <==> command !in {"forward", "backward", "left", "right", "rotate_left", "rotate_right", "stop"}
    // at most one axis moves, at the configured speed in one direction or the other
    ensures v.Some? ==> (v.value.1 == 0.0 && v.value.2 == 0.0) || (v.value.0 == 0.0 && v.value.2 == 0.0)
                        || (v.value.0 == 0.0 && v.value.1 == 0.0)
    ensures v.Some? ==> v.value.0 in {0.0, cfg.linearSpeed, -cfg.linearSpeed}
                        && v.value.1 in {0.0, cfg.linearSpeed, -cfg.linearSpeed}
                        && v.value.2 in {0.0, cfg.angularSpeed, -cfg.angularSpeed}
    // the direction of each command
    ensures command == "forward" ==> v == Some((cfg.linearSpeed, 0.0, 0.0))
    ensures command == "backward" ==> v == Some((-cfg.linearSpeed, 0.0, 0.0))
    ensures command == "left" ==> v == Some((0.0, cfg.linearSpeed, 0.0))
    ensures command == "right" ==> v == Some((0.0, -cfg.linearSpeed, 0.0))
    ensures command == "rotate_left" ==> v == Some((0.0, 0.0, cfg.angularSpeed))
    ensures command == "rotate_right" ==> v == Some((0.0, 0.0, -cfg.angularSpeed))
    ensures command == "stop" ==> v == Some((0.0, 0.0, 0.0))
  {
    match command
    case "forward" => Some((cfg.linearSpeed, 0.0, 0.0))
    case "backward" => Some((-cfg.linearSpeed, 0.0, 0.0))
    case "left" => Some((0.0, cfg.linearSpeed, 0.0))
    case "right" => Some((0.0, -cfg.linearSpeed, 0.0))
    case "rotate_left" => Some((0.0, 0.0, cfg.angularSpeed))
    case "rotate_right" => Some((0.0, 0.0, -cfg.angularSpeed))
    case "stop" => Some((0.0, 0.0, 0.0))
    case _ => None
  }

  /** `current_action.update({"x.vel": x, "y.vel": y, "theta.vel": theta})` */
  function WithVelocity(action: map<string, real>, x: real, y: real, theta: real): (a: map<string, real>)
    ensures a.Keys == action.Keys + VelocityKeys
    ensures a["x.vel"] == x && a["y.vel"] == y && a["theta.vel"] == theta
    ensures forall k :: k in action && k !in VelocityKeys ==> a[k] == action[k]
  {
    action["x.vel" := x]["y.vel" := y]["theta.vel" := theta]
  }

  /** The assignments of `set_arm_position`: every key of the action that
      the request names takes the requested value, other requested keys are
      dropped. */
  function ApplyKnown(action: map<string, real>, positions: map<string, real>): (a: map<string, real>)
    ensures a.Keys == action.Keys
    ensures forall k :: k in a ==> a[k] == if k in positions then positions[k] else action[k]
  {
    map k | k in action :: if k in positions then positions[k] else action[k]
  }

  /** The servo settings `_configure_arm_servo_speed` writes to every arm
      motor. */
  datatype ServoSettings = ServoSettings(ratio: real, goalSpeed: int, acceleration: int, torqueLimit: int)

  const MaxServoSpeed: int := 2400
  const MaxAcceleration: int := 50

  function ServoSettingsFor(speedRatio: real, torqueLimit: int): (s: ServoSettings)
    ensures 0.05 <= s.ratio <= 1.0
    ensures 0.05 <= speedRatio <= 1.0 ==> s.ratio == speedRatio
    ensures 120 <= s.goalSpeed <= MaxServoSpeed
    ensures 5 <= s.acceleration <= 25
    ensures s.goalSpeed as real <= MaxServoSpeed as real * s.ratio < s.goalSpeed as real + 1.0
    ensures s.torqueLimit == torqueLimit
  {
    var r := MaxReal(0.05, MinReal(1.0, speedRatio));
    ServoSettings(r, Trunc(MaxServoSpeed as real * r), Max(5, Trunc(MaxAcceleration as real * r * 0.5)), torqueLimit)
  }

  /** The action the watchdog lets through at time `now`: velocities are
      zeroed once the last command is older than the timeout. */
  function WatchdogAction(cfg: Config, action: map<string, real>, lastCommandTime: real, now: real): (a: map<string, real>)
    ensures VelocityKeys <= action.Keys ==> a.Keys == action.Keys
    ensures action.Keys <= a.Keys
    ensures now - lastCommandTime > cfg.commandTimeoutS ==> a == WithVelocity(action, 0.0, 0.0, 0.0)
    ensures now - lastCommandTime <= cfg.commandTimeoutS && VelocityKeys <= action.Keys ==> a == action
    ensures forall k :: k in action && k !in VelocityKeys ==> a[k] == action[k]
  {
    if now - lastCommandTime > cfg.commandTimeoutS then WithVelocity(action, 0.0, 0.0, 0.0)
    else action
  }

  /** Zeroing velocities twice is zeroing them once: the watchdog firing on
      consecutive ticks leaves the action as the first firing left it. */
  lemma WatchdogIdempotent(cfg: Config, action: map<string, real>, last: real, t1: real, t2: real)
    requires t1 <= t2
    requires t1 - last > cfg.commandTimeoutS
    ensures WatchdogAction(cfg, WatchdogAction(cfg, action, last, t1), last, t2) == WatchdogAction(cfg, action, last, t1)
  {
    var a := WatchdogAction(cfg, action, last, t1);
    assert WithVelocity(a, 0.0, 0.0, 0.0) == a;
  }

  /** Some tick among `times` saw the last command as timed out. */
  predicate TrippedBy(cfg: Config, lastCommandTime: real, times: seq<real>) {
    exists j :: 0 <= j < |times| && times[j] - lastCommandTime > cfg.commandTimeoutS
  }

  /** One more tick trips the watchdog iff an earlier one did or this one
      sees the timeout. */
  lemma TrippedByExtend(cfg: Config, lastCommandTime: real, times: seq<real>, i: nat)
    requires i < |times|
    ensures TrippedBy(cfg, lastCommandTime, times[..i + 1]) <==>
              TrippedBy(cfg, lastCommandTime, times[..i]) || times[i] - lastCommandTime > cfg.commandTimeoutS
  {
    var pre, ext := times[..i], times[..i + 1];
    assert ext[i] == times[i];
    if TrippedBy(cfg, lastCommandTime, pre) {
      var j :| 0 <= j < |pre| && pre[j] - lastCommandTime > cfg.commandTimeoutS;
      assert ext[j] == pre[j];
    }
    if TrippedBy(cfg, lastCommandTime, ext) {
      var j :| 0 <= j < |ext| && ext[j] - lastCommandTime > cfg.commandTimeoutS;
      if j < i {
        assert pre[j] == ext[j];
      }
    }
  }

  class Service {
    const config: Config
    /** `robot is not None and robot.is_connected` */
    var connected: bool
    var running: bool
    var lastCommandTime: real
    var action: map<string, real>
    /** `_arm_speed_configured`, `None` before the first arm command */
    var armSpeedConfigured: Option<real>
    /** The settings last written to the arm motors. */
    var servo: Option<ServoSettings>

    ghost predicate Valid()
      reads this
    {
      action.Keys == ActionKeys
    }

    constructor (cfg: Config, isConnected: bool)
      ensures config == cfg && connected == isConnected && !running
      ensures lastCommandTime == 0.0 && action == InitialAction
      ensures armSpeedConfigured.None? && servo.None?
      ensures Valid()
    {
      config := cfg;
      connected := isConnected;
      running := false;
      lastCommandTime := 0.0;
      action := InitialAction;
      armSpeedConfigured := None;
      servo := None;
    }

    /** `execute_predefined_command(command)`. */
    method ExecutePredefinedCommand(command: string, now: real) returns (r: Outcome)
      requires Valid()
      modifies this`action, this`lastCommandTime
      ensures Valid()
      ensures !connected ==> r == Failed(NotConnected) && action == old(action) && lastCommandTime == old(lastCommandTime)
      ensures connected ==>
                match PredefinedVelocity(config, command)
                case None =>
                  // refused, but the base has already been stopped
                  r == Failed(UnknownCommand(command)) && lastCommandTime == old(lastCommandTime)
                  && action == WithVelocity(old(action), 0.0, 0.0, 0.0)
                case Some(v) =>
                  r == Done(action) && lastCommandTime == now
                  && action == WithVelocity(old(action), v.0, v.1, v.2)
    {
      if !connected {
        return Failed(NotConnected);
      }
      action := WithVelocity(action, 0.0, 0.0, 0.0);
      match PredefinedVelocity(config, command) {
        case None =>
          return Failed(UnknownCommand(command));
        case Some(v) =>
          action := action[if v.0 != 0.0 then "x.vel" else if v.1 != 0.0 then "y.vel" else "theta.vel"
                           := if v.0 != 0.0 then v.0 else if v.1 != 0.0 then v.1 else v.2];
          assert action == WithVelocity(old(action), v.0, v.1, v.2);
      }
      lastCommandTime := now;
      r := Done(action);
    }

    /** `execute_custom_velocity(x_vel, y_vel, theta_vel)`. */
    method ExecuteCustomVelocity(x: real, y: real, theta: real, now: real) returns (r: Outcome)
      requires Valid()
      modifies this`action, this`lastCommandTime
      ensures Valid()
      ensures !connected ==> r == Failed(NotConnected) && action == old(action) && lastCommandTime == old(lastCommandTime)
      ensures connected ==> action == WithVelocity(old(action), x, y, theta) && lastCommandTime == now && r == Done(action)
    {
      if !connected {
        return Failed(NotConnected);
      }
      action := WithVelocity(action, x, y, theta);
      lastCommandTime := now;
      r := Done(action);
    }

    /** `move_robot_for_duration(command, duration)`: the command's failure
        comes back unchanged; on success a timed stop is scheduled unless
        the command is "stop" or the duration is not positive. */
    method MoveRobotForDuration(command: string, duration: real, now: real)
      returns (failure: Option<Failure>, stopScheduled: bool)
      requires Valid()
      modifies this`action, this`lastCommandTime
      ensures Valid()
      ensures failure == (if !connected then Some(NotConnected)
                          else if PredefinedVelocity(config, command).None? then Some(UnknownCommand(command))
                          else None)
      ensures stopScheduled <==> failure.None? && command != "stop" && duration > 0.0
      ensures !connected ==> action == old(action) && lastCommandTime == old(lastCommandTime)
      ensures connected ==>
                match PredefinedVelocity(config, command)
                case None => lastCommandTime == old(lastCommandTime) && action == WithVelocity(old(action), 0.0, 0.0, 0.0)
                case Some(v) => lastCommandTime == now && action == WithVelocity(old(action), v.0, v.1, v.2)
    {
      var r := ExecutePredefinedCommand(command, now);
      if r.Failed? {
        return Some(r.failure), false;
      }
      failure := None;
      stopScheduled := command != "stop" && duration > 0.0;
    }

    /** `move_robot_with_custom_speed_for_duration(x, y, theta, duration)`. */
    method MoveRobotWithCustomSpeedForDuration(x: real, y: real, theta: real, duration: real, now: real)
      returns (failure: Option<Failure>, stopScheduled: bool)
      requires Valid()
      modifies this`action, this`lastCommandTime
      ensures Valid()
      ensures failure == (if connected then None else Some(NotConnected))
      ensures stopScheduled <==> connected && duration > 0.0
      ensures connected ==> action == WithVelocity(old(action), x, y, theta) && lastCommandTime == now
      ensures !connected ==> action == old(action) && lastCommandTime == old(lastCommandTime)
    {
      var r := ExecuteCustomVelocity(x, y, theta, now);
      if r.Failed? {
        return Some(r.failure), false;
      }
      failure := None;
      stopScheduled := duration > 0.0;
    }

    /** `set_arm_position(arm_positions)`: configures the servo speed the
        first time (or after the configured speed changed), then copies the
        requested positions of known keys one entry at a time. */
    method SetArmPosition(positions: map<string, real>, now: real) returns (r: Outcome)
      requires Valid()
      modifies this`action, this`lastCommandTime, this`armSpeedConfigured, this`servo
      ensures Valid()
      ensures !connected ==> r == Failed(NotConnected) && action == old(action)
                             && lastCommandTime == old(lastCommandTime)
                             && armSpeedConfigured == old(armSpeedConfigured) && servo == old(servo)
      ensures connected ==> action == ApplyKnown(old(action), positions) && lastCommandTime == now && r == Done(action)
      ensures connected ==> armSpeedConfigured == Some(config.armServoSpeed)
      ensures connected && old(armSpeedConfigured) != Some(config.armServoSpeed) ==>
                servo == Some(ServoSettingsFor(config.armServoSpeed, config.armTorqueLimit))
      ensures connected && old(armSpeedConfigured) == Some(config.armServoSpeed) ==> servo == old(servo)
    {
      if !connected {
        return Failed(NotConnected);
      }
      if armSpeedConfigured != Some(config.armServoSpeed) {
        servo := Some(ServoSettingsFor(config.armServoSpeed, config.armTorqueLimit));
        armSpeedConfigured := Some(config.armServoSpeed);
      }
      var todo := positions.Keys;
      ghost var servoBefore := servo;
      while todo != {}
        invariant todo <= positions.Keys
        invariant armSpeedConfigured == Some(config.armServoSpeed) && servo == servoBefore
        invariant lastCommandTime == old(lastCommandTime)
        invariant action.Keys == old(action).Keys
        invariant forall k :: k in action ==>
                    action[k] == if k in positions && k !in todo then positions[k] else old(action)[k]
        decreases todo
      {
        var joint :| joint in todo;
        if joint in action {
          action := action[joint := positions[joint]];
        }
        todo := todo - {joint};
      }
      lastCommandTime := now;
      r := Done(action);
    }

    /** `stop_robot()` */
    method StopRobot(now: real) returns (r: Outcome)
      requires Valid()
      modifies this`action, this`lastCommandTime
      ensures Valid()
      ensures connected ==> action == WithVelocity(old(action), 0.0, 0.0, 0.0) && r == Done(action)
                            && lastCommandTime == now
      ensures !connected ==> r == Failed(NotConnected) && action == old(action)
                             && lastCommandTime == old(lastCommandTime)
    {
      r := ExecutePredefinedCommand("stop", now);
    }

    /** `reset_arm()`: the five joints to 0 and the gripper to 50. */
    method ResetArm(now: real) returns (r: Outcome)
      requires Valid()
      modifies this`action, this`lastCommandTime, this`armSpeedConfigured, this`servo
      ensures Valid()
      ensures connected ==> r == Done(action)
                            && (forall k :: k in ArmKeys ==> action[k] == if k == "arm_gripper.pos" then 50.0 else 0.0)
                            && (forall k :: k in VelocityKeys ==> action[k] == old(action)[k])
      ensures !connected ==> r == Failed(NotConnected) && action == old(action)
      ensures connected ==> lastCommandTime == now && armSpeedConfigured == Some(config.armServoSpeed)
      ensures connected && old(armSpeedConfigured) != Some(config.armServoSpeed) ==>
                servo == Some(ServoSettingsFor(config.armServoSpeed, config.armTorqueLimit))
      ensures connected && old(armSpeedConfigured) == Some(config.armServoSpeed) ==> servo == old(servo)
      ensures !connected ==> lastCommandTime == old(lastCommandTime)
                             && armSpeedConfigured == old(armSpeedConfigured) && servo == old(servo)
    {
      r := SetArmPosition(ResetPositions, now);
      assert forall k :: k in ArmKeys ==>
               k in ResetPositions && ResetPositions[k] == if k == "arm_gripper.pos" then 50.0 else 0.0;
      assert forall k :: k in VelocityKeys ==> k !in ResetPositions;
    }

    /** `set_gripper(value)` */
    method SetGripper(value: real, now: real) returns (r: Outcome)
      requires Valid()
      modifies this`action, this`lastCommandTime, this`armSpeedConfigured, this`servo
      ensures Valid()
      ensures connected ==> action == old(action)["arm_gripper.pos" := value] && r == Done(action)
      ensures !connected ==> r == Failed(NotConnected) && action == old(action)
      ensures connected ==> lastCommandTime == now && armSpeedConfigured == Some(config.armServoSpeed)
      ensures connected && old(armSpeedConfigured) != Some(config.armServoSpeed) ==>
                servo == Some(ServoSettingsFor(config.armServoSpeed, config.armTorqueLimit))
      ensures connected && old(armSpeedConfigured) == Some(config.armServoSpeed) ==> servo == old(servo)
      ensures !connected ==> lastCommandTime == old(lastCommandTime)
                             && armSpeedConfigured == old(armSpeedConfigured) && servo == old(servo)
    {
      r := SetArmPosition(map["arm_gripper.pos" := value], now);
    }

    /** One pass of `_control_loop` at time `now`: the watchdog, then the
        action that is sent to the robot. */
    method WatchdogStep(now: real) returns (sent: map<string, real>)
      requires Valid()
      modifies this`action
      ensures Valid()
      ensures action == WatchdogAction(config, old(action), lastCommandTime, now)
      ensures sent == action
    {
      if now - lastCommandTime > config.commandTimeoutS {
        action := WithVelocity(action, 0.0, 0.0, 0.0);
      }
      sent := action;
    }

    /** `_control_loop` run for the ticks at `times`, with no command
        arriving meanwhile: it sends the action at every tick while the
        service runs and the robot is connected, with the velocities zeroed
        from the first tick at which the last command had timed out on. */
    method ControlLoop(times: seq<real>) returns (sent: seq<map<string, real>>)
      requires Valid()
      modifies this`action
      ensures Valid()
      ensures |sent| == if running && connected then |times| else 0
      ensures forall i :: 0 <= i < |sent| ==>
                sent[i] == if TrippedBy(config, lastCommandTime, times[..i + 1])
                           then WithVelocity(old(action), 0.0, 0.0, 0.0) else old(action)
      ensures forall k :: k in ArmKeys ==> action[k] == old(action)[k]
      // the action left behind is the last one sent, or the old one when nothing was sent
      ensures action == if running && connected && TrippedBy(config, lastCommandTime, times)
                        then WithVelocity(old(action), 0.0, 0.0, 0.0) else old(action)
      ensures |sent| > 0 ==> action == sent[|sent| - 1]
    {
      sent := [];
      if !(running && connected) {
        return;
      }
      var i := 0;
      while i < |times|
        invariant 0 <= i <= |times|
        invariant Valid()
        invariant |sent| == i
        invariant action == if TrippedBy(config, lastCommandTime, times[..i])
                            then WithVelocity(old(action), 0.0, 0.0, 0.0) else old(action)
        invariant forall j :: 0 <= j < i ==>
                    sent[j] == if TrippedBy(config, lastCommandTime, times[..j + 1])
                               then WithVelocity(old(action), 0.0, 0.0, 0.0) else old(action)
      {
        TrippedByExtend(config, lastCommandTime, times, i);
        var a := WatchdogStep(times[i]);
        if TrippedBy(config, lastCommandTime, times[..i]) {
          assert WithVelocity(WithVelocity(old(action), 0.0, 0.0, 0.0), 0.0, 0.0, 0.0)
              == WithVelocity(old(action), 0.0, 0.0, 0.0);
        }
        sent := sent + [a];
        i := i + 1;
      }
      assert times[..i] == times;
    }
  }
}

=== FILE: session.dfy ===
/** The session queue of the web front end (`SessionManager`): one active
    controller and a duplicate-free list of waiting usernames. Each operation
    runs under the manager's lock, so each is one atomic step here; the clock
    is the parameter `now` (seconds, as `time.time()` returns them). */
module Session {
  import opened Common

  /** The environment defaults of `SESSION_TIMEOUT_SECONDS` and
      `VIP_SESSION_TIMEOUT_SECONDS`. */
  const SessionTimeoutSeconds: int := 100
  const VipSessionTimeoutSeconds: int := 600

  datatype ActiveUser = ActiveUser(id: Option<string>, username: Option<string>, startTime: real, isVip: bool)

  /** `ActiveUser()` with its field defaults. */
  const NoActiveUser := ActiveUser(None, None, 0.0, false)

  /** The dictionary `get_session_info` returns. */
  datatype SessionInfo = SessionInfo(
    isActiveUser: bool,
    remainingSeconds: int,
    currentOwner: Option<string>,
    sessionTimeout: int,
    isVip: bool,
    waitingUsers: seq<string>)

  /** The dictionary `get_waiting_info` returns. */
  datatype WaitingInfo = WaitingInfo(
    currentOwner: Option<string>,
    waitingUsers: seq<string>,
    remainingSeconds: int,
    sessionTimeout: int)

  /** The waiting list as shown to clients: every name except the active
      one, in queue order. */
  function WaitingView(waiting: seq<string>, activeName: Option<string>): (v: seq<string>)
    ensures forall u :: u in v <==> u in waiting && Some(u) != activeName
    ensures |v| <= |waiting|
    ensures (forall i :: 0 <= i < |waiting| ==> Some(waiting[i]) != activeName) ==> v == waiting
  {
    if waiting == [] then []
    else (if Some(waiting[0]) != activeName then [waiting[0]] else []) + WaitingView(waiting[1..], activeName)
  }

  /** The view of a concatenation is the concatenation of the views: the
      shown names keep their queue order. */
  lemma {:induction false} WaitingViewAppend(a: seq<string>, b: seq<string>, activeName: Option<string>)
    ensures WaitingView(a + b, activeName) == WaitingView(a, activeName) + WaitingView(b, activeName)
    decreases |a|
  {
    if a == [] {
      assert a + b == b;
    } else {
      assert (a + b)[0] == a[0];
      assert (a + b)[1..] == a[1..] + b;
      WaitingViewAppend(a[1..], b, activeName);
    }
  }

  /** One queued name is shown exactly when it is not the active one. */
  lemma WaitingViewSingleton(u: string, activeName: Option<string>)
    ensures WaitingView([u], activeName) == if Some(u) != activeName then [u] else []
  {
    assert [u][1..] == [];
  }

  /** Filtering keeps a duplicate-free list duplicate-free. */
  lemma {:induction false} WaitingViewNoDup(waiting: seq<string>, activeName: Option<string>)
    requires NoDup(waiting)
    ensures NoDup(WaitingView(waiting, activeName))
  {
    if waiting != [] {
      var t := waiting[1..];
      assert NoDup(t) by {
        forall i, j | 0 <= i < j < |t| ensures t[i] != t[j] {
          assert t[i] == waiting[i + 1] && t[j] == waiting[j + 1];
        }
      }
      assert waiting[0] !in t by {
        forall k | 0 <= k < |t| ensures t[k] != waiting[0] { assert t[k] == waiting[k + 1]; }
      }
      WaitingViewNoDup(t, activeName);
      var rest := WaitingView(t, activeName);
      var v := (if Some(waiting[0]) != activeName then [waiting[0]] else []) + rest;
      assert NoDup(v) by {
        forall i, j | 0 <= i < j < |v| ensures v[i] != v[j] {
          if Some(waiting[0]) != activeName {
            if i == 0 {
              assert v[j] in rest;
            } else {
              assert v[i] == rest[i - 1] && v[j] == rest[j - 1];
            }
          } else {
            assert v[i] == rest[i] && v[j] == rest[j];
          }
        }
      }
    }
  }

  /** The outcome of a call that may never return. */
  datatype Call<T> = Returns(value: T) | Deadlock

  class SessionManager {
    var active: ActiveUser
    var waiting: seq<string>

    /** Every waiting name is non-empty and appears once. */
    ghost predicate Valid()
      reads this
    {
      NoDup(waiting) && forall i :: 0 <= i < |waiting| ==> waiting[i] != ""
    }

    constructor ()
      ensures active == NoActiveUser && waiting == []
      ensures Valid()
    {
      active := NoActiveUser;
      waiting := [];
    }

    /** `get_timeout_seconds`: the limit that applies to the current holder. */
    function TimeoutSeconds(): (t: int)
      reads this
      ensures t == VipSessionTimeoutSeconds || t == SessionTimeoutSeconds
      ensures t == VipSessionTimeoutSeconds <==> active.isVip
    {
      if active.isVip then VipSessionTimeoutSeconds else SessionTimeoutSeconds
    }

    /** `is_session_active`: someone holds control and the timeout has not
        elapsed since the start time. */
    predicate IsSessionActive(now: real)
      reads this
    {
      active.id.Some? && now - active.startTime < TimeoutSeconds() as real
    }

    /** `get_remaining_seconds`: whole seconds left, never negative, 0
        without a holder. */
    function RemainingSeconds(now: real): (n: int)
      reads this
      ensures n >= 0
      ensures active.id.None? ==> n == 0
      ensures IsSessionActive(now) ==>
                n as real <= TimeoutSeconds() as real - (now - active.startTime) < n as real + 1.0
      ensures active.id.Some? && !IsSessionActive(now) ==> n == 0
    {
      if active.id.None? then 0
      else Max(0, Trunc(TimeoutSeconds() as real - (now - active.startTime)))
    }

    /** `get_session_info(user_id)`. */
    function SessionInfoAt(userId: Option<string>, now: real): (r: SessionInfo)
      reads this
      ensures r.sessionTimeout == TimeoutSeconds()
      ensures r.isActiveUser <==> IsSessionActive(now) && userId == active.id
      ensures r.remainingSeconds >= 0
      ensures r.isActiveUser ==>
                r.remainingSeconds as real <= TimeoutSeconds() as real - (now - active.startTime)
                                            < r.remainingSeconds as real + 1.0
      ensures !r.isActiveUser ==> r.remainingSeconds == 0
      ensures !IsSessionActive(now) ==> r.currentOwner.None? && !r.isVip
      ensures IsSessionActive(now) ==> r.currentOwner == active.username && r.isVip == active.isVip
      ensures forall u :: u in r.waitingUsers <==> u in waiting && Some(u) != active.username
      ensures r.waitingUsers == WaitingView(waiting, active.username)
    {
      var hasActive := active.id.Some?;
      var elapsed := if hasActive then now - active.startTime else 0.0;
      var timeout := TimeoutSeconds();
      var isActive := hasActive && elapsed < timeout as real;
      var isCurrent := isActive && userId == active.id;
      var remaining := if isCurrent then timeout as real - elapsed else 0.0;
      SessionInfo(isCurrent, Max(0, Trunc(remaining)),
                  if isActive then active.username else None,
                  timeout,
                  if isActive then active.isVip else false,
                  WaitingView(waiting, active.username))
    }

    /** `get_waiting_info(username)`; the argument is unused by the source. */
    function WaitingInfoAt(now: real): (r: WaitingInfo)
      reads this
      ensures r.sessionTimeout == TimeoutSeconds()
      ensures r.remainingSeconds >= 0
      ensures !IsSessionActive(now) ==> r.remainingSeconds == 0 && r.currentOwner.None?
      ensures IsSessionActive(now) ==> r.currentOwner == active.username && r.remainingSeconds == RemainingSeconds(now)
      ensures forall u :: u in r.waitingUsers <==> u in waiting && Some(u) != active.username
      ensures r.waitingUsers == WaitingView(waiting, active.username)
    {
      var hasActive := active.id.Some?;
      var elapsed := if hasActive then now - active.startTime else 0.0;
      var timeout := TimeoutSeconds();
      var isActive := hasActive && elapsed < timeout as real;
      WaitingInfo(if isActive then active.username else None,
                  WaitingView(waiting, active.username),
                  if isActive then Max(0, Trunc(timeout as real - elapsed)) else 0,
                  timeout)
    }

    /** Another id holds a session that has not timed out: the condition
        under which `try_acquire_control` queues the caller. */
    predicate HeldByOther(userId: Option<string>, now: real)
      reads this
    {
      IsSessionActive(now) && active.id != userId
    }

    /** `try_acquire_control(user_id, username, is_vip)`. */
    method TryAcquireControl(userId: Option<string>, username: Option<string>, isVip: bool, now: real)
      returns (ok: bool)
      requires Valid()
      modifies this
      ensures Valid()
      ensures ok <==> !old(HeldByOther(userId, now))
      // refused: the holder is kept, the caller is queued once if named
      ensures !ok ==> active == old(active)
      ensures !ok ==> waiting == (if Truthy(username) && username.value !in old(waiting)
                                  then old(waiting) + [username.value] else old(waiting))
      // granted: the caller holds control from now on and no longer waits
      ensures ok ==> active == ActiveUser(userId, username, now, isVip)
      ensures ok ==> waiting == (if username.Some? then RemoveFirst(old(waiting), username.value) else old(waiting))
      ensures ok && username.Some? ==> username.value !in waiting
      ensures ok ==> forall u :: u in waiting <==> u in old(waiting) && Some(u) != username
    {
      if active.id.Some? {
        var elapsed := now - active.startTime;
        var timeout := if active.isVip then VipSessionTimeoutSeconds else SessionTimeoutSeconds;
        if elapsed < timeout as real && active.id != userId {
          if Truthy(username) && username.value !in waiting {
            waiting := waiting + [username.value];
          }
          return false;
        }
      }
      active := ActiveUser(userId, username, now, isVip);
      if username.Some? {
        RemoveFirstNoDup(waiting, username.value);
        var before := waiting;
        waiting := RemoveFirst(waiting, username.value);
        forall i | 0 <= i < |waiting| ensures waiting[i] != "" {
          assert waiting[i] in before;
        }
      }
      return true;
    }

    /** `release_control(user_id)`: only the holder's id releases (two
        missing ids compare equal). */
    method ReleaseControl(userId: Option<string>) returns (ok: bool)
      requires Valid()
      modifies this
      ensures Valid()
      ensures ok <==> old(active.id) == userId
      ensures !ok ==> active == old(active) && waiting == old(waiting)
      ensures ok ==> active == NoActiveUser
      ensures ok ==> waiting == (if Truthy(old(active.username)) then RemoveFirst(old(waiting), old(active.username).value)
                                 else old(waiting))
      ensures ok && old(active.username).Some? ==> old(active.username).value !in waiting
    {
      if active.id != userId {
        return false;
      }
      var name := active.username;
      active := NoActiveUser;
      if Truthy(name) {
        RemoveFirstNoDup(waiting, name.value);
        var before := waiting;
        waiting := RemoveFirst(waiting, name.value);
        forall i | 0 <= i < |waiting| ensures waiting[i] != "" {
          assert waiting[i] in before;
        }
      } else if name.Some? {
        assert name.value !in waiting;
      }
      return true;
    }

    /** `add_to_waiting_list(username)`. */
    method AddToWaitingList(username: Option<string>)
      requires Valid()
      modifies this
      ensures Valid()
      ensures active == old(active)
      ensures waiting == (if Truthy(username) && username.value !in old(waiting)
                          then old(waiting) + [username.value] else old(waiting))
      ensures Truthy(username) ==> username.value in waiting
    {
      if Truthy(username) && username.value !in waiting {
        waiting := waiting + [username.value];
      }
    }

    /** `is_active_user(user_id)` as written: it holds the non-reentrant lock
        while it evaluates `is_session_active()`, which takes the same lock,
        so whenever the ids match the call never returns. */
    function IsActiveUserAsWritten(userId: Option<string>): (c: Call<bool>)
      reads this
      ensures c.Deadlock? <==> active.id == userId
      ensures c != Returns(true)
    {
      if active.id == userId then Deadlock else Returns(false)
    }

    /** What `is_active_user` is evidently meant to compute: the same answer
        `get_session_info` gives under `is_active_user`. */
    predicate IsActiveUser(userId: Option<string>, now: real)
      reads this
    {
      active.id == userId && IsSessionActive(now)
    }

    /** The intended query agrees with `get_session_info`; the code as
        written instead hangs for exactly the callers it should accept. */
    lemma IsActiveUserAgreement(userId: Option<string>, now: real)
      ensures IsActiveUser(userId, now) <==> SessionInfoAt(userId, now).isActiveUser
      ensures IsActiveUser(userId, now) ==> IsActiveUserAsWritten(userId).Deadlock?
    {
    }
  }

  /** A concrete state in which the holder asks `is_active_user` about
      itself: the intended answer is yes, the code as written hangs. */
  method IsActiveUserCounterexample() returns (m: SessionManager)
    ensures m.IsActiveUser(Some("u1"), 10.0)
    ensures m.IsActiveUserAsWritten(Some("u1")) == Deadlock
  {
    m := new SessionManager();
    var ok := m.TryAcquireControl(Some("u1"), Some("alice"), false, 5.0);
  }
}

=== FILE: web_controller.dfy ===
/** The queue and dispatch logic of the older web controller: the module
    globals `_active_user`, `_waiting_users` and `_movement_enabled` become
    the fields of one `Controller` object, and each route handler that
    touches them is one atomic step (the handlers run under
    `_active_user_lock`). Cookies arrive as optional strings, the clock as
    `now`, and a fresh `uuid4` as the parameter `freshId`. */
module WebController {
  import opened Common
  import opened Session

  /** A JSON value of a `/control` request body, as far as the dispatch
      looks at it. */
  datatype Value = Num(x: real) | Bool(b: bool) | Text(s: string) | Null | Other

  /** `v > 0` in Python: numbers and booleans compare, anything else raises
      a TypeError. */
  function Positive(v: Value): (r: Option<bool>)
    ensures r.None? <==> !(v.Num? || v.Bool?)
    ensures v.Num? ==> r == Some(v.x > 0.0)
    ensures v.Bool? ==> r == Some(v.b)
  {
    match v
    case Num(x) => Some(x > 0.0)
    case Bool(b) => Some(b)
    case _ => None
  }

  /** What `/control` does with a request: the service call it makes with
      the arguments it passes, or the failure it answers with. */
  datatype ControlAction =
    | MonitorOnly                       // movement is switched off
    | NoService                         // `service is None`
    | EmptyBody                         // `not data`
    | InvalidFormat                     // no branch applies
    | ComparisonFailed                  // `duration > 0` raised
    | Predefined(command: Value)
    | PredefinedForDuration(command: Value, duration: Value)
    | ArmPositions(positions: map<string, Value>)
    | Velocity(x: Value, y: Value, theta: Value)
    | VelocityForDuration(x: Value, y: Value, theta: Value, duration: Value)

  const VelocityKeys: set<string> := {"x_vel", "y_vel", "theta_vel"}

  /** `data.get(k, default)` */
  function Get(data: map<string, Value>, k: string, default: Value): (v: Value)
    ensures k in data ==> v == data[k]
    ensures k !in data ==> v == default
  {
    if k in data then data[k] else default
  }

  predicate HasPosKey(data: map<string, Value>) {
    exists k :: k in data && EndsWith(k, ".pos")
  }

  /** The entries of `data` whose key ends in ".pos". */
  function PosEntries(data: map<string, Value>): (m: map<string, Value>)
    ensures forall k :: k in m <==> k in data && EndsWith(k, ".pos")
    ensures forall k :: k in m ==> m[k] == data[k]
  {
    map k | k in data && EndsWith(k, ".pos") :: data[k]
  }

  /** The arm branch is taken exactly when it has something to send. */
  lemma HasPosKeyNonEmpty(data: map<string, Value>)
    ensures HasPosKey(data) <==> PosEntries(data) != map[]
  {
    if HasPosKey(data) {
      var k :| k in data && EndsWith(k, ".pos");
      assert k in PosEntries(data);
    }
  }

  /** A login cookie is required; `not username` redirects. */
  datatype IndexResponse =
    | RedirectToLogin
    | Busy(page: WaitingInfo)           // 429 with the waiting page
    | ControlPage(sessionCookie: string)

  class Controller {
    var active: ActiveUser
    var waiting: seq<string>
    var movementEnabled: bool

    ghost predicate Valid()
      reads this
    {
      NoDup(waiting) && forall i :: 0 <= i < |waiting| ==> waiting[i] != ""
    }

    constructor ()
      ensures active == NoActiveUser && waiting == [] && !movementEnabled
      ensures Valid()
    {
      active := NoActiveUser;
      waiting := [];
      movementEnabled := false;
    }

    function Timeout(): (t: int)
      reads this
      ensures t == VipSessionTimeoutSeconds <==> active.isVip
      ensures t == SessionTimeoutSeconds <==> !active.isVip
    {
      if active.isVip then VipSessionTimeoutSeconds else SessionTimeoutSeconds
    }

    /** A session counts only with an id, a positive start time, and less
        than its timeout elapsed. */
    predicate IsActive(now: real)
      reads this
    {
      active.id.Some? && active.startTime > 0.0 && now - active.startTime < Timeout() as real
    }

    /** `max(0, int(timeout - elapsed))` for an active session, else 0. */
    function Remaining(now: real): (n: int)
      reads this
      ensures n >= 0
      ensures !IsActive(now) ==> n == 0
      ensures IsActive(now) ==> n as real <= Timeout() as real - (now - active.startTime) < n as real + 1.0
    {
      if IsActive(now) then Max(0, Trunc(Timeout() as real - (now - active.startTime))) else 0
    }

    /** The waiting page (`/wait`, and `/` when busy). */
    function WaitingPage(now: real): (p: WaitingInfo)
      reads this
      ensures p.sessionTimeout == Timeout() && p.remainingSeconds == Remaining(now)
      ensures forall u :: u in p.waitingUsers <==> u in waiting && Some(u) != active.username
      ensures p.waitingUsers == WaitingView(waiting, active.username)
      // the owner is shown only while the session is live
      ensures p.currentOwner == (if IsActive(now) then active.username else None)
      ensures !IsActive(now) ==> p.remainingSeconds == 0
    {
      WaitingInfo(if IsActive(now) then active.username else None,
                  WaitingView(waiting, active.username), Remaining(now), Timeout())
    }

    /** The queueing rule of `/` and `/wait`. */
    method Enqueue(username: string)
      requires Valid() && username != ""
      modifies this`waiting
      ensures Valid()
      ensures waiting == if username in old(waiting) then old(waiting) else old(waiting) + [username]
    {
      if username !in waiting {
        waiting := waiting + [username];
      }
    }

    /** `waiting.remove(username)` when present. */
    method Dequeue(username: string)
      requires Valid()
      modifies this`waiting
      ensures Valid()
      ensures waiting == RemoveFirst(old(waiting), username)
      ensures forall u :: u in waiting <==> u in old(waiting) && u != username
    {
      RemoveFirstNoDup(waiting, username);
      var before := waiting;
      waiting := RemoveFirst(waiting, username);
      forall i | 0 <= i < |waiting| ensures waiting[i] != "" {
        assert waiting[i] in before;
      }
    }

    /** Route `/`. */
    method Index(username: Option<string>, cookieId: Option<string>, now: real, freshId: string)
      returns (resp: IndexResponse)
      requires Valid()
      modifies this
      ensures Valid()
      ensures movementEnabled == old(movementEnabled)
      ensures !Truthy(username) ==> resp == RedirectToLogin && active == old(active) && waiting == old(waiting)
      // someone else holds an active session: 429, queued once
      ensures Truthy(username) && old(IsActive(now)) && cookieId != old(active.id) ==>
                active == old(active)
                && waiting == (if username.value in old(waiting) then old(waiting) else old(waiting) + [username.value])
                && resp == Busy(WaitingPage(now))
      // nobody active: the requester takes over as an ordinary user
      ensures Truthy(username) && !old(IsActive(now)) ==>
                var id := if Truthy(cookieId) then cookieId.value else freshId;
                active == ActiveUser(Some(id), username, now, false)
                && waiting == RemoveFirst(old(waiting), username.value)
                && resp == ControlPage(id)
      // the owner comes back: only the username is refreshed, the clock keeps running
      ensures Truthy(username) && old(IsActive(now)) && cookieId == old(active.id) ==>
                active == old(active).(username := username)
                && active.startTime == old(active.startTime)
                && waiting == RemoveFirst(old(waiting), username.value)
                && resp == ControlPage(cookieId.value)
    {
      if !Truthy(username) {
        return RedirectToLogin;
      }
      var name := username.value;
      var isActive := IsActive(now);
      if isActive && cookieId != active.id {
        Enqueue(name);
        return Busy(WaitingPage(now));
      }
      if !isActive {
        var id := if Truthy(cookieId) then cookieId.value else freshId;
        active := ActiveUser(Some(id), username, now, false);
        Dequeue(name);
        resp := ControlPage(id);
      } else {
        active := active.(username := username);
        Dequeue(name);
        resp := ControlPage(cookieId.value);
      }
    }

    /** Route `/vip`: takes over whatever the current holder, with the VIP
        timeout. */
    method Vip(username: Option<string>, cookieId: Option<string>, now: real, freshId: string)
      returns (resp: IndexResponse)
      requires Valid()
      modifies this
      ensures Valid()
      ensures movementEnabled == old(movementEnabled)
      ensures !Truthy(username) ==> resp == RedirectToLogin && active == old(active) && waiting == old(waiting)
      ensures Truthy(username) ==>
                var id := if Truthy(cookieId) then cookieId.value else freshId;
                active == ActiveUser(Some(id), username, now, true)
                && waiting == RemoveFirst(old(waiting), username.value)
                && resp == ControlPage(id)
    {
      if !Truthy(username) {
        return RedirectToLogin;
      }
      var id := if Truthy(cookieId) then cookieId.value else freshId;
      active := ActiveUser(Some(id), username, now, true);
      Dequeue(username.value);
      resp := ControlPage(id);
    }

    /** Route `/wait`: queues the requester only while another id holds an
        active session; `None` is the redirect to the login page. */
    method Wait(username: Option<string>, cookieId: Option<string>, now: real) returns (page: Option<WaitingInfo>)
      requires Valid()
      modifies this`waiting
      ensures Valid()
      ensures !Truthy(username) ==> page.None? && waiting == old(waiting)
      ensures Truthy(username) ==> page == Some(WaitingPage(now))
      ensures Truthy(username) && IsActive(now) && cookieId != active.id ==>
                waiting == (if username.value in old(waiting) then old(waiting) else old(waiting) + [username.value])
      ensures !(IsActive(now) && cookieId != active.id) ==> waiting == old(waiting)
    {
      if !Truthy(username) {
        return None;
      }
      if IsActive(now) && cookieId != active.id {
        Enqueue(username.value);
      }
      page := Some(WaitingPage(now));
    }

    /** Route `/exit_control`: 200 and the session cleared when the cookie id
        is the holder's id (two missing ids are equal), 403 otherwise. The
        name removed from the queue is the requester's. */
    method ExitControl(cookieId: Option<string>, username: Option<string>) returns (status: int)
      requires Valid()
      modifies this
      ensures Valid()
      ensures movementEnabled == old(movementEnabled)
      ensures status == 200 <==> cookieId == old(active.id)
      ensures status == 200 || status == 403
      ensures status == 403 ==> active == old(active) && waiting == old(waiting)
      ensures status == 200 ==> active == NoActiveUser
      ensures status == 200 ==> waiting == (if Truthy(username) then RemoveFirst(old(waiting), username.value) else old(waiting))
    {
      if cookieId != active.id {
        return 403;
      }
      active := NoActiveUser;
      if Truthy(username) {
        Dequeue(username.value);
      }
      return 200;
    }

    /** Route `/session_info`. */
    function SessionInfoAt(cookieId: Option<string>, now: real): (r: SessionInfo)
      reads this
      ensures r.isActiveUser <==> IsActive(now) && cookieId == active.id
      ensures r.remainingSeconds >= 0
      ensures !r.isActiveUser ==> r.remainingSeconds == 0
      ensures r.isActiveUser ==> r.remainingSeconds == Remaining(now)
      ensures !IsActive(now) ==> r.currentOwner.None? && !r.isVip
      ensures IsActive(now) ==> r.currentOwner == active.username && r.isVip == active.isVip
      ensures r.sessionTimeout == Timeout()
      ensures forall u :: u in r.waitingUsers <==> u in waiting && Some(u) != active.username
      ensures r.waitingUsers == WaitingView(waiting, active.username)
    {
      var isActive := IsActive(now);
      var isCurrent := isActive && cookieId == active.id;
      var remaining := if isActive then Timeout() as real - (now - active.startTime) else 0.0;
      SessionInfo(isCurrent, Max(0, Trunc(if isCurrent then remaining else 0.0)),
                  if isActive then active.username else None,
                  Timeout(),
                  if isActive then active.isVip else false,
                  WaitingView(waiting, active.username))
    }

    /** Route `/startmove`. */
    method StartMove()
      modifies this`movementEnabled
      ensures movementEnabled
    {
      movementEnabled := true;
    }

    /** Route `/stopmove`; `stopsRobot` says whether it asks the service to
        stop (whenever one exists). */
    method StopMove(hasService: bool) returns (stopsRobot: bool)
      modifies this`movementEnabled
      ensures !movementEnabled
      ensures stopsRobot == hasService
    {
      movementEnabled := false;
      stopsRobot := hasService;
    }

    /** Route `/control`: which service call a request leads to. `body` is
        the decoded JSON object, `None` when there is none. */
    function ControlDispatch(hasService: bool, body: Option<map<string, Value>>): (r: ControlAction)
      reads this
      ensures !movementEnabled ==> r == MonitorOnly
      ensures movementEnabled && !hasService ==> r == NoService
      ensures movementEnabled && hasService && (body.None? || body.value == map[]) ==> r == EmptyBody
      // a request that gets past the guards is served from its first matching branch
      ensures r.Predefined? || r.PredefinedForDuration? ==> body.Some? && "command" in body.value
      ensures r.ComparisonFailed? ==> body.Some? && Positive(Get(body.value, "duration", Num(0.0))).None?
      ensures r.PredefinedForDuration? ==> body.Some? && Positive(r.duration) == Some(true) && r.command == body.value["command"]
      ensures r.Predefined? ==> body.Some? && Positive(Get(body.value, "duration", Num(0.0))) == Some(false)
      ensures r.ArmPositions? ==> body.Some? && "command" !in body.value && r.positions == PosEntries(body.value)
                                  && r.positions != map[]
      ensures r.Velocity? || r.VelocityForDuration? ==>
                body.Some? && "command" !in body.value && !HasPosKey(body.value)
                && (exists k :: k in VelocityKeys && k in body.value)
                && r.x == Get(body.value, "x_vel", Num(0.0)) && r.y == Get(body.value, "y_vel", Num(0.0))
                && r.theta == Get(body.value, "theta_vel", Num(0.0))
      ensures r.VelocityForDuration? ==> Positive(r.duration) == Some(true)
      ensures r.Velocity? ==> body.Some? && Positive(Get(body.value, "duration", Num(0.0))) == Some(false)
      // conversely, each branch is taken whenever its condition holds
      ensures movementEnabled && hasService && body.Some? && body.value != map[] && "command" in body.value ==>
                var d := Get(body.value, "duration", Num(0.0));
                (Positive(d).None? ==> r == ComparisonFailed)
                && (Positive(d) == Some(true) ==> r == PredefinedForDuration(body.value["command"], d))
                && (Positive(d) == Some(false) ==> r == Predefined(body.value["command"]))
      ensures (movementEnabled && hasService && body.Some? && body.value != map[] && "command" !in body.value
               && HasPosKey(body.value)) ==> r == ArmPositions(PosEntries(body.value))
      ensures (movementEnabled && hasService && body.Some? && body.value != map[] && "command" !in body.value
               && !HasPosKey(body.value) && (exists k :: k in VelocityKeys && k in body.value)) ==>
                var d := Get(body.value, "duration", Num(0.0));
                var x, y, theta := Get(body.value, "x_vel", Num(0.0)), Get(body.value, "y_vel", Num(0.0)),
                                   Get(body.value, "theta_vel", Num(0.0));
                (Positive(d).None? ==> r == ComparisonFailed)
                && (Positive(d) == Some(true) ==> r == VelocityForDuration(x, y, theta, d))
                && (Positive(d) == Some(false) ==> r == Velocity(x, y, theta))
      ensures r == InvalidFormat <==>
                movementEnabled && hasService && body.Some? && body.value != map[]
                && "command" !in body.value && !HasPosKey(body.value)
                && !(exists k :: k in VelocityKeys && k in body.value)
    {
      if !movementEnabled then MonitorOnly
      else if !hasService then NoService
      else if body.None? || body.value == map[] then EmptyBody
      else
        var data := body.value;
        if "command" in data then
          var duration := Get(data, "duration", Num(0.0));
          match Positive(duration)
          case None => ComparisonFailed
          case Some(timed) =>
            if timed then PredefinedForDuration(data["command"], duration) else Predefined(data["command"])
        else if HasPosKey(data) then ArmPositions(PosEntries(data))
        else if exists k :: k in VelocityKeys && k in data then
          var duration := Get(data, "duration", Num(0.0));
          var x, y, theta := Get(data, "x_vel", Num(0.0)), Get(data, "y_vel", Num(0.0)), Get(data, "theta_vel", Num(0.0));
          match Positive(duration)
          case None => ComparisonFailed
          case Some(timed) =>
            if timed then VelocityForDuration(x, y, theta, duration) else Velocity(x, y, theta)
        else InvalidFormat
    }
  }
}
